=== FILE: README.md ===
# FlotaV fleet core in Dafny

A model of the logic in the FlotaV fleet-management application that can be stated
precisely, and proofs about it. The application itself is a Streamlit app written in Python.

The model covers:

- **Usage estimator** (`analizar_km_por_tiempo`). For each plate, it merges the service
  odometer readings with a reading of the current km dated today. Each consecutive pair with a
  positive day gap gives one km-per-day sample. The samples are summarised per plate, and the
  rows are ordered by mean rate.
- **Maintenance forecaster** (`predecir_proximos_mantenimientos`). It combines a distance
  threshold and a time threshold, takes the earlier date, attaches an urgency label, and sorts
  the result the way the code does.
- **Cost-model guards** (`crear_modelo_prediccion_costos`, `predecir_costo_service`). These are
  the row filter, the ten-row minimum, the missing-artefact answer and the clamp at zero. The
  fitted regression is a function parameter.
- **Validators**. Plate format, integer range, text length, the SQL sanitiser and email shape.
- **Cache**. The TTL/LRU cache with an explicit clock, and the `cached` wrapper.
- **Pagination**. Page arithmetic, navigation, conjunctive column filters and text search.
- **CSV import normalisation**. Header-row detection, alias resolution, digit extraction,
  de-duplication and the estado whitelist.
- **Three fleet stores**:
  - `database.py`: the import skips stored plates; completing a scheduled maintenance;
  - `database_standalone.py`: the import upserts; the delete is refused while history exists;
  - `secure_database.py`: validation-gated add, update, delete, lookup and service record.
- **Notification texts** of `send_message.py`.

Stored dates are integer day numbers. "Today" or "now" is always a parameter: an instant in
nanoseconds for the estimator and the forecaster, a day number elsewhere. Mileage rates are
exact `real`s. Where `database.py` has both a PostgreSQL and an SQLite branch, the SQLite
branch is modelled (`DATABASE_URL` unset). The store is a map from plate to row, plus sequences of service and incident
records and a map of schedules. A row is a map from column name to a dynamic `Value` (null,
text, integer or real).

Modules follow the program's files:

| module | file | models |
|---|---|---|
| `Common` | `common.dfy` | dynamic values, truncation and ceiling |
| `Text` | `text.dfy` | Python string operations the source relies on |
| `Sorting` | `sorting.dfy` | a stable insertion sort standing in for pandas' `sort_values` |
| `Usage` | `usage.dfy` | `analytics.py`, the estimator |
| `Forecast` | `forecast.dfy` | `analytics.py`, the forecaster |
| `CostModel` | `costmodel.dfy` | `analytics.py`, the cost-model guards |
| `Validators` | `validators.dfy` | `validators.py` |
| `Cache` | `cache.dfy` | `cache_manager.py` |
| `Pagination` | `pagination.dfy` | `pagination.py` |
| `CsvImport` | `csvimport.dfy` | the normalisation of `database.py` and its copy in `database_standalone.py` |
| `Store` | `store.dfy` | tables shared by the three stores, and the service-record effect |
| `Legacy` | `legacy.dfy` | `database.py` |
| `Standalone` | `standalone.dfy` | `database_standalone.py` |
| `Secure` | `secure.dfy` | `secure_database.py` |
| `Messages` | `messages.dfy` | `send_message.py` |

## Model

| member | source | states |
|---|---|---|
| Usage.TodayReadingsAtMostOne | analytics.py:50-52 | with plates unique in the vehicle table, a plate gets at most one "today" reading, and exactly one iff a vehicle has that plate |
| Usage.Readings | analytics.py:43-56 | a plate's readings are exactly its service readings plus its today reading (as a multiset), ordered by date |
| Usage.PairSample | analytics.py:59-71 | a sample's rate times the day gap equals the km difference, and the sample carries the later reading's km and date |
| Usage.ValidPairsGiveSamples | analytics.py:59-71 | every consecutive pair with both km known and a positive day gap contributes its sample |
| Usage.SamplesComeFromValidPairs | analytics.py:66-68 | every sample comes from such a pair, so pairs with a missing km or a non-positive gap give none |
| Usage.FallingOdometerKept | analytics.py:64-71 | every consecutive pair with both km known, a positive day gap and a smaller later km yields its sample, and that rate is negative: a falling odometer is not filtered |
| Usage.MonotoneOdometerNonNegativeRates | analytics.py:59-71 | when the odometer never falls along the readings, every rate is non-negative |
| Usage.StatOf | analytics.py:81-96 | count is the number of samples; the mean counted once per sample adds up to the sum of the rates; min ≤ mean ≤ max, and min and max are attained rates that bound every rate; annual = mean × 365; km and date come from the last sample |
| Usage.MeanBetweenMinAndMax | analytics.py:81-82 | the mean of the rates lies between their minimum and maximum |
| Usage.MeanRate | analytics.py:81 | the mean rate counted once per sample adds up to the sum of the rates |
| Usage.LaterServiceGapAfterMidnight | analytics.py:51-68 | in a run after midnight, a service dated k days after today is k − 1 whole days after the today reading, so one dated tomorrow gives no sample |
| Usage.Analyze | analytics.py:26-101 | an empty vehicle or service table gives no rows; one row per plate, ordered by mean descending; every row summarises its plate's samples; every serviced plate with a sample gets a row |
| Usage.AnalyzeOnePerPlate | analytics.py:81-99 | the ordered summary never lists a plate twice |
| Usage.AnalyzeContents | analytics.py:81-99 | every summary row belongs to a plate with samples and is that plate's summary |
| Usage.AnalyzeCovers | analytics.py:81-99 | no plate with samples is missing from the summary |
| Forecast.LatestService | analytics.py:136-138 | the chosen service is a service of the plate with no later-dated one, and there is none exactly when the plate has no service |
| Forecast.DaysToThreshold | analytics.py:157-161 | for a positive rate, the day count is the least non-negative count that covers the remaining km |
| Forecast.Label | analytics.py:174-181 | first match: ATRASADO iff days < 0, URGENTE iff 0..15, PRÓXIMO iff 16..30, PLANIFICADO iff > 30 |
| Forecast.LabelIsOneOfFour | analytics.py:174-181 | every day count gets one of the four labels, never the DESCONOCIDO default |
| Forecast.Base | analytics.py:136-154 | the last-service instant and km come from the plate's latest service, falling back to the fill-in instant and to the current km; days since is the whole days from hoy back to it, rounded down; the time-based due instant is that instant plus the day threshold |
| Forecast.Complete | analytics.py:160-181 | the next instant is the earlier of the km-based and time-based ones; days until is the whole days from hoy to it, rounded down, and ≤ days to the km threshold; days until < 0 iff the time-based instant has passed; the label is Label(days until); no other field changes |
| Forecast.PredictionOf | analytics.py:153-181 | for a non-zero rate the days to the km threshold are non-negative and days until is at most that count; for a positive rate that count reaches the threshold and is the first day that does; days until < 0 iff the time-based date has passed |
| Forecast.TimeDueAfterMidnight | analytics.py:160-171 | in a run after midnight, a time-based due date that comes first counts one day fewer than its date says, so a vehicle due today is ATRASADO |
| Forecast.ForecastFrom | analytics.py:122-190 | no stats, or any zero mean rate, gives an empty table; otherwise one prediction per stat, sorted by label text then days |
| Forecast.Forecast | analytics.py:107-190 | empty inputs give an empty table; a zero-rate plate empties it; rows are sorted and each is the prediction of a plate's summary |
| Forecast.ForecastRowsFromStats | analytics.py:128-171 | every forecast row is the prediction of a stat with a non-zero rate |
| Forecast.LabelTextOrder | analytics.py:184 | as text, ATRASADO < PLANIFICADO < PRÓXIMO < URGENTE |
| Forecast.PlannedBeforeUrgent | analytics.py:184 | in the table as sorted, every PLANIFICADO row precedes every URGENTE row although it has more days left |
| Forecast.ZeroRateEmptiesFleet | analytics.py:157-158 | one parked vehicle (zero mean rate) empties the whole forecast, while the corrected forecast keeps both rows |
| Forecast.Rank | analytics.py:174-181 | urgency rank 0..3 corresponds one-to-one with the four labels |
| Forecast.RankMonotone | analytics.py:174-181 | fewer days left never gives a less urgent rank |
| Forecast.UrgencyLeIsDaysLe | analytics.py:184 | ordering by urgency rank, then days, is ordering by days left |
| Forecast.PredictionIntended | analytics.py:153-171 | agrees with the code for non-zero rates; for a zero rate, falls back to the time-based date |
| Forecast.ForecastIntended | analytics.py:184 | the corrected forecast: one row per stat, sorted by urgency rank then days |
| Forecast.IntendedOrderIsByDaysLeft | analytics.py:184 | the corrected forecast is ordered by days left |
| Forecast.IntendedAgreesWithoutZeroRates | analytics.py:128-184 | without zero rates, the corrected forecast has the same rows as the code's, reordered |
| CostModel.Join | analytics.py:208-211 | the inner join holds only same-plate pairs of a listed service and a listed vehicle, and every such pair |
| CostModel.Qualifying | analytics.py:213-215 | the joined rows with a positive cost and a known km, in order, each as often as in the join, and no other row |
| CostModel.TrainingRowsExactly | analytics.py:208-215 | a training row is exactly a same-plate service/vehicle pair with positive cost and known km |
| CostModel.JoinCounts | analytics.py:208-211 | a same-plate pair appears in the join once per copy of the service times copy of the vehicle; any other pair never |
| CostModel.TrainingRowsCounts | analytics.py:208-215 | a qualifying same-plate pair is a training row once per copy of the service times copy of the vehicle; any other pair never |
| CostModel.Train | analytics.py:204-276 | empty input gives "Datos insuficientes"; fewer than 10 qualifying rows gives the minimum-rows message; in both cases no artefact is written; otherwise the fitted model and the column list are stored |
| CostModel.FewServicesNeverTrain | analytics.py:208-218 | with unique vehicle plates, fewer than 10 services can never train a model |
| CostModel.JoinAtMostServices | analytics.py:208-211 | with unique vehicle plates, the join has at most one row per service |
| CostModel.QueryOf | analytics.py:314-321 | the query takes año, marca and tipo from the vehicle, with defaults 2020, '' and '', and an age of 0 days |
| CostModel.PredictCost | analytics.py:303-331 | no answer unless both artefacts exist; otherwise the model's answer clamped to ≥ 0 |
| CostModel.TrainThenPredict | analytics.py:265-331 | after a successful training, prediction answers with the clamped output of the fitted model |
| CostModel.RefusalKeepsPrediction | analytics.py:204-305 | a refused training leaves predictions as they were |
| Validators.ValidatePlate | validators.py:8-35 | empty input is rejected with its own message; input is accepted iff, upper-cased and stripped, it matches LLLDDD or LLDDDLL with optional separators; an accepted plate is canonical and 6 or 7 characters long |
| Validators.PlateAcceptsSeparatedForms | validators.py:18-33 | every canonical plate, written with any allowed separators, is accepted as itself |
| Validators.PlateValidationIdempotent | validators.py:18-33 | validating a cleaned plate again gives the same verdict |
| Validators.OldFormAccepted | validators.py:18-33 | an old-style plate with a separator is accepted as its letters and digits |
| Validators.MercosurFormAccepted | validators.py:18-33 | a Mercosur plate with separators is accepted as its letters and digits |
| Validators.PatternGivesCanonical | validators.py:18-33 | removing the separators from any matching text gives a canonical plate |
| Validators.ValidateInt | validators.py:37-72 | when optional, None and '' are accepted; otherwise accepted iff the value converts to an integer within the bounds; the first failing check picks the message |
| Validators.ValidateIntAcceptsItsText | validators.py:51-72 | the decimal text of an in-range integer is accepted |
| Validators.ParseIntOfIntToString | validators.py:51-53 | integer conversion reads back the decimal text of every integer |
| Validators.ValidateText | validators.py:118-150 | an optional empty value is accepted, and None is rejected when required; otherwise accepted iff the length is within the bounds; a too-short text gets the minimum message and a too-long one the maximum message, each naming its bound |
| Validators.ValidateTextMonotone | validators.py:118-150 | a text accepted under some bounds is still accepted when it is made optional or the bounds are widened |
| Validators.Sanitize | validators.py:190-216 | None stays None; the result has no ';' and exactly twice as many single quotes as the input |
| Validators.SanitizeFacts | validators.py:200-214 | the six replacements, in order, leave no ';' and double the quotes |
| Validators.EmailShapeMatchesPattern | validators.py:228-235 | the character-level email shape is equivalent to the pattern |
| Validators.ValidateEmail | validators.py:218-237 | accepted iff non-empty and it matches the pattern, with `$` also matching before a final newline; empty input gets its own message |
| Cache.Delete | cache_manager.py:175-198 | true iff the key was present; afterwards the key is absent and every other entry is unchanged |
| Cache.EvictOldest | cache_manager.py:223-234 | a no-op on an empty cache; otherwise exactly one entry with minimal last access is removed, and it is the first such key in insertion order, as `min` picks |
| Cache.Get | cache_manager.py:119-146 | a hit iff enabled, present and not expired; a hit returns the data and updates last access and count only; an expired entry is removed; a disabled cache or missing key changes nothing |
| Cache.Set | cache_manager.py:148-173 | disabled: false, nothing changes; otherwise the key holds a fresh item, and at most one other entry, a least recently accessed one, is evicted, only when the cache is full and the key is new |
| Cache.SetKeepsCapacity | cache_manager.py:163-168 | with capacity ≥ 1, a cache within capacity stays within it |
| Cache.GetAfterSet | cache_manager.py:28-168 | a value set now is returned by any read until its TTL has passed |
| Cache.CleanupExpired | cache_manager.py:214-221 | exactly the expired entries are removed, and the count removed is returned |
| Cache.Cached | cache_manager.py:329-346 | a stored non-None value is served; otherwise the function's result is returned and stored |
| Cache.NoneIsRecomputed | cache_manager.py:336-344 | a None result is computed again on the next call |
| Cache.ValueIsServed | cache_manager.py:336-346 | a non-None result is served from the cache while it is fresh |
| Pagination.NPages | pagination.py:30-33 | the page count is the least number of pages that holds every row, and is at least 1 iff there are rows |
| Pagination.Clamp | pagination.py:35-39 | the stored page is moved into 0..n−1 and kept when already there |
| Pagination.Show | pagination.py:21-92 | no view for an empty frame; otherwise a valid page and a slice 0 ≤ start < end ≤ len of at most page_size rows |
| Pagination.PagesPartitionRows | pagination.py:42-44 | each row index lies in exactly one page's slice |
| Pagination.PagesAreContiguous | pagination.py:42-44 | the slices start at 0, end at len and abut |
| Pagination.Press | pagination.py:53-74 | a disabled button leaves the page; first/last jump to 0 and n−1; prev/next move by one; the selector goes to its page |
| Pagination.NavigationStaysInRange | pagination.py:36-74 | every navigation lands on a page the next view shows unchanged |
| Pagination.FiltersAreConjunctive | pagination.py:141-155 | applying the filters one after another keeps exactly the rows that pass all of them |
| Pagination.NoFilterPassesAll | pagination.py:122-155 | without active filters every row passes |
| Pagination.SearchKeepsMatchingRows | pagination.py:169-178 | a row survives the search iff some object-typed column contains the text case-insensitively |
| Pagination.Search | pagination.py:169-178 | an empty search keeps every row; a search with no object-typed column fails |
| Pagination.Filterable | pagination.py:109-204 | an empty frame is returned unchanged; a search with no object-typed column fails, and nothing else does; otherwise at most the input rows, on the chosen columns (all when none is chosen) |
| Pagination.FilterableWithoutSearchIsConjunctive | pagination.py:117-155 | without search or column choice, the result is the frame restricted to rows passing every filter |
| Pagination.SearchAfterFilters | pagination.py:141-178 | searching the rows that passed the filters keeps exactly the reference rows: those passing every filter and matching the search, in order |
| Pagination.FilterableShowsReference | pagination.py:109-204 | a non-empty frame the search does not reject shows, on the chosen columns, exactly the rows that pass every filter and match the search, in their original order |
| CsvImport.DropEmptyRows | database.py:517 | exactly the rows holding some value remain, in order, each as often as in the input |
| CsvImport.ValueColumns | database.py:518 | exactly the columns holding some value are kept |
| CsvImport.HeaderIndex | database.py:522-527 | the first row with a cell reading 'patente' (lower-cased, stripped), if any |
| CsvImport.Relocate | database.py:522-535 | with a header row, the columns take its stripped cells as names (col_j for an empty cell) and exactly the later rows with a non-blank first cell remain, in order; without one, the sheet is unchanged |
| CsvImport.FirstAlias | database.py:560-564 | the first alias, in list order, present among the columns |
| CsvImport.Resolve | database.py:556-570 | ambiguous iff the chosen alias labels two columns; taken from a position iff an alias is present, the position of the first alias in list order; with no alias, the default text (SERVICIO for estado) once an earlier column was found, and all-missing before that |
| CsvImport.LayoutOf | database.py:556-570 | no layout iff some column is ambiguous; otherwise each of the twelve columns is resolved as Resolve says, every position within the sheet |
| CsvImport.WithFallback | database.py:573-601 | once some row has a plate, each of rori, id_vehiculo, taller and the VTV date whose cells are all missing is taken from sheet position 7, 8, 13 or 15, or is '' when the sheet is narrower; every other column keeps its source |
| CsvImport.StandardRows | database.py:556-635 | with no column found by alias the table has no rows; otherwise one standardised row per sheet row, every estado valid |
| CsvImport.Standardised | database.py:516-624 | nothing iff a column of the cleaned sheet is ambiguous; otherwise every estado is valid |
| CsvImport.DigitsOrZeroReadsNumber | database.py:604-624 | año and id read the first run of digits in the cell |
| CsvImport.KmOfIntText | database.py:612-615 | km reads back the decimal text of any integer |
| CsvImport.Whitelist | database.py:632-635 | the stripped, upper-cased estado is kept when valid, and otherwise becomes SERVICIO |
| CsvImport.Dedup | database.py:627 | no plate twice, the same set of plates, and the result is a subsequence of the input: only input rows, in input order |
| CsvImport.DedupKeepsFirsts | database.py:627 | the first row of every plate survives |
| CsvImport.DedupKeepsOnlyFirsts | database.py:627 | every surviving row is the first row of its plate |
| CsvImport.DropBlank | database.py:630 | exactly the rows with a non-blank plate remain, in order, each as often as in the input |
| CsvImport.DropBlankOnePerPlate | database.py:627-630 | dropping blank plates after de-duplication keeps plates unique |
| CsvImport.Normalise | database.py:504-645 | a name not ending in .csv gives nothing; a .csv name gives nothing iff a column's alias is ambiguous; otherwise the plates are unique and non-blank and every estado is valid |
| CsvImport.DedupDropBlankKeepsFirstRows | database.py:627-630 | de-duplicating and dropping blank plates keeps the first row of every non-blank plate, only first rows, every non-blank plate, and in input order |
| CsvImport.NormaliseKeepsFirstRows | database.py:504-645 | an accepted upload holds the first standardised row of every non-blank plate and nothing else, in the order of the sheet |
| CsvImport.MissingPlateColumnLeavesOneRow | database.py:556-630 | a .csv sheet with no plate alias but some other column found is reduced to a single row whose plate is missing |
| CsvImport.DedupSamePlate | database.py:627 | rows that all share one plate de-duplicate to the first of them |
| Store.Serviced | database.py:343-362 | after a service, the vehicle's km, fecha_service and taller are the record's; other columns are kept |
| Store.AddServiceRecord | database.py:330-372 | on the SQLite branch the record is appended, even for an unknown plate; the named vehicle takes its km, date and workshop; no other vehicle changes |
| Store.ServiceForStoredVehicleKeepsConsistency | database.py:330-362 | a service for a stored vehicle keeps every record pointing at a stored vehicle |
| Legacy.AddVehicle | database.py:220-240 | the plate is a primary key: the insert succeeds iff the plate is new |
| Legacy.NewRow | database.py:655-681 | the imported row carries the cleaned plate, its km and its estado, over exactly the vehicle columns |
| Legacy.ImportVehicles | database.py:647-695 | successes plus errors = rows; every error lists a stored or imported plate; stored vehicles are never modified; afterwards exactly the old and the imported plates are stored |
| Legacy.ImportCountsNewPlates | database.py:653-687 | the success count is the number of imported plates that were not stored before |
| Legacy.ImportVehiclesExactly | database.py:647-695 | the errors list, in row order, exactly the plates of the rows whose plate was stored or taken by an earlier row; every other row is stored as its inserted row |
| Legacy.ReimportAddsNothing | database.py:664-668 | importing rows whose plates are all stored changes nothing and reports every row as an error |
| Legacy.EarlierDate | database.py:1146-1148 | the service date is the earlier of today and the scheduled date in string order |
| Legacy.MarkMaintenanceCompleted | database.py:1098-1164 | an unknown schedule or one whose vehicle is gone gives False; otherwise the status becomes COMPLETADO; a missing scheduled date then fails with no record; otherwise a record with the vehicle's km, no workshop and cost 0 is added, and no other vehicle changes |
| Legacy.CompletionNeverInTheFuture | database.py:1146-1159 | a completed maintenance records a service dated no later than today |
| Standalone.Inserted | database_standalone.py:559-577 | a new plate gets the row's values, with defaults for columns the row lacks |
| Standalone.UpsertOne | database_standalone.py:529-582 | no plate: error "unknown"; a stored plate gets the present columns, or is an error when there are none; a new plate is inserted |
| Standalone.UpsertOverwritesPresentColumns | database_standalone.py:538-552 | an update overwrites exactly the present listed columns and keeps every other column |
| Standalone.ImportVehicles | database_standalone.py:518-587 | successes plus errors = rows; every error lists a plate; no vehicle is removed and the other tables are untouched |
| Standalone.ImportVehiclesExactly | database_standalone.py:518-587 | the errors list, in row order, exactly the rows without a plate (as "unknown") or whose stored plate gets no value; afterwards the stored plates are the old ones and the rows' plates, and each column holds the value of the last row of its plate that had one, else the stored value, else what the plate's first row inserted |
| Standalone.ImportStoresEveryPlate | database_standalone.py:529-578 | after the import, every row's plate is stored |
| Standalone.DeleteVehicle | database_standalone.py:166-184 | refused while a service or incident names the plate; otherwise the row goes, and the result says whether one existed |
| Standalone.ServicedVehicleIsKept | database_standalone.py:173-228 | a vehicle with a recorded service cannot be deleted |
| Standalone.DeleteKeepsServiceReferences | database_standalone.py:173-184 | services and incidents keep pointing at stored vehicles after a delete |
| Secure.NewRow | secure_database.py:318-371 | the stored row has exactly the vehicle columns, the plate as the caller typed it, and the year and km as passed |
| Secure.TextCellHasNoSemicolon | secure_database.py:318-325 | a stored text column never holds ';' |
| Secure.AddVehicle | secure_database.py:262-377 | accepted iff the plate, year, km, id and dates pass and the plate is not stored; then exactly one vehicle is added; a rejection changes nothing |
| Secure.AddedVehicleIsValid | secure_database.py:289-325 | an added vehicle's year is between 1950 and the current year, its km empty or ≥ 0, and its text free of ';' |
| Secure.SpellingVariantsStoredTwice | secure_database.py:289-371 | a hyphenated and a bare spelling of one plate are both accepted, as two vehicles, and the lookup of the bare spelling misses the first |
| Secure.AddVehicleCanonical | secure_database.py:289-377 | the corrected add stores the validator's cleaned plate |
| Secure.CanonicalAddKeepsKeysCanonical | secure_database.py:289-371 | with the corrected add, every stored key is a canonical plate |
| Secure.SpellingVariantsCollide | secure_database.py:289-371 | with the corrected add, a second spelling of a stored plate is refused, and the plate is found |
| Secure.UpdateVehicle | secure_database.py:384-485 | accepted iff the checks pass, the plate is stored, and there is at least one known column to set; then only that vehicle changes, taking the sanitised values |
| Secure.UpdateKeepsOtherVehicles | secure_database.py:446-481 | an accepted update keeps the set of stored plates and leaves every other vehicle as it was |
| Secure.UpdateChangesOnlyNamedColumns | secure_database.py:436-481 | an accepted update keeps every column it does not name, and stores non-text values as given |
| Secure.RefusalFrame | secure_database.py:548-559 | the refusal message opens with the plate and closes with the instruction to delete the records |
| Secure.RefusalListsCounts | secure_database.py:548-556 | the refusal message lists every non-zero count of services, incidents and schedules |
| Secure.DeleteVehicle | secure_database.py:491-575 | an invalid plate gives the validator's message; a deletion succeeds iff there are no related records, even when the plate is not stored; then only that vehicle goes |
| Secure.DeleteKeepsConsistency | secure_database.py:510-571 | a delete keeps every record pointing at a stored vehicle |
| Secure.GetVehicle | secure_database.py:578-619 | None for a plate the validator rejects; otherwise the stored row, if any |
| Secure.AddThenGet | secure_database.py:262-619 | a vehicle just added is found under the plate it was added with |
| Secure.AddServiceRecord | secure_database.py:621-716 | accepted iff the plate, date, km, cost and vehicle checks pass; then the record is appended with every field as given (text fields sanitised, the cost as a float) and the vehicle takes its km, date and sanitised workshop, no other vehicle or table changing; a rejection changes nothing |
| Secure.ServiceKeepsConsistency | secure_database.py:621-716 | an accepted service record keeps every record pointing at a stored vehicle |
| Messages.SendTwilio | send_message.py:12-30 | always true; exactly the given message goes out to the given number |
| Messages.SendMaintenanceReminder | send_message.py:33-61 | sends exactly one message, the reminder text, and reports success |
| Messages.ReminderFrame | send_message.py:50-58 | the reminder opens with the vehicle heading and ends with the signature |
| Messages.ReminderDateIffGiven | send_message.py:52-53 | right after the heading comes the date sentence iff the date is non-empty |
| Messages.ReminderKmIffGiven | send_message.py:55-56 | the km sentence appears iff km is non-zero, after the date sentence |
| Messages.ReminderOmitsEmptyParts | send_message.py:52-56 | an empty date is the same as none, and km 0 the same as none |
| Messages.SendVtvExpirationAlert | send_message.py:64-92 | sends exactly one message, the alert text, and reports success |
| Messages.AlertFrame | send_message.py:81-89 | the alert opens with the vehicle heading and ends with the renewal request and the signature |
| Messages.AlertExpiredIffNoDaysLeft | send_message.py:83-86 | the alert says "venció" iff no days are left, and otherwise gives the date and the days left |

## Left out

- The user interface is not modelled: Streamlit widgets, session state, charts, and the
  dashboards of the application files. In the pagination model, the stored page and the
  pressed button are inputs.
- Input and output are not modelled: SQL connections, SMTP and Twilio delivery (the SMS
  "send" is only printed), pickle files, the cache's disk persistence, logging, and backup and
  packaging scripts. Database errors and the `except` paths they reach are not modelled either.
- The regression fit, its scaling and encoding, R² and MAE, and the rounding of a predicted
  cost to two decimals are left out. They are floating-point numerics in foreign libraries, so
  the fitted model is a function parameter.
- The clock is a parameter. Each `pd.to_datetime('today')` is an instant in nanoseconds
  passed in, and a stored date stands for its midnight. The time zone and the calendar
  conversion of stored date strings are not modelled: stored dates arrive as day numbers.
- Usage.Readings: both sorts of the readings (analytics.py:47 and :56) sort on plate and
  date together, which pandas does stably, so same-date readings keep table order with the
  service rows before the today reading. The model follows that order.
- Usage.Analyze: the final sort on the mean rate alone (analytics.py:99) is not stable in
  pandas, so the order of plates with equal means is unspecified. The model keeps plate order
  for them, and no lemma depends on it beyond the descending means.
- Forecast.LatestService: the descending sort on date alone (analytics.py:136) is not stable
  in pandas, so among services of one plate on the same date it is unspecified which supplies
  the last-service km. The model takes the first in table order, and its contract promises
  only a service with no later date.
- The cache clock, md5 key hashing and the process-wide singleton are left out. Keys are plain
  strings, and "now" is a parameter.
- Reads wrapped in the caching decorators of `secure_database.py` are modelled as always
  fresh. The five-minute staleness is a timing concern.
- Secure.AddServiceRecord: `float(costo)` is modelled by the decimal reader of the CSV
  import. Python's `float` also accepts surrounding white space, exponents, underscores
  between digits, "inf" and "nan", and a "nan" cost passes the `< 0` check and is stored.
  For such strings the model rejects the record, so its acceptance is narrower than the
  source's.
- `validar_fecha` is not modelled. Date validity is the predicate parameter `dateOk`, because
  it depends on `strptime`. `validar_decimal_positivo` is not modelled either, because it
  depends on float formatting.
- CsvImport.ParseNumber reads only decimal integers and decimals with one dot. It does not
  read exponents, "inf" or "nan", which `pd.to_numeric` would.
- CsvImport.Normalise: the encoding fallback and `pd.read_csv` type inference are left out. The
  sheet arrives as optional strings.
- CsvImport.Normalise, CsvImport.Standardised: the `replace` at database.py:606 and :620 is
  modelled as pandas 3 does it, keeping a text column. Before pandas 3, `replace` turns a
  column whose cells all become missing into a float column, so `.str.extract` at :608 and
  :622 raises and the `except` at :641-645 returns None. Under such a pandas, a sheet without
  a year or an id column (its default '' becomes missing) is refused, while the model returns
  rows with 0 there. "None iff a column is ambiguous" holds only under the modelled semantics.
- CsvImport.Normalise, CsvImport.Standardised: a km cell that `pd.to_numeric` reads as infinite
  ("inf", "Infinity", "1e400") survives `fillna(0)`, so `.astype(int)` at database.py:614
  raises and the `except` at :641-645 returns None for the whole upload. The model reads such
  a cell as km 0 and returns the rows, so "None iff a column is ambiguous" does not hold for
  such a sheet.
- CsvImport.WithFallback: the `try`/`except` around each positional copy is not modelled.
  The copy is guarded by the sheet width, so the `except` branch does not run on a sheet.
- The `fecha_alta` column (`TEXT DEFAULT CURRENT_DATE`, database.py:124 and
  database_standalone.py:40) is not modelled. No insert sets it, so the database fills it
  with the date of the insert, which reads the clock. No modelled operation reads it, and the
  vehicle columns of the model leave it out.
- Standalone.ImportVehicles, Standalone.UpsertOne: plates that are neither text nor missing
  (a NaN or numeric plate cell) are excluded by a precondition. The SQL comparison of such
  values is not modelled.
- Secure.UpdateVehicle: a change set naming `patente` is excluded by a precondition. Python
  would reject that call before the body runs, since `patente` is then passed twice.
- Secure.UpdateVehicle: a date change whose value is not text is treated like one the date
  check rejects.
- The `st` imported from `turtle` in `secure_database.py` makes every `st.error` call on a
  rejection path raise. Each rejection is modelled as the intended refusal, with the store
  unchanged.
- Pagination.SearchKeepsMatchingRows: a search text is a literal substring. Regular-expression
  syntax in the search text is not interpreted.
- Pagination.Filterable: the index a frame adopts when it lacks a plate column is not modelled.
- Validators.ValidatePlate: `upper()` is modelled by `Text.Upper`, which applies only the
  one-to-one case pairs of ASCII and Latin-1 and leaves every other character unchanged.
  Python also expands 'ß' to "SS" and maps letters outside Latin-1, such as 'ı' and 'ſ', to
  'I' and 'S'. So the source accepts "ßA123" (as "SSA123") where the model rejects it. Every
  other case mapping in the model has the same limit.
- Validators.ValidateText: the `patron` argument (validators.py:152-154) is not modelled. The
  model is `validar_texto` called without a pattern, since the pattern is a regular
  expression. A call with a pattern may reject text the model accepts.
- Validators.ValidateInt: `int()` is modelled for ASCII digits only. Python also accepts other
  Unicode decimal digits, so "١٢٣" or "１２３" is accepted by the source as 123 and rejected
  by the model. Python 3.11 and later also refuse a literal of more than 4300 digits, which
  the model accepts.
- Forecast.ForecastFrom, Forecast.Forecast, Forecast.Complete: the datetime64[ns] range is not
  modelled. A day count past the Timedelta range (about 106,751 days) makes
  `pd.to_timedelta` at analytics.py:164 raise. A count that takes `hoy` past 2262-04-11 makes
  the addition overflow. Either way the `except` at analytics.py:188-190 returns an empty
  table for the whole fleet. A nearly parked vehicle reaches this: serviced at 10000 km and
  read at 10002 km 100 days later, it needs about 249,900 days. The model returns one row per
  stat with that count instead.
- CostModel.Train: the service frame is modelled without the `marca` and `modelo` columns that
  `get_service_history` adds (database.py:416). With them, the merge at analytics.py:208-211
  renames both sides to `marca_x`/`marca_y`. With 10 or more qualifying rows, selecting
  `marca` at analytics.py:252 then raises KeyError, and the `except` at analytics.py:282-284
  returns no model and an "Error: ..." message. The model fits instead, so for the
  application's own caller its fitted branch is not reached in the source.
- Legacy.MarkMaintenanceCompleted: the km passed on at database.py:1154 comes from
  `df.iloc[0]` (database.py:1142) and is a NumPy integer, not a Python int. The model records
  and stores it as the vehicle's integer km. On SQLite such a value is bound through the
  buffer protocol and stored as an 8-byte blob. On PostgreSQL the driver cannot adapt it, so
  `add_service_record` returns False, which is ignored: the call returns True with no record
  and the vehicle unchanged.
- Store.AddServiceRecord: a record for an unknown plate is appended because SQLite leaves the
  foreign key of database.py:70 unenforced (no `PRAGMA foreign_keys`). With `DATABASE_URL`
  set (database.py:15), PostgreSQL enforces it, the insert fails and database.py:366-368
  returns False.
- Unique plates in the vehicle table are a precondition where the proofs need them, following
  the table's primary key.

## Findings

| source | as written | input that shows it | evidently intended | confidence | as-written member | corrected member |
|---|---|---|---|---|---|---|
| analytics.py:174-184 | the forecast is sorted by the label text, so the order is ATRASADO, PLANIFICADO, PRÓXIMO, URGENTE | one vehicle 10 days from service (URGENTE) and one 100 days away (PLANIFICADO): the 100-day vehicle is listed first | sort by urgency (ATRASADO, URGENTE, PRÓXIMO, PLANIFICADO), then by days left | high; not executed | Forecast.PlannedBeforeUrgent | Forecast.IntendedOrderIsByDaysLeft |
| analytics.py:157-158, 188-190 | a plate with a zero mean rate makes the ceiling infinite or NaN; the integer cast raises, and the `except` returns an empty table for the whole fleet | one vehicle with rate 20 km/day and one parked with readings 1000 km, then 1000 km ten days later: no predictions at all | the parked vehicle falls back to the time-based date, and every other vehicle keeps its prediction | high; not executed | Forecast.ZeroRateEmptiesFleet | Forecast.IntendedAgreesWithoutZeroRates |
| secure_database.py:289, 345-371 | the vehicle is stored under the plate as typed, not the validator's cleaned plate | add "ABC-123", then "ABC123": both are accepted as two vehicles, and a lookup of "ABC123" misses the first | store and look up the cleaned plate, so spellings of one plate collide | medium; not executed | Secure.SpellingVariantsStoredTwice | Secure.SpellingVariantsCollide |

=== FILE: cache.dfy ===
/** The in-memory cache of `CacheManager` (cache_manager.py) as a pure
    state machine: a map from keys to items plus the map's insertion order
    (a Python dict iterates in that order, and it decides ties in eviction
    and the order of clean-up). Time is an explicit `now`, in seconds. The
    `cached` decorator is modelled for one key, with the wrapped function's
    result passed in. */
module Cache {
  import opened Common

  /** Keys are strings (the function or query name with a digest of its
      arguments). */
  type Key = string

  const DefaultTtl: int := 3600
  const DefaultSize: int := 100

  /** A cached value with its bookkeeping. */
  datatype Item<V> = Item(data: V, createdAt: int, expiresAt: int, lastAccessed: int, accessCount: nat)

  /** The cache: its items, their insertion order, the capacity and the
      on/off switch. */
  datatype Store<V> = Store(items: map<Key, Item<V>>, order: seq<Key>, maxSize: int, enabled: bool)

  /** A fresh item, created and last read now, never read since. */
  function NewItem<V>(data: V, now: int, ttl: int): Item<V> {
    Item(data, now, now + ttl, now, 0)
  }

  /** Expiry is strict: an item is still live at the instant it expires. */
  predicate Expired<V>(it: Item<V>, now: int) {
    now > it.expiresAt
  }

  /** The order lists each key of the map exactly once. */
  predicate Valid<V>(c: Store<V>) {
    && (forall i, j | 0 <= i < j < |c.order| :: c.order[i] != c.order[j])
    && c.items.Keys == KeySet(c.order)
  }

  function Empty<V>(maxSize: int, enabled: bool): (c: Store<V>)
    ensures Valid(c) && |c.items| == 0
  {
    Store(map[], [], maxSize, enabled)
  }

  // ---------------------------------------------------------------------
  // Helpers on the order

  /** `s` without `k`, other keys in their order. */
  function Without(s: seq<Key>, k: Key): (r: seq<Key>)
    ensures forall x :: x in r <==> x in s && x != k
    ensures (forall i, j | 0 <= i < j < |s| :: s[i] != s[j]) ==> forall i, j | 0 <= i < j < |r| :: r[i] != r[j]
  {
    if |s| == 0 then []
    else
      var rest := Without(s[1..], k);
      assert forall x :: x in s <==> x == s[0] || x in s[1..];
      assert (forall i, j | 0 <= i < j < |s| :: s[i] != s[j]) ==> s[0] !in s[1..];
      if s[0] == k then rest else [s[0]] + rest
  }

  lemma MapRemoveOne<V>(m: map<Key, V>, k: Key)
    requires k in m
    ensures |m - {k}| == |m| - 1
  {
    assert (m - {k}).Keys == m.Keys - {k};
    assert m.Keys == (m.Keys - {k}) + {k};
  }

  lemma MapAddOne<V>(m: map<Key, V>, k: Key, v: V)
    requires k !in m
    ensures |m[k := v]| == |m| + 1
  {
    assert m[k := v].Keys == m.Keys + {k};
  }

  // ---------------------------------------------------------------------
  // delete

  /** `delete`: true iff the key was present; afterwards it is absent and
      every other entry is as it was. */
  function Delete<V>(c: Store<V>, key: Key): (r: (bool, Store<V>))
    requires Valid(c)
    ensures r.0 <==> key in c.items
    ensures Valid(r.1) && key !in r.1.items
    ensures forall k | k != key :: (k in r.1.items <==> k in c.items)
    ensures forall k | k != key && k in c.items :: r.1.items[k] == c.items[k]
    ensures |r.1.items| == if key in c.items then |c.items| - 1 else |c.items|
    ensures r.1.maxSize == c.maxSize && r.1.enabled == c.enabled
    ensures r.1.items == c.items - {key}
  {
    if key in c.items then
      MapRemoveOne(c.items, key);
      RemovalKeepsValid(c, key);
      (true, c.(items := c.items - {key}, order := Without(c.order, key)))
    else
      assert c.items - {key} == c.items;
      (false, c)
  }

  lemma RemovalKeepsValid<V>(c: Store<V>, key: Key)
    requires Valid(c)
    ensures Valid(c.(items := c.items - {key}, order := Without(c.order, key)))
  {
    var items := c.items - {key};
    var order := Without(c.order, key);
    forall k | k in items ensures k in order {
      assert k in c.items;
    }
    forall i | 0 <= i < |order| ensures order[i] in items {
      assert order[i] in order;
    }
  }

  // ---------------------------------------------------------------------
  // evict_oldest

  /** The first key, in order, with the least last-access time (Python's
      `min` keeps the first of equal keys). */
  function OldestKey<V>(order: seq<Key>, items: map<Key, Item<V>>): (k: Key)
    requires |order| > 0 && forall i | 0 <= i < |order| :: order[i] in items
    ensures k in order
    ensures forall i | 0 <= i < |order| :: items[k].lastAccessed <= items[order[i]].lastAccessed
    ensures exists i | 0 <= i < |order| && order[i] == k :: FirstOldestAt(order, items, i)
  {
    if |order| == 1 then
      assert FirstOldestAt(order, items, 0);
      order[0]
    else
      var rest := OldestKey(order[1..], items);
      if items[order[0]].lastAccessed <= items[rest].lastAccessed then
        assert FirstOldestAt(order, items, 0);
        order[0]
      else
        var i' :| 0 <= i' < |order| - 1 && order[1..][i'] == rest && FirstOldestAt(order[1..], items, i');
        assert FirstOldestAt(order, items, i' + 1) by {
          forall j | 0 <= j < i' + 1
            ensures items[order[j]].lastAccessed > items[order[i' + 1]].lastAccessed
          {
            if j > 0 { assert order[j] == order[1..][j - 1]; }
          }
        }
        rest
  }

  /** Every key before position `i` in `order` was read strictly later than
      the key at `i`: `min` over the keys returns the first of equal ones. */
  predicate FirstOldestAt<V>(order: seq<Key>, items: map<Key, Item<V>>, i: nat)
    requires i < |order| && forall j | 0 <= j < |order| :: order[j] in items
  {
    forall j | 0 <= j < i :: items[order[j]].lastAccessed > items[order[i]].lastAccessed
  }

  /** `k` was read no later than any other key. */
  ghost predicate Oldest<V>(items: map<Key, Item<V>>, k: Key) {
    k in items && forall j | j in items :: items[k].lastAccessed <= items[j].lastAccessed
  }

  /** `items` is `c`'s map without the first key, in order, that was read no
      later than any other. */
  ghost predicate EvictsFirstOldest<V>(c: Store<V>, items: map<Key, Item<V>>)
    requires Valid(c)
  {
    exists i | 0 <= i < |c.order| :: FirstOldestAt(c.order, c.items, i) && items == c.items - {c.order[i]}
  }

  /** `evict_oldest`: removes one least recently read entry; nothing on an
      empty cache. */
  function EvictOldest<V>(c: Store<V>): (r: Store<V>)
    requires Valid(c)
    ensures Valid(r) && r.maxSize == c.maxSize && r.enabled == c.enabled
    ensures |c.items| == 0 ==> r == c
    ensures |c.items| > 0 ==> |r.items| == |c.items| - 1
    ensures |c.items| > 0 ==> exists gone | Oldest(c.items, gone) :: r.items == c.items - {gone}
    ensures |c.items| > 0 ==> EvictsFirstOldest(c, r.items)
  {
    ValidSizes(c);
    if |c.order| == 0 then c
    else
      var k := OldestKey(c.order, c.items);
      var r := Delete(c, k).1;
      assert Oldest(c.items, k);
      r
  }

  /** The map has as many entries as the order has keys. */
  lemma ValidSizes<V>(c: Store<V>)
    requires Valid(c)
    ensures |c.items| == |c.order|
    ensures forall i | 0 <= i < |c.order| :: c.order[i] in c.items
  {
    assert c.items.Keys == KeySet(c.order);
    DistinctCard(c.order);
  }

  lemma {:induction false} DistinctCard(s: seq<Key>)
    requires forall i, j | 0 <= i < j < |s| :: s[i] != s[j]
    ensures |KeySet(s)| == |s|
  {
    if |s| > 0 {
      var t := s[..|s| - 1];
      DistinctCard(t);
      var a := KeySet(t);
      assert KeySet(s) == a + {s[|s| - 1]};
      assert s[|s| - 1] !in a;
    }
  }

  // ---------------------------------------------------------------------
  // get and set

  /** `get`: nothing when the cache is off, the key is missing or the item
      has expired (an expired item is dropped); otherwise the stored data,
      with the item's last-access time set to now and its read count
      increased. */
  function Get<V>(c: Store<V>, key: Key, now: int): (r: (Option<V>, Store<V>))
    requires Valid(c)
    ensures Valid(r.1) && r.1.maxSize == c.maxSize && r.1.enabled == c.enabled
    ensures r.0.Some? <==> c.enabled && key in c.items && !Expired(c.items[key], now)
    ensures r.0.Some? ==> r.0.value == c.items[key].data
    ensures r.0.Some? ==> key in r.1.items && r.1.items[key].lastAccessed == now
                          && r.1.items[key].accessCount == c.items[key].accessCount + 1
                          && r.1.items[key].(lastAccessed := c.items[key].lastAccessed,
                                             accessCount := c.items[key].accessCount) == c.items[key]
    ensures c.enabled && key in c.items && Expired(c.items[key], now) ==> key !in r.1.items
    ensures !c.enabled || key !in c.items ==> r.1 == c
    ensures forall k | k != key :: (k in r.1.items <==> k in c.items)
    ensures forall k | k != key && k in c.items :: r.1.items[k] == c.items[k]
  {
    if !c.enabled || key !in c.items then (None, c)
    else
      var it := c.items[key];
      if Expired(it, now) then (None, Delete(c, key).1)
      else (Some(it.data), c.(items := c.items[key := it.(lastAccessed := now, accessCount := it.accessCount + 1)]))
  }

  /** Stores `it` under `key`, appending the key to the order when new. */
  function Put<V>(c: Store<V>, key: Key, it: Item<V>): (r: Store<V>)
    requires Valid(c)
    ensures Valid(r) && r.maxSize == c.maxSize && r.enabled == c.enabled
    ensures r.items == c.items[key := it]
    ensures |r.items| == if key in c.items then |c.items| else |c.items| + 1
  {
    if key in c.items then c.(items := c.items[key := it])
    else
      MapAddOne(c.items, key, it);
      KeySetAppend(c.order, key);
      c.(items := c.items[key := it], order := c.order + [key])
  }

  /** `set`: false and no change when the cache is off; otherwise the key
      maps to a fresh item, after evicting one least recently read entry if
      the cache is full and the key is new. */
  function Set<V>(c: Store<V>, key: Key, data: V, ttl: int, now: int): (r: (bool, Store<V>))
    requires Valid(c)
    ensures Valid(r.1) && r.1.maxSize == c.maxSize && r.1.enabled == c.enabled
    ensures !c.enabled ==> r == (false, c)
    ensures c.enabled ==> r.0 && key in r.1.items && r.1.items[key] == NewItem(data, now, ttl)
    ensures forall k | k != key && k in r.1.items :: k in c.items && r.1.items[k] == c.items[k]
    ensures key in c.items || |c.items| < c.maxSize ==> forall k | k in c.items :: k in r.1.items
    ensures forall k | k in c.items && k !in r.1.items ::
              && key !in c.items && |c.items| >= c.maxSize
              && (forall j | j in c.items :: c.items[k].lastAccessed <= c.items[j].lastAccessed)
              && (forall j | j in c.items && j !in r.1.items :: j == k)
    ensures |r.1.items| == if !c.enabled || key in c.items then |c.items|
                           else if |c.items| >= c.maxSize && |c.items| > 0 then |c.items|
                           else |c.items| + 1
  {
    if !c.enabled then (false, c)
    else if |c.items| >= c.maxSize && key !in c.items then
      var room := EvictOldest(c);
      EvictedKeyIsOldest(c, room);
      (true, Put(room, key, NewItem(data, now, ttl)))
    else
      (true, Put(c, key, NewItem(data, now, ttl)))
  }

  /** What eviction removes, in the terms `set` states it. */
  lemma EvictedKeyIsOldest<V>(c: Store<V>, room: Store<V>)
    requires Valid(c) && room == EvictOldest(c)
    ensures forall k | k in room.items :: k in c.items && room.items[k] == c.items[k]
    ensures forall k | k in c.items && k !in room.items ::
              && (forall j | j in c.items :: c.items[k].lastAccessed <= c.items[j].lastAccessed)
              && (forall j | j in c.items && j !in room.items :: j == k)
  {
  }

  /** A cache that holds at most `maxSize` entries still does after `set`,
      for any capacity of at least one. */
  lemma SetKeepsCapacity<V>(c: Store<V>, key: Key, data: V, ttl: int, now: int)
    requires Valid(c) && 1 <= c.maxSize && |c.items| <= c.maxSize
    ensures |Set(c, key, data, ttl, now).1.items| <= c.maxSize
  {
  }

  /** Reading a key right after storing it gives the stored data back, as
      long as the item has not expired. */
  lemma GetAfterSet<V>(c: Store<V>, key: Key, data: V, ttl: int, now: int, later: int)
    requires Valid(c) && c.enabled
    requires now <= later <= now + ttl
    ensures Get(Set(c, key, data, ttl, now).1, key, later).0 == Some(data)
  {
  }

  // ---------------------------------------------------------------------
  // cleanup_expired

  /** The keys of expired items, in order. */
  function ExpiredKeys<V>(order: seq<Key>, items: map<Key, Item<V>>, now: int): (r: seq<Key>)
    requires forall i | 0 <= i < |order| :: order[i] in items
    ensures forall k :: k in r <==> k in order && Expired(items[k], now)
    ensures (forall i, j | 0 <= i < j < |order| :: order[i] != order[j]) ==> forall i, j | 0 <= i < j < |r| :: r[i] != r[j]
  {
    if |order| == 0 then []
    else
      var rest := ExpiredKeys(order[1..], items, now);
      assert forall x :: x in order <==> x == order[0] || x in order[1..];
      if Expired(items[order[0]], now) then [order[0]] + rest else rest
  }

  /** The keys listed in `s`. */
  function KeySet(s: seq<Key>): set<Key> {
    set i | 0 <= i < |s| :: s[i]
  }

  /** Deletes the listed keys one after the other. */
  function DeleteAll<V>(c: Store<V>, keys: seq<Key>): (r: Store<V>)
    requires Valid(c)
    ensures Valid(r) && r.maxSize == c.maxSize && r.enabled == c.enabled
    ensures r.items == c.items - KeySet(keys)
    decreases |keys|
  {
    if |keys| == 0 then
      assert c.items - KeySet(keys) == c.items;
      c
    else
      var rest := DeleteAll(Delete(c, keys[0]).1, keys[1..]);
      DeleteAllStep(c.items, keys);
      rest
  }

  lemma KeySetAppend(s: seq<Key>, k: Key)
    ensures KeySet(s + [k]) == KeySet(s) + {k}
    ensures k !in KeySet(s) ==> forall i | 0 <= i < |s| :: s[i] != k
  {
    forall x | x in KeySet(s) ensures x in KeySet(s + [k]) {
      var i :| 0 <= i < |s| && s[i] == x;
      assert (s + [k])[i] == x;
    }
    assert (s + [k])[|s|] == k;
    forall i | 0 <= i < |s| ensures s[i] in KeySet(s) {
    }
  }

  lemma DeleteAllStep<V>(m: map<Key, V>, keys: seq<Key>)
    requires |keys| > 0
    ensures (m - {keys[0]}) - KeySet(keys[1..]) == m - KeySet(keys)
  {
    assert KeySet(keys) == {keys[0]} + KeySet(keys[1..]);
  }

  /** The live entries of `c` at time `now`. */
  function Live<V>(items: map<Key, Item<V>>, now: int): map<Key, Item<V>> {
    map k | k in items && !Expired(items[k], now) :: items[k]
  }

  /** `cleanup_expired`: deletes exactly the expired entries and returns how
      many it deleted. */
  function CleanupExpired<V>(c: Store<V>, now: int): (r: (nat, Store<V>))
    requires Valid(c)
    ensures Valid(r.1) && r.1.maxSize == c.maxSize && r.1.enabled == c.enabled
    ensures r.1.items == Live(c.items, now)
    ensures r.0 == |c.items| - |r.1.items|
  {
    ValidSizes(c);
    var doomed := ExpiredKeys(c.order, c.items, now);
    CleanupFacts(c, now);
    (|doomed|, DeleteAll(c, doomed))
  }

  lemma CleanupFacts<V>(c: Store<V>, now: int)
    requires Valid(c)
    requires forall i | 0 <= i < |c.order| :: c.order[i] in c.items
    ensures c.items - KeySet(ExpiredKeys(c.order, c.items, now)) == Live(c.items, now)
    ensures |ExpiredKeys(c.order, c.items, now)| == |c.items| - |Live(c.items, now)|
  {
    var doomed := ExpiredKeys(c.order, c.items, now);
    var gone := KeySet(doomed);
    ExpiredSet(c, now);
    assert c.items - gone == Live(c.items, now);
    DistinctCard(doomed);
    MapMinusCard(c.items, gone);
  }

  /** The listed expired keys are exactly the expired keys of the map. */
  lemma ExpiredSet<V>(c: Store<V>, now: int)
    requires Valid(c)
    requires forall i | 0 <= i < |c.order| :: c.order[i] in c.items
    ensures KeySet(ExpiredKeys(c.order, c.items, now)) == set k | k in c.items && Expired(c.items[k], now)
  {
    var doomed := ExpiredKeys(c.order, c.items, now);
    forall k | k in KeySet(doomed) ensures k in c.items && Expired(c.items[k], now) {
      var i :| 0 <= i < |doomed| && doomed[i] == k;
      assert doomed[i] in doomed;
    }
    forall k | k in c.items && Expired(c.items[k], now) ensures k in KeySet(doomed) {
      assert k in doomed;
      var i :| 0 <= i < |doomed| && doomed[i] == k;
    }
  }

  lemma MapMinusCard<V>(m: map<Key, V>, s: set<Key>)
    requires s <= m.Keys
    ensures |m - s| == |m| - |s|
  {
    assert (m - s).Keys == m.Keys - s;
    assert m.Keys == (m.Keys - s) + s;
  }

  // ---------------------------------------------------------------------
  // The cached decorator, for one call

  /** One call of a function wrapped by `cached`, whose key is `key` and
      whose result, if it runs, is `computed`: a stored non-None value is
      returned without running the function; otherwise the function runs
      and its result is stored, None included. */
  function Cached<R>(c: Store<Option<R>>, key: Key, now: int, ttl: int, computed: Option<R>)
    : (r: (Option<R>, bool, Store<Option<R>>))
    requires Valid(c)
    ensures Valid(r.2)
    ensures !r.1 <==> c.enabled && key in c.items && !Expired(c.items[key], now) && c.items[key].data.Some?
    ensures !r.1 ==> r.0 == c.items[key].data
    ensures r.1 ==> r.0 == computed
    ensures r.1 && c.enabled ==> key in r.2.items && r.2.items[key] == NewItem(computed, now, ttl)
  {
    var (hit, c1) := Get(c, key, now);
    if hit.Some? && hit.value.Some? then (hit.value, false, c1)
    else (computed, true, Set(c1, key, computed, ttl, now).1)
  }

  /** A None result is never served from the cache: the next call at any
      time runs the function again. */
  lemma NoneIsRecomputed<R>(c: Store<Option<R>>, key: Key, now: int, ttl: int, later: int, next: Option<R>)
    requires Valid(c)
    ensures var first := Cached(c, key, now, ttl, None);
            first.1 ==> Cached(first.2, key, later, ttl, next).1
  {
  }

  /** A non-None result is served on the next call while it is live. */
  lemma ValueIsServed<R>(c: Store<Option<R>>, key: Key, now: int, ttl: int, later: int, value: R, next: Option<R>)
    requires Valid(c) && c.enabled
    requires now <= later <= now + ttl
    ensures var first := Cached(c, key, now, ttl, Some(value));
            var second := Cached(first.2, key, later, ttl, next);
            first.1 ==> !second.1 && second.0 == Some(value)
  {
  }
}

=== FILE: common.dfy ===
/** Vocabulary shared by every part of the fleet model: optional values and
    the dynamically typed values that the Python code hands to its
    validators and to the SQL layer. */
module Common {

  /** A value that may be absent: Python's `None`, a SQL NULL, or a pandas NaN. */
  datatype Option<+T> = None | Some(value: T)

  /** A Python value as it reaches a validator or a SQL parameter: `None`,
      a `str`, an `int` or a `float` (floats are modelled as exact reals). */
  datatype Value = Null | Str(s: string) | Int(i: int) | Real(r: real)

  /** Python truthiness of a value: `None`, `''`, `0` and `0.0` are false. */
  predicate Truthy(v: Value) {
    match v
    case Null => false
    case Str(s) => |s| > 0
    case Int(i) => i != 0
    case Real(r) => r != 0.0
  }

  /** Python truthiness of an optional string. */
  predicate TruthyText(t: Option<string>) {
    t.Some? && |t.value| > 0
  }

  /** `int(x)` applied to a float: truncation toward zero. */
  function Trunc(r: real): (n: int)
    ensures r >= 0.0 ==> n as real <= r < n as real + 1.0
    ensures r < 0.0 ==> n as real - 1.0 < r <= n as real
  {
    if r >= 0.0 then r.Floor else -((-r).Floor)
  }

  /** The smallest integer not below `r` (numpy's `ceil`). */
  function Ceil(r: real): (n: int)
    ensures r <= n as real < r + 1.0
  {
    -((-r).Floor)
  }

  /** The entries of `s` at the positions `cols`, in that order: a pandas
      column selection. */
  function Select<T>(s: seq<T>, cols: seq<nat>): (r: seq<T>)
    requires forall k | 0 <= k < |cols| :: cols[k] < |s|
    ensures |r| == |cols| && forall k | 0 <= k < |cols| :: r[k] == s[cols[k]]
  {
    seq(|cols|, k requires 0 <= k < |cols| => s[cols[k]])
  }

  /** `r` is what is left of `s` after deleting some entries: its entries
      occur in `s` in the same order. */
  predicate Subseq<T(==)>(r: seq<T>, s: seq<T>)
    decreases |s|
  {
    if |r| == 0 then true
    else if |s| == 0 then false
    else if r[0] == s[0] then Subseq(r[1..], s[1..])
    else Subseq(r, s[1..])
  }

  /** Deleting the first entry of `r` keeps it a subsequence. */
  lemma {:induction false} SubseqDropHead<T>(r: seq<T>, s: seq<T>)
    requires |r| > 0 && Subseq(r, s)
    ensures Subseq(r[1..], s)
    decreases |s|, |r|
  {
    if r[0] == s[0] {
      SubseqCons(r[1..], s);
    } else {
      SubseqDropHead(r, s[1..]);
      SubseqCons(r[1..], s);
    }
  }

  /** A subsequence of the tail is a subsequence of the whole. */
  lemma {:induction false} SubseqCons<T>(r: seq<T>, s: seq<T>)
    requires |s| > 0 && Subseq(r, s[1..])
    ensures Subseq(r, s)
    decreases |s|, |r|
  {
    if |r| > 0 && r[0] == s[0] {
      SubseqDropHead(r, s[1..]);
    }
  }

  /** A subsequence of a subsequence is a subsequence. */
  lemma {:induction false} SubseqTrans<T>(a: seq<T>, b: seq<T>, c: seq<T>)
    requires Subseq(a, b) && Subseq(b, c)
    ensures Subseq(a, c)
    decreases |c|
  {
    if |a| > 0 {
      if b[0] == c[0] {
        if a[0] == b[0] {
          SubseqTrans(a[1..], b[1..], c[1..]);
        } else {
          SubseqTrans(a, b[1..], c[1..]);
        }
      } else {
        SubseqTrans(a, b, c[1..]);
        SubseqCons(a, c);
      }
    }
  }

  /** Appending one entry to `s`, and to both, keeps a subsequence. */
  lemma {:induction false} SubseqSnoc<T>(r: seq<T>, s: seq<T>, x: T)
    requires Subseq(r, s)
    ensures Subseq(r, s + [x]) && Subseq(r + [x], s + [x])
    decreases |s|
  {
    if |s| > 0 {
      assert (s + [x])[0] == s[0] && (s + [x])[1..] == s[1..] + [x];
      if |r| == 0 {
        SubseqSnoc(r, s[1..], x);
        assert r + [x] == [x];
      } else {
        assert (r + [x])[0] == r[0] && (r + [x])[1..] == r[1..] + [x];
        if r[0] == s[0] {
          SubseqSnoc(r[1..], s[1..], x);
        } else {
          SubseqSnoc(r, s[1..], x);
        }
      }
    } else {
      assert r + [x] == [x] && s + [x] == [x];
    }
  }

  /** How often `x` occurs in `s`. */
  function Occurrences<T(==)>(s: seq<T>, x: T): (n: nat)
    ensures n > 0 <==> x in s
  {
    if |s| == 0 then 0
    else
      assert s == [s[0]] + s[1..];
      (if s[0] == x then 1 else 0) + Occurrences(s[1..], x)
  }

  /** Occurrences add up over a concatenation. */
  lemma {:induction false} OccurrencesAppend<T>(a: seq<T>, b: seq<T>, x: T)
    ensures Occurrences(a + b, x) == Occurrences(a, x) + Occurrences(b, x)
  {
    if |a| > 0 {
      assert (a + b)[1..] == a[1..] + b;
      OccurrencesAppend(a[1..], b, x);
    } else {
      assert a + b == b;
    }
  }

  /** `r` is `s` with exactly the entries satisfying `keep` left: in their
      order, each as often as in `s`. */
  ghost predicate Filtered<T(!new)>(r: seq<T>, s: seq<T>, keep: T -> bool) {
    && Subseq(r, s)
    && forall x :: Occurrences(r, x) == (if keep(x) then Occurrences(s, x) else 0)
  }

  /** Boolean indexing: the entries of `s` that satisfy `keep`, in order. */
  function Filter<T(==,!new)>(s: seq<T>, keep: T -> bool): (r: seq<T>)
    ensures Filtered(r, s, keep)
    ensures forall x :: x in r <==> x in s && keep(x)
    ensures |r| <= |s|
  {
    if |s| == 0 then []
    else
      var rest := Filter(s[1..], keep);
      assert s == [s[0]] + s[1..];
      if keep(s[0]) then
        var r := [s[0]] + rest;
        assert r[1..] == rest;
        r
      else
        assert forall x | x in rest :: x != s[0];
        rest
  }

  /** No two entries of `s` share a key. */
  ghost predicate Distinct<T, K>(s: seq<T>, key: T -> K) {
    forall i, j | 0 <= i < j < |s| :: key(s[i]) != key(s[j])
  }

  /** Filtering keeps entries whose keys are pairwise distinct. */
  lemma {:induction false} FilterKeepsDistinct<T(!new), K>(s: seq<T>, keep: T -> bool, key: T -> K)
    requires Distinct(s, key)
    ensures Distinct(Filter(s, keep), key)
  {
    if |s| > 0 {
      var tail := s[1..];
      assert Distinct(tail, key) by {
        forall i, j | 0 <= i < j < |tail| ensures key(tail[i]) != key(tail[j]) {
          assert tail[i] == s[i + 1] && tail[j] == s[j + 1];
        }
      }
      FilterKeepsDistinct(tail, keep, key);
      var rest := Filter(tail, keep);
      assert s == [s[0]] + tail;
      if keep(s[0]) {
        var r := [s[0]] + rest;
        assert Filter(s, keep) == r;
        forall i, j | 0 <= i < j < |r| ensures key(r[i]) != key(r[j]) {
          assert r[j] == rest[j - 1];
          if i == 0 {
            assert rest[j - 1] in tail;
            var m :| 0 <= m < |tail| && tail[m] == rest[j - 1];
            assert s[m + 1] == tail[m];
          } else {
            assert r[i] == rest[i - 1];
          }
        }
      } else {
        assert Filter(s, keep) == rest;
      }
    }
  }
}

=== FILE: costmodel.dfy ===
/** The guards around the service-cost regression (analytics.py,
    `crear_modelo_prediccion_costos` and `predecir_costo_service`). The
    fitted pipeline is a parameter: `fit` turns the qualifying rows into a
    model and `predict` turns a model and a query into a raw estimate. The
    two saved files are the fields of `Artefacts`. */
module CostModel {
  import opened Common

  /** A service row as the cost model reads it. */
  datatype CostService = CostService(
    plate: string, date: Option<int>, km: Option<int>, costo: Option<real>, tipoService: Option<string>)

  /** A vehicle row as the cost model reads it. */
  datatype CostVehicle = CostVehicle(
    plate: string, marca: Option<string>, modelo: Option<string>, tipo: Option<string>, anio: Option<int>)

  /** One row of the inner join of services and vehicles on the plate. */
  datatype Joined = Joined(service: CostService, vehicle: CostVehicle)

  /** The two saved files: the fitted model and the column list. */
  datatype Artefacts<M> = Artefacts(model: Option<M>, columns: bool)

  /** What `crear_modelo_prediccion_costos` returns: a fitted model, or the
      reason there is none. */
  datatype Outcome<M> = Fitted(model: M) | Insufficient(message: string)

  const NoDataMessage: string := "Datos insuficientes"
  const TooFewMessage: string := "Datos insuficientes (mínimo 10 registros)"
  const MinRows: nat := 10

  /** The dictionary `vehiculo` handed to the predictor; `None` is a
      missing key. */
  datatype VehicleDict = VehicleDict(anio: Option<Value>, marca: Option<Value>, tipo: Option<Value>)

  /** The single-row frame the predictor builds. */
  datatype Query = Query(km: Value, anio: Value, antiguedadDias: int, marca: Value, tipo: Value, tipoService: Value)

  // ---------------------------------------------------------------------
  // Training rows

  function Matches(s: CostService, vehicles: seq<CostVehicle>): (r: seq<Joined>)
    ensures forall k | 0 <= k < |r| :: r[k].service == s && r[k].vehicle in vehicles && r[k].vehicle.plate == s.plate
    ensures forall v | v in vehicles && v.plate == s.plate :: Joined(s, v) in r
    ensures forall j :: Occurrences(r, j) == if j.service == s && j.vehicle.plate == s.plate then Occurrences(vehicles, j.vehicle) else 0
  {
    if |vehicles| == 0 then []
    else
      var rest := Matches(s, vehicles[..|vehicles| - 1]);
      var v := vehicles[|vehicles| - 1];
      assert vehicles == vehicles[..|vehicles| - 1] + [v];
      forall w: CostVehicle ensures Occurrences(vehicles, w) == Occurrences(vehicles[..|vehicles| - 1], w) + Occurrences([v], w) {
        OccurrencesAppend(vehicles[..|vehicles| - 1], [v], w);
      }
      if v.plate == s.plate then
        forall j: Joined ensures Occurrences(rest + [Joined(s, v)], j) == Occurrences(rest, j) + Occurrences([Joined(s, v)], j) {
          OccurrencesAppend(rest, [Joined(s, v)], j);
        }
        rest + [Joined(s, v)]
      else rest
  }

  /** The inner join on the plate, in service-table order. */
  function Join(services: seq<CostService>, vehicles: seq<CostVehicle>): (r: seq<Joined>)
    ensures forall k | 0 <= k < |r| :: r[k].service in services && r[k].vehicle in vehicles && r[k].service.plate == r[k].vehicle.plate
    ensures forall s, v | s in services && v in vehicles && s.plate == v.plate :: Joined(s, v) in r
  {
    if |services| == 0 then []
    else
      var s := services[|services| - 1];
      var rest := Join(services[..|services| - 1], vehicles);
      assert services == services[..|services| - 1] + [s];
      rest + Matches(s, vehicles)
  }

  /** Each pair of a service and a vehicle with the same plate appears in
      the join once for every copy of the service times every copy of the
      vehicle, and no other pair appears. */
  lemma {:induction false} JoinCounts(services: seq<CostService>, vehicles: seq<CostVehicle>, j: Joined)
    ensures Occurrences(Join(services, vehicles), j) ==
              if j.service.plate == j.vehicle.plate then Occurrences(services, j.service) * Occurrences(vehicles, j.vehicle) else 0
  {
    if |services| > 0 {
      var init := services[..|services| - 1];
      var s := services[|services| - 1];
      JoinCounts(init, vehicles, j);
      assert services == init + [s];
      OccurrencesAppend(Join(init, vehicles), Matches(s, vehicles), j);
      OccurrencesAppend(init, [s], j.service);
      var m := Occurrences(Matches(s, vehicles), j);
      assert m == if j.service == s && j.vehicle.plate == s.plate then Occurrences(vehicles, j.vehicle) else 0;
      if j.service.plate == j.vehicle.plate {
        var a := Occurrences(init, j.service);
        var b := Occurrences(vehicles, j.vehicle);
        if j.service == s {
          assert Occurrences(services, j.service) == a + 1;
          SuccTimes(a, b);
        } else {
          assert Occurrences(services, j.service) == a;
        }
      }
    }
  }

  lemma SuccTimes(a: nat, b: nat)
    ensures (a + 1) * b == a * b + b
  {
  }

  /** A joined row survives `costo > 0` (a missing cost compares false)
      and the drop of rows missing the cost or the km. */
  predicate Qualifies(j: Joined) {
    j.service.costo.Some? && j.service.costo.value > 0.0 && j.service.km.Some?
  }

  /** `df[df['costo'] > 0].dropna(subset=['costo', 'km'])`: the qualifying
      joined rows, in order, each as often as in the join. */
  function Qualifying(js: seq<Joined>): (r: seq<Joined>)
    ensures Filtered(r, js, Qualifies)
    ensures forall j :: j in r <==> j in js && Qualifies(j)
  {
    Filter(js, Qualifies)
  }

  function TrainingRows(services: seq<CostService>, vehicles: seq<CostVehicle>): seq<Joined> {
    Qualifying(Join(services, vehicles))
  }

  /** A training row is a service with a positive cost and a known km whose
      plate is in the vehicle table, and every such pair is one. */
  lemma TrainingRowsExactly(services: seq<CostService>, vehicles: seq<CostVehicle>)
    ensures forall j | j in TrainingRows(services, vehicles) ::
              j.service in services && j.vehicle in vehicles && j.service.plate == j.vehicle.plate
              && j.service.costo.Some? && j.service.costo.value > 0.0 && j.service.km.Some?
    ensures forall s, v | s in services && v in vehicles && s.plate == v.plate
              && s.costo.Some? && s.costo.value > 0.0 && s.km.Some? :: Joined(s, v) in TrainingRows(services, vehicles)
  {
    var js := Join(services, vehicles);
    forall j | j in TrainingRows(services, vehicles)
      ensures j.service in services && j.vehicle in vehicles && j.service.plate == j.vehicle.plate
    {
      assert j in js;
      var k :| 0 <= k < |js| && js[k] == j;
    }
  }

  /** Each qualifying pair of a service and a vehicle with the same plate
      is a training row once per copy of the service times copy of the
      vehicle; nothing else is. */
  lemma TrainingRowsCounts(services: seq<CostService>, vehicles: seq<CostVehicle>, j: Joined)
    ensures Occurrences(TrainingRows(services, vehicles), j) ==
              if j.service.plate == j.vehicle.plate && Qualifies(j)
              then Occurrences(services, j.service) * Occurrences(vehicles, j.vehicle) else 0
  {
    JoinCounts(services, vehicles, j);
  }

  // ---------------------------------------------------------------------
  // Training

  /** `crear_modelo_prediccion_costos`: refuses with the first message when
      either table is empty, with the second when fewer than ten rows
      qualify, and in both cases before anything is saved; otherwise fits
      the model and saves both files. */
  function Train<M>(services: seq<CostService>, vehicles: seq<CostVehicle>, store: Artefacts<M>,
                    fit: seq<Joined> -> M): (res: (Outcome<M>, Artefacts<M>))
    ensures |services| == 0 || |vehicles| == 0 ==> res == (Insufficient(NoDataMessage), store)
    ensures |services| > 0 && |vehicles| > 0 && |TrainingRows(services, vehicles)| < MinRows ==>
              res == (Insufficient(TooFewMessage), store)
    ensures res.0.Fitted? <==> |services| > 0 && |vehicles| > 0 && |TrainingRows(services, vehicles)| >= MinRows
    ensures res.0.Fitted? ==> res.0.model == fit(TrainingRows(services, vehicles))
                              && res.1 == Artefacts(Some(res.0.model), true)
    ensures res.0.Insufficient? ==> res.1 == store
  {
    if |services| == 0 || |vehicles| == 0 then (Insufficient(NoDataMessage), store)
    else
      var rows := TrainingRows(services, vehicles);
      if |rows| < MinRows then (Insufficient(TooFewMessage), store)
      else
        var m := fit(rows);
        (Fitted(m), Artefacts(Some(m), true))
  }

  /** Fewer than ten services can never train a model, whatever the
      vehicle table holds. */
  lemma FewServicesNeverTrain<M>(services: seq<CostService>, vehicles: seq<CostVehicle>, store: Artefacts<M>,
                                 fit: seq<Joined> -> M)
    requires |services| < MinRows
    requires forall i, j | 0 <= i < j < |vehicles| :: vehicles[i].plate != vehicles[j].plate
    ensures Train(services, vehicles, store, fit).0.Insufficient?
    ensures Train(services, vehicles, store, fit).1 == store
  {
    JoinAtMostServices(services, vehicles);
  }

  /** With plates unique in the vehicle table, the join has at most one row
      per service. */
  lemma {:induction false} JoinAtMostServices(services: seq<CostService>, vehicles: seq<CostVehicle>)
    requires forall i, j | 0 <= i < j < |vehicles| :: vehicles[i].plate != vehicles[j].plate
    ensures |Join(services, vehicles)| <= |services|
  {
    if |services| > 0 {
      JoinAtMostServices(services[..|services| - 1], vehicles);
      MatchesAtMostOne(services[|services| - 1], vehicles);
    }
  }

  lemma {:induction false} MatchesAtMostOne(s: CostService, vehicles: seq<CostVehicle>)
    requires forall i, j | 0 <= i < j < |vehicles| :: vehicles[i].plate != vehicles[j].plate
    ensures |Matches(s, vehicles)| <= 1
  {
    if |vehicles| > 0 {
      var init := vehicles[..|vehicles| - 1];
      MatchesAtMostOne(s, init);
      if |Matches(s, init)| == 1 {
        assert Matches(s, init)[0].vehicle in init;
        assert vehicles[|vehicles| - 1].plate != s.plate;
      }
    }
  }

  // ---------------------------------------------------------------------
  // Prediction

  /** The frame the predictor builds: missing keys default to year 2020 and
      empty make and type; the service is taken to happen today. */
  function QueryOf(vehiculo: VehicleDict, km: Value, tipoService: Value): (q: Query)
    ensures q.anio == (if vehiculo.anio.Some? then vehiculo.anio.value else Int(2020))
    ensures q.marca == (if vehiculo.marca.Some? then vehiculo.marca.value else Str(""))
    ensures q.tipo == (if vehiculo.tipo.Some? then vehiculo.tipo.value else Str(""))
    ensures q.km == km && q.tipoService == tipoService && q.antiguedadDias == 0
  {
    Query(km,
          if vehiculo.anio.Some? then vehiculo.anio.value else Int(2020),
          0,
          if vehiculo.marca.Some? then vehiculo.marca.value else Str(""),
          if vehiculo.tipo.Some? then vehiculo.tipo.value else Str(""),
          tipoService)
  }

  /** `predecir_costo_service`: no estimate unless both files exist;
      otherwise the model's estimate, raised to zero when negative. */
  function PredictCost<M>(store: Artefacts<M>, vehiculo: VehicleDict, km: Value, tipoService: Value,
                          predict: (M, Query) -> real): (r: Option<real>)
    ensures r.None? <==> store.model.None? || !store.columns
    ensures r.Some? ==> r.value >= 0.0
    ensures r.Some? ==> var raw := predict(store.model.value, QueryOf(vehiculo, km, tipoService));
              r.value == (if raw < 0.0 then 0.0 else raw)
  {
    if store.model.None? || !store.columns then None
    else
      var raw := predict(store.model.value, QueryOf(vehiculo, km, tipoService));
      Some(if raw < 0.0 then 0.0 else raw)
  }

  /** After a successful training, prediction uses the model just fitted. */
  lemma TrainThenPredict<M>(services: seq<CostService>, vehicles: seq<CostVehicle>, store: Artefacts<M>,
                            fit: seq<Joined> -> M, vehiculo: VehicleDict, km: Value, tipoService: Value,
                            predict: (M, Query) -> real)
    requires Train(services, vehicles, store, fit).0.Fitted?
    ensures var after := Train(services, vehicles, store, fit).1;
            var raw := predict(fit(TrainingRows(services, vehicles)), QueryOf(vehiculo, km, tipoService));
            PredictCost(after, vehiculo, km, tipoService, predict) == Some(if raw < 0.0 then 0.0 else raw)
  {
  }

  /** A refused training leaves prediction exactly as it was. */
  lemma RefusalKeepsPrediction<M>(services: seq<CostService>, vehicles: seq<CostVehicle>, store: Artefacts<M>,
                                  fit: seq<Joined> -> M, vehiculo: VehicleDict, km: Value, tipoService: Value,
                                  predict: (M, Query) -> real)
    requires Train(services, vehicles, store, fit).0.Insufficient?
    ensures PredictCost(Train(services, vehicles, store, fit).1, vehiculo, km, tipoService, predict)
         == PredictCost(store, vehiculo, km, tipoService, predict)
  {
  }
}

=== FILE: csvimport.dfy ===
/** The normalisation of an uploaded vehicle list (`process_uploaded_file`,
    the same code in database.py and database_standalone.py). The parsed
    CSV is a parameter: a header line and rectangular rows of optional
    cells, an empty field being `None`. */
module CsvImport {
  import opened Common
  import opened Text

  type Cell = Option<string>
  type Line = seq<Cell>

  /** What the CSV reader produced: the first line as column names and the
      remaining lines as rows. */
  datatype Sheet = Sheet(header: seq<string>, rows: seq<Line>)

  predicate Rectangular(s: Sheet) {
    forall k | 0 <= k < |s.rows| :: |s.rows[k]| == |s.header|
  }

  /** One row of the standardised table. */
  datatype StdRow = StdRow(
    patente: Cell, area: Cell, tipo: Cell, marca: Cell, modelo: Cell, anio: nat, estado: string,
    km: int, rori: Cell, idVehiculo: nat, vtv: Cell, taller: Cell)

  const Servicio: string := "SERVICIO"
  const ValidStates: set<string> := {"SERVICIO", "RECUPERAR", "RADIADO"}

  // ---------------------------------------------------------------------
  // Dropping empty rows and columns

  predicate HasValue(line: Line) {
    exists j | 0 <= j < |line| :: line[j].Some?
  }

  /** `dropna(how='all')`: exactly the rows holding some value remain, in
      order. */
  function DropEmptyRows(rows: seq<Line>): (r: seq<Line>)
    ensures Filtered(r, rows, HasValue)
    ensures forall line :: line in r <==> line in rows && HasValue(line)
  {
    Filter(rows, HasValue)
  }

  predicate ColumnHasValue(rows: seq<Line>, j: nat) {
    exists k | 0 <= k < |rows| :: j < |rows[k]| && rows[k][j].Some?
  }

  /** The positions below `n` of the columns that hold some value, in
      order. */
  function ValueColumns(rows: seq<Line>, n: nat): (r: seq<nat>)
    ensures forall k | 0 <= k < |r| :: r[k] < n && ColumnHasValue(rows, r[k])
    ensures forall j | 0 <= j < n && ColumnHasValue(rows, j) :: j in r
  {
    if n == 0 then []
    else
      var rest := ValueColumns(rows, n - 1);
      if ColumnHasValue(rows, n - 1) then rest + [n - 1] else rest
  }

  /** `dropna(axis=1, how='all')`: columns with no value at all go. */
  function DropEmptyColumns(s: Sheet): (r: Sheet)
    requires Rectangular(s)
    ensures Rectangular(r) && |r.rows| == |s.rows| && |r.header| <= |s.header|
  {
    var cols := ValueColumns(s.rows, |s.header|);
    ValueColumnsIncreasing(s.rows, |s.header|);
    SubsetLength(cols, |s.header|);
    Sheet(Select(s.header, cols), seq(|s.rows|, k requires 0 <= k < |s.rows| => Select(s.rows[k], cols)))
  }

  lemma {:induction false} ValueColumnsIncreasing(rows: seq<Line>, n: nat)
    ensures forall a, b | 0 <= a < b < |ValueColumns(rows, n)| :: ValueColumns(rows, n)[a] < ValueColumns(rows, n)[b]
  {
    if n > 0 {
      ValueColumnsIncreasing(rows, n - 1);
    }
  }

  /** A strictly increasing list of positions below `n` has at most `n`
      entries. */
  lemma {:induction false} SubsetLength(cols: seq<nat>, n: nat)
    requires forall k | 0 <= k < |cols| :: cols[k] < n
    requires forall a, b | 0 <= a < b < |cols| :: cols[a] < cols[b]
    ensures |cols| <= n
    decreases |cols|
  {
    if |cols| > 0 {
      var init := cols[..|cols| - 1];
      forall k | 0 <= k < |init| ensures init[k] < cols[|cols| - 1] {
        assert init[k] == cols[k];
      }
      SubsetLength(init, cols[|cols| - 1]);
    }
  }

  // ---------------------------------------------------------------------
  // Header-row detection

  /** A row that names the plate column: some cell reads "patente" once
      lower-cased and stripped. */
  predicate IsHeaderLine(line: Line) {
    exists j | 0 <= j < |line| :: line[j].Some? && Strip(Lower(line[j].value)) == "patente"
  }

  /** The first header-like row at or after `from`. */
  function HeaderIndex(rows: seq<Line>, from: nat): (r: Option<nat>)
    requires from <= |rows|
    ensures r.None? <==> forall i | from <= i < |rows| :: !IsHeaderLine(rows[i])
    ensures r.Some? ==> from <= r.value < |rows| && IsHeaderLine(rows[r.value])
                        && forall i | from <= i < r.value :: !IsHeaderLine(rows[i])
    decreases |rows| - from
  {
    if from == |rows| then None
    else if IsHeaderLine(rows[from]) then Some(from)
    else HeaderIndex(rows, from + 1)
  }

  /** A column name from the header row: the stripped text, or `col_<j>`
      for an empty cell. */
  function HeaderName(c: Cell, j: nat): string {
    if c.Some? then Strip(c.value) else "col_" + NatToString(j)
  }

  /** A data row after the header row is kept when its first cell holds
      something other than white space. */
  predicate KeepsData(line: Line) {
    |line| > 0 && line[0].Some? && Strip(line[0].value) != ""
  }

  /** The names the header row gives the columns. */
  function HeaderNames(line: Line): (r: seq<string>)
    ensures |r| == |line| && forall j | 0 <= j < |line| :: r[j] == HeaderName(line[j], j)
  {
    seq(|line|, j requires 0 <= j < |line| => HeaderName(line[j], j))
  }

  /** When some row names the plate column, it becomes the header and the
      rows after it with a non-blank first cell remain, in order, every one
      of them; otherwise the sheet is unchanged. */
  function Relocate(s: Sheet): (r: Sheet)
    requires Rectangular(s)
    ensures Rectangular(r)
    ensures HeaderIndex(s.rows, 0).None? ==> r == s
    ensures HeaderIndex(s.rows, 0).Some? ==>
              var h := HeaderIndex(s.rows, 0).value;
              && |r.header| == |s.header|
              && (forall j | 0 <= j < |r.header| :: r.header[j] == HeaderName(s.rows[h][j], j))
              && Filtered(r.rows, s.rows[h + 1..], KeepsData)
  {
    match HeaderIndex(s.rows, 0)
    case None => s
    case Some(h) =>
      var data := Filter(s.rows[h + 1..], KeepsData);
      assert forall k | 0 <= k < |data| :: data[k] in s.rows[h + 1..];
      Sheet(HeaderNames(s.rows[h]), data)
  }

  // ---------------------------------------------------------------------
  // Column aliases

  /** The accepted spellings of each standard column, in the order tried. */
  const PatenteAliases: seq<string> := ["patente", "dominio", "placa", "matricula", "pt", "chapa patente"]
  const AreaAliases: seq<string> := ["area", "dependencia", "seccion", "departamento", "ubicacion"]
  const TipoAliases: seq<string> := ["tipo", "tipo de vehiculo", "clase", "tipo vehiculo", "tipo vehículo"]
  const MarcaAliases: seq<string> := ["marca"]
  const ModeloAliases: seq<string> := ["modelo"]
  const AnioAliases: seq<string> := ["año", "ano", "year", "modelo año", "a? - fecha alta", "a? - fecha alta"]
  const EstadoAliases: seq<string> := ["estado", "condicion", "status"]
  const KmAliases: seq<string> := ["km", "kilometraje", "kilometros", "kms"]
  const RoriAliases: seq<string> := ["rori", "ro-ri"]
  const IdAliases: seq<string> := ["id", "id vehiculo"]
  const VtvAliases: seq<string> := ["vtv"]
  const TallerAliases: seq<string> := ["taller"]

  /** The first alias, in list order, that is among the column names. */
  function FirstAlias(columns: seq<string>, aliases: seq<string>): (r: Option<nat>)
    ensures r.None? <==> forall a | 0 <= a < |aliases| :: aliases[a] !in columns
    ensures r.Some? ==> r.value < |aliases| && aliases[r.value] in columns
                        && forall a | 0 <= a < r.value :: aliases[a] !in columns
  {
    if |aliases| == 0 then None
    else if aliases[0] in columns then Some(0)
    else
      match FirstAlias(columns, aliases[1..])
      case None => None
      case Some(a) => Some(a + 1)
  }

  function IndexOf(columns: seq<string>, name: string): (r: nat)
    requires name in columns
    ensures r < |columns| && columns[r] == name && forall j | 0 <= j < r :: columns[j] != name
  {
    if columns[0] == name then 0 else 1 + IndexOf(columns[1..], name)
  }

  /** The twelve standard columns, in the order they are filled in. */
  const StdColumns: nat := 12
  const PlateCol: nat := 0
  const EstadoCol: nat := 6
  const RoriCol: nat := 8
  const IdCol: nat := 9
  const VtvCol: nat := 10
  const TallerCol: nat := 11

  const AliasTable: seq<seq<string>> :=
    [PatenteAliases, AreaAliases, TipoAliases, MarcaAliases, ModeloAliases, AnioAliases,
     EstadoAliases, KmAliases, RoriAliases, IdAliases, VtvAliases, TallerAliases]

  /** The text a standard column is filled with when none of its aliases is
      present. */
  function DefaultText(c: nat): string {
    if c == EstadoCol then Servicio else ""
  }

  /** Some alias of standard column `c` is among the names. */
  predicate Found(columns: seq<string>, c: nat)
    requires c < StdColumns
  {
    FirstAlias(columns, AliasTable[c]).Some?
  }

  /** The alias chosen for column `c` labels two or more columns; pandas
      refuses to copy such a pair into one column. */
  predicate AmbiguousColumn(columns: seq<string>, c: nat)
    requires c < StdColumns
  {
    match FirstAlias(columns, AliasTable[c])
    case None => false
    case Some(a) => Occurrences(columns, AliasTable[c][a]) > 1
  }

  predicate Ambiguous(columns: seq<string>) {
    exists c | 0 <= c < StdColumns :: AmbiguousColumn(columns, c)
  }

  /** Some standard column before `c` was found by alias. */
  function FoundBefore(columns: seq<string>, c: nat): (r: bool)
    requires c <= StdColumns
    ensures r <==> exists e | 0 <= e < c :: Found(columns, e)
  {
    if c == 0 then false else FoundBefore(columns, c - 1) || Found(columns, c - 1)
  }

  /** Where a standard column comes from: a position in the sheet, a
      default text, or nowhere. A default assigned before any column was
      copied lands in a table without rows; the first copied column then
      gives the table its rows and the default is lost, every cell of it
      missing. */
  datatype Source = At(position: nat) | Default(text: string) | Absent

  /** The source of standard column `c`; `None` when it is ambiguous. */
  function Resolve(columns: seq<string>, c: nat): (r: Option<Source>)
    requires c < StdColumns
    ensures r.None? <==> AmbiguousColumn(columns, c)
    ensures r.Some? ==> (r.value.At? <==> Found(columns, c))
    ensures r.Some? && r.value.At? ==>
              r.value.position < |columns|
              && columns[r.value.position] == AliasTable[c][FirstAlias(columns, AliasTable[c]).value]
    ensures r.Some? ==> (r.value.Absent? <==> forall e | 0 <= e <= c :: !Found(columns, e))
    ensures r.Some? && r.value.Default? ==> r.value.text == DefaultText(c)
  {
    var aliases := AliasTable[c];
    match FirstAlias(columns, aliases)
    case None => if FoundBefore(columns, c) then Some(Default(DefaultText(c))) else Some(Absent)
    case Some(a) =>
      if Occurrences(columns, aliases[a]) > 1 then None else Some(At(IndexOf(columns, aliases[a])))
  }

  function Take(line: Line, src: Source): Cell
    requires src.At? ==> src.position < |line|
  {
    match src
    case At(j) => line[j]
    case Default(t) => Some(t)
    case Absent => None
  }

  // ---------------------------------------------------------------------
  // Numeric columns

  /** The longest prefix of `s` made of digits. */
  function LeadingDigits(s: string): (r: string)
    ensures AllDigits(r) && StartsWith(s, r)
    ensures |r| < |s| ==> !IsDigit(s[|r|])
  {
    if |s| == 0 || !IsDigit(s[0]) then "" else [s[0]] + LeadingDigits(s[1..])
  }

  /** The first run of digits in `s` (the regex group `(\d+)`). */
  function FirstDigitRun(s: string): (r: Option<string>)
    ensures r.None? <==> forall i | 0 <= i < |s| :: !IsDigit(s[i])
    ensures r.Some? ==> |r.value| > 0 && AllDigits(r.value)
  {
    if |s| == 0 then None
    else if IsDigit(s[0]) then Some(LeadingDigits(s))
    else FirstDigitRun(s[1..])
  }

  /** `año` and `id_vehiculo`: the first run of digits, else 0. */
  function DigitsOrZero(c: Cell): nat {
    if c.None? then 0
    else match FirstDigitRun(c.value)
      case None => 0
      case Some(d) => DigitsValue(d)
  }

  /** A number written after any text without digits and before any text
      that does not start with a digit is read back exactly. */
  lemma {:induction false} DigitsOrZeroReadsNumber(prefix: string, n: nat, suffix: string)
    requires forall i | 0 <= i < |prefix| :: !IsDigit(prefix[i])
    requires |suffix| == 0 || !IsDigit(suffix[0])
    ensures DigitsOrZero(Some(prefix + NatToString(n) + suffix)) == n
    decreases |prefix|
  {
    var s := prefix + NatToString(n) + suffix;
    if |prefix| == 0 {
      assert s == NatToString(n) + suffix;
      LeadingDigitsOfNumber(NatToString(n), suffix);
      NatToStringRoundTrip(n);
    } else {
      assert s[1..] == prefix[1..] + NatToString(n) + suffix;
      DigitsOrZeroReadsNumber(prefix[1..], n, suffix);
    }
  }

  lemma {:induction false} LeadingDigitsOfNumber(d: string, suffix: string)
    requires |d| > 0 && AllDigits(d)
    requires |suffix| == 0 || !IsDigit(suffix[0])
    ensures LeadingDigits(d + suffix) == d
    decreases |d|
  {
    assert (d + suffix)[0] == d[0];
    if |d| > 1 {
      assert (d + suffix)[1..] == d[1..] + suffix;
      LeadingDigitsOfNumber(d[1..], suffix);
      assert d == [d[0]] + d[1..];
    } else {
      assert (d + suffix)[1..] == suffix;
      assert d == [d[0]];
    }
  }

  function Pow10(n: nat): (r: nat)
    ensures r >= 1
  {
    if n == 0 then 1 else 10 * Pow10(n - 1)
  }

  /** A decimal literal without sign: digits, optionally a point and more
      digits, with at least one digit in all. */
  function UnsignedDecimal(s: string): Option<real> {
    if '.' in s then
      var p := FirstDot(s);
      var whole := s[..p];
      var frac := s[p + 1..];
      if AllDigits(whole) && AllDigits(frac) && |whole| + |frac| > 0 then
        Some(DigitsValue(whole) as real + DigitsValue(frac) as real / Pow10(|frac|) as real)
      else None
    else if |s| > 0 && AllDigits(s) then Some(DigitsValue(s) as real)
    else None
  }

  function FirstDot(s: string): (p: nat)
    requires '.' in s
    ensures p < |s| && s[p] == '.'
  {
    if s[0] == '.' then 0 else 1 + FirstDot(s[1..])
  }

  /** `pd.to_numeric` on a decimal literal with an optional sign. */
  function ParseNumber(s: string): (r: Option<real>)
    ensures |s| == 0 ==> r.None?
  {
    if |s| > 0 && s[0] == '-' then
      match UnsignedDecimal(s[1..])
      case None => None
      case Some(x) => Some(-x)
    else if |s| > 0 && s[0] == '+' then UnsignedDecimal(s[1..])
    else UnsignedDecimal(s)
  }

  /** `km`: the cell read as a number and truncated toward zero, else 0. */
  function KmOf(c: Cell): int {
    if c.None? then 0
    else match ParseNumber(c.value)
      case None => 0
      case Some(x) => Trunc(x)
  }

  /** The text of an integer reads back as that integer. */
  lemma KmOfIntText(i: int)
    ensures KmOf(Some(IntToString(i))) == i
  {
    var s := NatToString(if i < 0 then -i else i);
    NatToStringRoundTrip(if i < 0 then -i else i);
    assert '.' !in s by {
      forall k | 0 <= k < |s| ensures s[k] != '.' { assert IsDigit(s[k]); }
    }
    if i < 0 {
      assert IntToString(i)[1..] == s;
    } else {
      assert s[0] != '-' && s[0] != '+' by { assert IsDigit(s[0]); }
    }
  }

  // ---------------------------------------------------------------------
  // Estado whitelist

  /** `estado` is stripped and upper-cased; anything outside the three
      known states becomes SERVICIO. A missing cell reads "nan". */
  function Whitelist(c: Cell): (r: string)
    ensures r in ValidStates
    ensures var t := Upper(Strip(if c.Some? then c.value else "nan"));
            (t in ValidStates ==> r == t) && (t !in ValidStates ==> r == Servicio)
  {
    var t := Upper(Strip(if c.Some? then c.value else "nan"));
    if t in ValidStates then t else Servicio
  }

  // ---------------------------------------------------------------------
  // Duplicates and blank plates

  function PlatesOf(rows: seq<StdRow>): set<Cell> {
    set k | 0 <= k < |rows| :: rows[k].patente
  }

  predicate OnePerPlate(rows: seq<StdRow>) {
    forall i, j | 0 <= i < j < |rows| :: rows[i].patente != rows[j].patente
  }

  /** The row at `i` is the first with its plate. */
  predicate FirstOfPlate(rows: seq<StdRow>, i: nat)
    requires i < |rows|
  {
    forall j | 0 <= j < i :: rows[j].patente != rows[i].patente
  }

  /** `x` is the first row with its plate. */
  predicate IsFirstCopy(rows: seq<StdRow>, x: StdRow) {
    exists i | 0 <= i < |rows| :: rows[i] == x && FirstOfPlate(rows, i)
  }

  /** `drop_duplicates(subset=['patente'])`: a row goes when an earlier row
      has the same plate (two missing plates count as the same); the rest
      keep their order. */
  function Dedup(rows: seq<StdRow>): (r: seq<StdRow>)
    ensures OnePerPlate(r)
    ensures PlatesOf(r) == PlatesOf(rows)
    ensures forall k | 0 <= k < |r| :: r[k] in rows
    ensures Subseq(r, rows)
  {
    if |rows| == 0 then []
    else
      var init := rows[..|rows| - 1];
      var last := rows[|rows| - 1];
      var rest := Dedup(init);
      PlatesAppend(init, last);
      assert rows == init + [last];
      SubseqSnoc(rest, init, last);
      if last.patente in PlatesOf(init) then rest
      else
        PlatesAppend(rest, last);
        rest + [last]
  }

  lemma PlatesAppend(rows: seq<StdRow>, x: StdRow)
    ensures PlatesOf(rows + [x]) == PlatesOf(rows) + {x.patente}
  {
    var s := rows + [x];
    assert s[|rows|] == x;
    forall p | p in PlatesOf(s) ensures p in PlatesOf(rows) + {x.patente} {
      var k :| 0 <= k < |s| && s[k].patente == p;
      if k < |rows| { assert s[k] == rows[k]; }
    }
    forall p | p in PlatesOf(rows) ensures p in PlatesOf(s) {
      var k :| 0 <= k < |rows| && rows[k].patente == p;
      assert s[k] == rows[k];
    }
  }

  /** Every row that is the first with its plate survives deduplication. */
  lemma {:induction false} DedupKeepsFirsts(rows: seq<StdRow>)
    ensures forall i | 0 <= i < |rows| && FirstOfPlate(rows, i) :: rows[i] in Dedup(rows)
  {
    if |rows| > 0 {
      var init := rows[..|rows| - 1];
      var last := rows[|rows| - 1];
      DedupKeepsFirsts(init);
      var d := Dedup(init);
      assert Dedup(rows) == d || Dedup(rows) == d + [last];
      assert forall x | x in d :: x in Dedup(rows);
      forall i | 0 <= i < |rows| && FirstOfPlate(rows, i) ensures rows[i] in Dedup(rows) {
        if i < |init| {
          assert FirstOfPlate(init, i) by {
            forall j | 0 <= j < i ensures init[j].patente != init[i].patente { assert rows[j] == init[j]; }
          }
          assert rows[i] == init[i];
          assert rows[i] in d;
        } else {
          assert last.patente !in PlatesOf(init) by {
            forall k | 0 <= k < |init| ensures init[k].patente != last.patente { assert rows[k] == init[k]; }
          }
          assert Dedup(rows) == Dedup(init) + [last];
        }
      }
    }
  }

  /** Every row that survives deduplication is the first with its plate. */
  lemma {:induction false} DedupKeepsOnlyFirsts(rows: seq<StdRow>)
    ensures forall k | 0 <= k < |Dedup(rows)| :: IsFirstCopy(rows, Dedup(rows)[k])
  {
    if |rows| > 0 {
      var init := rows[..|rows| - 1];
      var last := rows[|rows| - 1];
      DedupKeepsOnlyFirsts(init);
      var d := Dedup(init);
      FirstCopyExtends(init, last, d);
      assert rows == init + [last];
      if last.patente !in PlatesOf(init) {
        assert FirstOfPlate(rows, |rows| - 1) by {
          forall j | 0 <= j < |rows| - 1 ensures rows[j].patente != last.patente {
            assert init[j] == rows[j];
          }
        }
        assert IsFirstCopy(rows, last);
        var r := d + [last];
        assert Dedup(rows) == r;
        forall k | 0 <= k < |r| ensures IsFirstCopy(rows, r[k]) {
          if k < |d| { assert r[k] == d[k]; }
        }
      }
    }
  }

  /** A first copy stays a first copy when a row is appended. */
  lemma FirstCopyExtends(init: seq<StdRow>, last: StdRow, d: seq<StdRow>)
    requires forall k | 0 <= k < |d| :: IsFirstCopy(init, d[k])
    ensures forall k | 0 <= k < |d| :: IsFirstCopy(init + [last], d[k])
  {
    var rows := init + [last];
    forall k | 0 <= k < |d| ensures IsFirstCopy(rows, d[k]) {
      var i :| 0 <= i < |init| && init[i] == d[k] && FirstOfPlate(init, i);
      assert rows[i] == init[i];
      assert FirstOfPlate(rows, i) by {
        forall j | 0 <= j < i ensures rows[j].patente != rows[i].patente { assert rows[j] == init[j]; }
      }
    }
  }

  /** A plate that is empty or only white space; a missing plate is not
      blank (it reads "nan"). */
  predicate BlankPlate(p: Cell) {
    p.Some? && Strip(p.value) == ""
  }

  predicate NonBlank(x: StdRow) {
    !BlankPlate(x.patente)
  }

  /** `std_df[std_df['patente'].astype(str).str.strip() != '']`: exactly
      the rows with a non-blank plate remain, in order. */
  function DropBlank(rows: seq<StdRow>): (r: seq<StdRow>)
    ensures Filtered(r, rows, NonBlank)
    ensures forall x :: x in r <==> x in rows && NonBlank(x)
  {
    Filter(rows, NonBlank)
  }

  function PlateKey(x: StdRow): Cell {
    x.patente
  }

  /** Dropping rows keeps the plates of the rest distinct. */
  lemma DropBlankOnePerPlate(rows: seq<StdRow>)
    requires OnePerPlate(rows)
    ensures OnePerPlate(DropBlank(rows))
  {
    assert Distinct(rows, PlateKey);
    FilterKeepsDistinct(rows, NonBlank, PlateKey);
  }

  // ---------------------------------------------------------------------
  // The whole normalisation

  /** Where each of the twelve standard columns comes from. */
  type Layout = seq<Source>

  predicate LayoutFits(l: Layout, width: nat) {
    && |l| == StdColumns
    && forall c | 0 <= c < |l| :: l[c].At? ==> l[c].position < width
  }

  /** Every standard column resolved against the cleaned names; `None`
      when one of them is ambiguous. */
  function LayoutOf(columns: seq<string>): (r: Option<Layout>)
    ensures r.None? <==> Ambiguous(columns)
    ensures r.Some? ==> LayoutFits(r.value, |columns|)
    ensures r.Some? ==> forall c | 0 <= c < StdColumns :: Resolve(columns, c) == Some(r.value[c])
  {
    if Ambiguous(columns) then None
    else
      var l := seq(StdColumns, c requires 0 <= c < StdColumns => Resolve(columns, c).value);
      Some(l)
  }

  /** Some column was copied by alias, so the table has rows. */
  predicate Indexed(l: Layout) {
    exists c | 0 <= c < |l| :: l[c].At?
  }

  /** Every row lacks the cell standard column `src` gives it. */
  predicate AllMissing(rows: seq<Line>, src: Source)
    requires forall k | 0 <= k < |rows| :: src.At? ==> src.position < |rows[k]|
  {
    forall k | 0 <= k < |rows| :: Take(rows[k], src).None?
  }

  /** The sheet positions tried for rori, id_vehiculo, taller and the VTV
      date when the alias lookup left them without any value. */
  function FallbackPosition(c: nat): nat {
    if c == RoriCol then 7 else if c == IdCol then 8 else if c == TallerCol then 13 else 15
  }

  predicate HasFallback(c: nat) {
    c == RoriCol || c == IdCol || c == TallerCol || c == VtvCol
  }

  /** Once some row has a plate, each of the four columns with a fallback
      whose cells are all missing is taken from its fixed sheet position
      when the sheet is that wide, and is otherwise filled with ''. */
  function WithFallback(l: Layout, rows: seq<Line>, width: nat): (r: Layout)
    requires LayoutFits(l, width) && forall k | 0 <= k < |rows| :: |rows[k]| == width
    ensures LayoutFits(r, width)
    ensures forall c | 0 <= c < StdColumns && !HasFallback(c) :: r[c] == l[c]
    ensures forall c | 0 <= c < StdColumns && HasFallback(c) ::
              if (exists k | 0 <= k < |rows| :: Take(rows[k], l[PlateCol]).Some?) && AllMissing(rows, l[c])
              then r[c] == (if FallbackPosition(c) < width then At(FallbackPosition(c)) else Default(""))
              else r[c] == l[c]
  {
    if exists k | 0 <= k < |rows| :: Take(rows[k], l[PlateCol]).Some? then
      seq(StdColumns, c requires 0 <= c < StdColumns =>
        if HasFallback(c) && AllMissing(rows, l[c]) then
          (if FallbackPosition(c) < width then At(FallbackPosition(c)) else Default(""))
        else l[c])
    else l
  }

  /** One standardised row, numeric columns converted. */
  function Standardise(line: Line, l: Layout): (r: StdRow)
    requires LayoutFits(l, |line|)
    ensures r.estado in ValidStates
  {
    StdRow(Take(line, l[0]), Take(line, l[1]), Take(line, l[2]), Take(line, l[3]),
           Take(line, l[4]), DigitsOrZero(Take(line, l[5])), Whitelist(Take(line, l[6])),
           KmOf(Take(line, l[7])), Take(line, l[8]), DigitsOrZero(Take(line, l[9])),
           Take(line, l[10]), Take(line, l[11]))
  }

  predicate KnownStates(rows: seq<StdRow>) {
    forall k | 0 <= k < |rows| :: rows[k].estado in ValidStates
  }

  /** The cleaned sheet: empty rows and columns dropped, then the header
      row relocated. */
  function Cleaned(s: Sheet): (r: Sheet)
    requires Rectangular(s)
    ensures Rectangular(r)
  {
    var rows := DropEmptyRows(s.rows);
    assert forall k | 0 <= k < |rows| :: rows[k] in s.rows;
    Relocate(DropEmptyColumns(Sheet(s.header, rows)))
  }

  /** The column names the aliases are looked up in. */
  function ColumnNames(header: seq<string>): (r: seq<string>)
    ensures |r| == |header|
  {
    seq(|header|, j requires 0 <= j < |header| => Lower(Strip(header[j])))
  }

  /** Every row of a sheet, standardised through one layout; no rows at all
      when no column was found by alias. */
  function StandardRows(s: Sheet, l: Layout): (r: seq<StdRow>)
    requires Rectangular(s) && LayoutFits(l, |s.header|)
    ensures KnownStates(r)
    ensures !Indexed(l) ==> r == []
    ensures Indexed(l) ==> |r| == |s.rows| && forall k | 0 <= k < |r| :: r[k] == Standardise(s.rows[k], l)
  {
    if !Indexed(l) then []
    else seq(|s.rows|, k requires 0 <= k < |s.rows| => Standardise(s.rows[k], l))
  }

  /** The standardised table before duplicates and blank plates go;
      `None` exactly when a standard column is ambiguous. */
  function Standardised(s: Sheet): (r: Option<seq<StdRow>>)
    requires Rectangular(s)
    ensures r.None? <==> Ambiguous(ColumnNames(Cleaned(s).header))
    ensures r.Some? ==> KnownStates(r.value)
  {
    var cleaned := Cleaned(s);
    match LayoutOf(ColumnNames(cleaned.header))
    case None => None
    case Some(l) => Some(StandardRows(cleaned, WithFallback(l, cleaned.rows, |cleaned.header|)))
  }

  /** `process_uploaded_file`: `None` for a name without the ".csv" ending
      and, for a ".csv" name, exactly when a column is ambiguous; otherwise
      one row per distinct plate, none blank, each with a known state. */
  function Normalise(name: string, s: Sheet): (r: Option<seq<StdRow>>)
    requires Rectangular(s)
    ensures !EndsWith(name, ".csv") ==> r.None?
    ensures EndsWith(name, ".csv") ==> (r.None? <==> Ambiguous(ColumnNames(Cleaned(s).header)))
    ensures r.Some? ==> OnePerPlate(r.value) && KnownStates(r.value)
    ensures r.Some? ==> forall k | 0 <= k < |r.value| :: !BlankPlate(r.value[k].patente)
  {
    if !EndsWith(name, ".csv") then None
    else
      match Standardised(s)
      case None => None
      case Some(std) =>
        CleanRows(std);
        Some(DropBlank(Dedup(std)))
  }

  /** De-duplicated rows without blank plates have distinct, non-blank
      plates and keep the states of the input. */
  lemma CleanRows(std: seq<StdRow>)
    requires KnownStates(std)
    ensures var r := DropBlank(Dedup(std));
            OnePerPlate(r) && KnownStates(r) && forall k | 0 <= k < |r| :: !BlankPlate(r[k].patente)
  {
    var d := Dedup(std);
    var r := DropBlank(d);
    DropBlankOnePerPlate(d);
    KnownStatesKept(std, d);
    KnownStatesKept(d, r);
    assert forall k | 0 <= k < |r| :: r[k] in r;
  }

  lemma KnownStatesKept(rows: seq<StdRow>, sub: seq<StdRow>)
    requires KnownStates(rows) && forall k | 0 <= k < |sub| :: sub[k] in rows
    ensures KnownStates(sub)
  {
    forall k | 0 <= k < |sub| ensures sub[k].estado in ValidStates {
      var i :| 0 <= i < |rows| && rows[i] == sub[k];
    }
  }

  /** De-duplicating and then dropping blank plates leaves the first row of
      every non-blank plate and nothing else, in input order. */
  lemma DedupDropBlankKeepsFirstRows(std: seq<StdRow>)
    ensures var r := DropBlank(Dedup(std));
            && Subseq(r, std)
            && (forall i | 0 <= i < |std| && FirstOfPlate(std, i) && NonBlank(std[i]) :: std[i] in r)
            && (forall k | 0 <= k < |r| :: IsFirstCopy(std, r[k]) && NonBlank(r[k]))
            && (forall p | p in PlatesOf(std) && !BlankPlate(p) :: p in PlatesOf(r))
  {
    var d := Dedup(std);
    var r := DropBlank(d);
    SubseqTrans(r, d, std);
    DedupKeepsFirsts(std);
    DedupKeepsOnlyFirsts(std);
    forall k | 0 <= k < |r| ensures IsFirstCopy(std, r[k]) {
      assert r[k] in r;
      var j :| 0 <= j < |d| && d[j] == r[k];
    }
    forall p | p in PlatesOf(std) && !BlankPlate(p) ensures p in PlatesOf(r) {
      var i :| 0 <= i < |std| && std[i].patente == p;
      var f := FirstIndexOf(std, i);
      assert std[f] in r;
      var k :| 0 <= k < |r| && r[k] == std[f];
    }
  }

  /** A ".csv" upload that is not refused holds the first standardised row
      of every non-blank plate and nothing else, in the order of the sheet. */
  lemma NormaliseKeepsFirstRows(name: string, s: Sheet)
    requires Rectangular(s) && Normalise(name, s).Some?
    ensures Standardised(s).Some?
    ensures var std := Standardised(s).value; var r := Normalise(name, s).value;
            && Subseq(r, std)
            && (forall i | 0 <= i < |std| && FirstOfPlate(std, i) && NonBlank(std[i]) :: std[i] in r)
            && (forall k | 0 <= k < |r| :: IsFirstCopy(std, r[k]) && NonBlank(r[k]))
            && (forall p | p in PlatesOf(std) && !BlankPlate(p) :: p in PlatesOf(r))
  {
    DedupDropBlankKeepsFirstRows(Standardised(s).value);
  }

  /** With no plate alias among the names but some other column found,
      the plate column is assigned before the table has rows and every
      plate reads as missing; de-duplication then keeps a single row, with
      a missing plate. */
  lemma MissingPlateColumnLeavesOneRow(name: string, s: Sheet)
    requires Rectangular(s) && EndsWith(name, ".csv")
    requires var columns := ColumnNames(Cleaned(s).header);
             && !Found(columns, PlateCol) && !Ambiguous(columns)
             && (exists c | 0 <= c < StdColumns :: Found(columns, c))
    requires |Cleaned(s).rows| > 0
    ensures Normalise(name, s).Some?
    ensures |Normalise(name, s).value| == 1 && Normalise(name, s).value[0].patente.None?
  {
    MissingPlateColumnReadsMissing(s);
    var std := Standardised(s).value;
    MissingPlatesLeaveOneRow(std);
    assert Normalise(name, s) == Some(DropBlank(Dedup(std)));
  }

  /** Rows whose plates are all missing de-duplicate to their first row. */
  lemma MissingPlatesLeaveOneRow(std: seq<StdRow>)
    requires |std| > 0 && forall k | 0 <= k < |std| :: std[k].patente.None?
    ensures var r := DropBlank(Dedup(std)); |r| == 1 && r[0].patente.None?
  {
    DedupSamePlate(std);
    assert DropBlank([std[0]]) == [std[0]];
  }

  /** Without a plate alias, every standardised plate is missing, and there
      is one standardised row per cleaned row once some column is found. */
  lemma MissingPlateColumnReadsMissing(s: Sheet)
    requires Rectangular(s)
    requires var columns := ColumnNames(Cleaned(s).header);
             && !Found(columns, PlateCol) && !Ambiguous(columns)
             && (exists c | 0 <= c < StdColumns :: Found(columns, c))
    ensures Standardised(s).Some?
    ensures |Standardised(s).value| == |Cleaned(s).rows|
    ensures forall k | 0 <= k < |Standardised(s).value| :: Standardised(s).value[k].patente.None?
  {
    var cleaned := Cleaned(s);
    var columns := ColumnNames(cleaned.header);
    LayoutWithoutPlate(columns);
    AbsentPlateRows(LayoutOf(columns).value, cleaned);
  }

  /** A layout with no plate source leaves the other columns as they are
      and gives every row a missing plate. */
  lemma AbsentPlateRows(l: Layout, t: Sheet)
    requires Rectangular(t) && LayoutFits(l, |t.header|) && l[PlateCol] == Absent && Indexed(l)
    ensures var std := StandardRows(t, WithFallback(l, t.rows, |t.header|));
            |std| == |t.rows| && forall k | 0 <= k < |std| :: std[k].patente.None?
  {
    assert WithFallback(l, t.rows, |t.header|) == l;
  }

  /** Without a plate alias, the plate column has no source, and the table
      still has rows when some other column is found. */
  lemma LayoutWithoutPlate(columns: seq<string>)
    requires !Found(columns, PlateCol) && !Ambiguous(columns)
    requires exists c | 0 <= c < StdColumns :: Found(columns, c)
    ensures LayoutOf(columns).Some?
    ensures LayoutOf(columns).value[PlateCol] == Absent && Indexed(LayoutOf(columns).value)
  {
    var l := LayoutOf(columns).value;
    assert Resolve(columns, PlateCol) == Some(l[PlateCol]);
    var c :| 0 <= c < StdColumns && Found(columns, c);
    assert Resolve(columns, c) == Some(l[c]);
  }

  /** Rows that all share one plate de-duplicate to the first of them. */
  lemma {:induction false} DedupSamePlate(rows: seq<StdRow>)
    requires |rows| > 0 && forall k | 0 <= k < |rows| :: rows[k].patente == rows[0].patente
    ensures Dedup(rows) == [rows[0]]
  {
    var init := rows[..|rows| - 1];
    if |init| > 0 {
      assert init[0] == rows[0];
      DedupSamePlate(init);
      assert init[0].patente in PlatesOf(init);
    }
  }

  /** The first row with the plate of row `i`. */
  ghost function FirstIndexOf(rows: seq<StdRow>, i: nat): (f: nat)
    requires i < |rows|
    ensures f <= i && rows[f].patente == rows[i].patente && FirstOfPlate(rows, f)
    decreases i
  {
    if FirstOfPlate(rows, i) then i
    else
      var j :| 0 <= j < i && rows[j].patente == rows[i].patente;
      FirstIndexOf(rows, j)
  }
}

=== FILE: forecast.dfy ===
/** The maintenance forecaster `predecir_proximos_mantenimientos`
    (analytics.py): for every row of the usage summary it projects the day
    the distance threshold is reached at the plate's mean rate and the day
    the time threshold since the latest service runs out, keeps the earlier
    one, labels its urgency and orders the table by label text and then by
    days left. Service dates are day numbers standing for their midnight;
    the clock is a parameter, read as nanosecond instants. */
module Forecast {
  import opened Common
  import opened Text
  import opened Sorting
  import opened Usage

  /** Default thresholds: a service every 5000 km or every 180 days. */
  const DefaultKmThreshold: int := 5000
  const DefaultDayThreshold: int := 180

  const Overdue: string := "ATRASADO"
  const Urgent: string := "URGENTE"
  const Soon: string := "PRÓXIMO"
  const Planned: string := "PLANIFICADO"

  /** The three instants at which a run reads the clock with
      `pd.to_datetime('today')`: the estimator's today reading, the fill-in
      date for a plate without a service, and `hoy`. */
  datatype Clock = Clock(analysed: int, filled: int, hoy: int)

  /** One row of the forecast table; dates are instants. `daysToKm` and
      `dateByKm` are absent only in the corrected forecaster, for a plate
      whose rate is zero. */
  datatype Prediction = Prediction(
    plate: string, marca: Option<string>, modelo: Option<string>,
    tipo: Option<string>, area: Option<string>,
    kmActual: int, lastSampleDate: int, rate: real,
    serviceDate: int, serviceKm: int,
    daysSinceService: int, kmSinceService: int,
    daysToKm: Option<int>, dateByKm: Option<int>, dateByTime: int,
    next: int, daysUntil: int, estado: string)

  // ---------------------------------------------------------------------
  // The latest service of a plate

  /** `a` sorts strictly before `b` in a descending date sort that puts
      missing dates last. */
  predicate Later(a: Option<int>, b: Option<int>) {
    a.Some? && (b.None? || a.value > b.value)
  }

  /** The plate's service row with the greatest date (a dated row beats an
      undated one), the row `drop_duplicates` keeps after the descending
      date sort; among rows with equal dates the model takes the first in
      table order. */
  function LatestService(p: string, services: seq<Service>): (r: Option<Service>)
    ensures r.None? <==> forall i | 0 <= i < |services| :: services[i].plate != p
    ensures r.Some? ==> r.value in services && r.value.plate == p
    ensures r.Some? ==> forall i | 0 <= i < |services| && services[i].plate == p :: !Later(services[i].date, r.value.date)
  {
    if |services| == 0 then None
    else
      var best := LatestService(p, services[..|services| - 1]);
      var s := services[|services| - 1];
      if s.plate == p && (best.None? || Later(s.date, best.value.date)) then Some(s) else best
  }

  // ---------------------------------------------------------------------
  // Days to the distance threshold

  /** `max(0, ceil(gap / rate))`: whole days until `gap` more km are driven. */
  function DaysToThreshold(gap: int, rate: real): (d: int)
    requires rate != 0.0
    ensures d >= 0
    ensures rate > 0.0 ==> gap as real <= d as real * rate
    ensures rate > 0.0 && d > 0 ==> (d - 1) as real * rate < gap as real
  {
    var c := Ceil(gap as real / rate);
    CeilDaysBounds(gap as real, rate, c);
    if c < 0 then 0 else c
  }

  /** The least whole number of days that covers the gap at a positive rate. */
  lemma CeilDaysBounds(gap: real, rate: real, c: int)
    requires rate != 0.0
    requires gap / rate <= c as real < gap / rate + 1.0
    ensures rate > 0.0 ==> gap <= c as real * rate && (c - 1) as real * rate < gap
    ensures rate > 0.0 && c < 0 ==> gap < 0.0
  {
    if rate > 0.0 {
      var q := gap / rate;
      assert q * rate == gap;
      MulMonotone(q, c as real, rate);
      assert (c - 1) as real < q;
      MulStrict((c - 1) as real, q, rate);
      assert (c - 1) as real * rate < q * rate;
      assert (c - 1) as real * rate < gap;
    }
  }

  lemma MulMonotone(a: real, b: real, k: real)
    requires a <= b && k > 0.0
    ensures a * k <= b * k
  {
  }

  lemma MulStrict(a: real, b: real, k: real)
    requires a < b && k > 0.0
    ensures a * k < b * k
  {
  }

  // ---------------------------------------------------------------------
  // Urgency

  /** First matching band: overdue below zero, urgent up to 15 days, soon up
      to 30, planned beyond. */
  function Label(days: int): (l: string)
    ensures l == Overdue <==> days < 0
    ensures l == Urgent <==> 0 <= days <= 15
    ensures l == Soon <==> 15 < days <= 30
    ensures l == Planned <==> days > 30
  {
    if days < 0 then Overdue
    else if days <= 15 then Urgent
    else if days <= 30 then Soon
    else Planned
  }

  /** Every day count gets one of the four labels, so the fallback label
      `DESCONOCIDO` of `np.select` never appears. */
  lemma LabelIsOneOfFour(days: int)
    ensures Label(days) in {Overdue, Urgent, Soon, Planned}
    ensures Label(days) != "DESCONOCIDO"
  {
  }

  /** In code-point order the labels sort as ATRASADO, PLANIFICADO, PRÓXIMO,
      URGENTE: not in order of urgency. */
  lemma LabelTextOrder()
    ensures StrLess(Overdue, Planned) && StrLess(Planned, Soon) && StrLess(Soon, Urgent)
  {
    assert Planned[1..] == "LANIFICADO" && Soon[1..] == "RÓXIMO";
  }

  // ---------------------------------------------------------------------
  // One prediction

  /** The fields derived from a summary row: the latest service (or, when
      the plate has none usable, the instant the gap is filled in and the
      summary's km), the whole days and the km since, and the time-based due
      instant. `daysToKm` is left for the caller. */
  function Base(st: Stat, services: seq<Service>, clock: Clock, dayThreshold: int): (b: Prediction)
    ensures b.plate == st.plate && b.kmActual == st.kmLast && b.rate == st.mean
    ensures b.kmSinceService == b.kmActual - b.serviceKm
    ensures b.daysSinceService * DayNanos <= clock.hoy - b.serviceDate < (b.daysSinceService + 1) * DayNanos
    ensures b.dateByTime == b.serviceDate + dayThreshold * DayNanos
    ensures var ls := LatestService(st.plate, services);
      && (ls.Some? && ls.value.date.Some? ==> b.serviceDate == Midnight(ls.value.date.value))
      && (ls.None? || ls.value.date.None? ==> b.serviceDate == clock.filled)
      && (ls.Some? && ls.value.km.Some? ==> b.serviceKm == ls.value.km.value)
      && (ls.None? || ls.value.km.None? ==> b.serviceKm == st.kmLast)
  {
    var ls := LatestService(st.plate, services);
    var date := if ls.Some? && ls.value.date.Some? then Midnight(ls.value.date.value) else clock.filled;
    var km := if ls.Some? && ls.value.km.Some? then ls.value.km.value else st.kmLast;
    Prediction(st.plate, st.marca, st.modelo, st.tipo, st.area,
               st.kmLast, st.dateLast, st.mean,
               date, km, WholeDays(clock.hoy - date), st.kmLast - km,
               None, None, date + dayThreshold * DayNanos, clock.hoy, 0, Label(0))
  }

  /** Completes a row from the whole days until the distance threshold is
      due (when known): the earlier of the two due instants, the whole days
      from `hoy` to it, rounded down, and the label. */
  function Complete(b: Prediction, hoy: int, daysToKm: Option<int>): (r: Prediction)
    requires daysToKm.Some? ==> daysToKm.value >= 0
    ensures r.daysToKm == daysToKm
    ensures r.dateByKm.Some? <==> daysToKm.Some?
    ensures daysToKm.Some? ==> r.dateByKm.value == hoy + daysToKm.value * DayNanos
    ensures r.next <= r.dateByTime && (daysToKm.Some? ==> r.next <= r.dateByKm.value)
    ensures r.next == r.dateByTime || (daysToKm.Some? && r.next == r.dateByKm.value)
    ensures r.daysUntil * DayNanos <= r.next - hoy < (r.daysUntil + 1) * DayNanos
    ensures r.estado == Label(r.daysUntil)
    ensures daysToKm.Some? ==> r.daysUntil <= daysToKm.value
    ensures r.daysUntil < 0 <==> r.dateByTime < hoy
    ensures r.(daysToKm := b.daysToKm, dateByKm := b.dateByKm, next := b.next,
               daysUntil := b.daysUntil, estado := b.estado) == b
  {
    var byKm := if daysToKm.Some? then Some(hoy + daysToKm.value * DayNanos) else None;
    var next := if byKm.Some? && byKm.value < b.dateByTime then byKm.value else b.dateByTime;
    b.(daysToKm := daysToKm, dateByKm := byKm, next := next,
       daysUntil := WholeDays(next - hoy), estado := Label(WholeDays(next - hoy)))
  }

  /** In a run after midnight a time-based due date (a midnight) that comes
      no later than the distance-based one is less than a whole day closer
      than its date says: due on day `day`, the row counts one day fewer, so
      a vehicle due today is already overdue. */
  lemma TimeDueAfterMidnight(b: Prediction, hoy: int, daysToKm: Option<int>, day: int)
    requires hoy % DayNanos != 0 && b.dateByTime == Midnight(day)
    requires daysToKm.Some? ==> daysToKm.value >= 0 && day <= hoy / DayNanos + daysToKm.value
    ensures Complete(b, hoy, daysToKm).daysUntil == day - hoy / DayNanos - 1
    ensures day == hoy / DayNanos ==> Complete(b, hoy, daysToKm).estado == Overdue
  {
    var q := hoy / DayNanos;
    assert hoy == q * DayNanos + hoy % DayNanos;
    var r := Complete(b, hoy, daysToKm);
    assert r.next == b.dateByTime;
    assert (day - q - 1) * DayNanos < day * DayNanos - hoy < (day - q) * DayNanos;
  }

  /** The forecast row of a summary row whose mean rate is not zero. */
  function PredictionOf(st: Stat, services: seq<Service>, clock: Clock, kmThreshold: int, dayThreshold: int): (r: Prediction)
    requires st.mean != 0.0
    ensures r.daysToKm.Some? && r.daysToKm.value >= 0
    ensures st.mean > 0.0 ==> kmThreshold as real <= r.kmSinceService as real + r.daysToKm.value as real * st.mean
    ensures st.mean > 0.0 && r.daysToKm.value > 0 ==>
              r.kmSinceService as real + (r.daysToKm.value - 1) as real * st.mean < kmThreshold as real
    ensures r.daysUntil <= r.daysToKm.value
    ensures r.daysUntil < 0 <==> r.dateByTime < clock.hoy
  {
    var b := Base(st, services, clock, dayThreshold);
    var gap := kmThreshold - b.kmSinceService;
    var d := DaysToThreshold(gap, st.mean);
    Complete(b, clock.hoy, Some(d))
  }

  // ---------------------------------------------------------------------
  // The table as written

  /** The final order: label text first, then days left. */
  predicate LabelLe(a: Prediction, b: Prediction) {
    StrLess(a.estado, b.estado) || (a.estado == b.estado && a.daysUntil <= b.daysUntil)
  }

  lemma LabelLePreorder()
    ensures IsTotalPreorder(LabelLe)
  {
    forall a, b ensures LabelLe(a, b) || LabelLe(b, a) {
      StrLessTrichotomy(a.estado, b.estado);
    }
    forall a, b, c | LabelLe(a, b) && LabelLe(b, c) ensures LabelLe(a, c) {
      if StrLess(a.estado, b.estado) && StrLess(b.estado, c.estado) {
        StrLessTransitive(a.estado, b.estado, c.estado);
      }
    }
  }

  predicate SomeZeroRate(stats: seq<Stat>) {
    exists i | 0 <= i < |stats| :: stats[i].mean == 0.0
  }

  function Predictions(stats: seq<Stat>, services: seq<Service>, clock: Clock, kmThreshold: int, dayThreshold: int): (r: seq<Prediction>)
    requires !SomeZeroRate(stats)
    ensures |r| == |stats|
    ensures forall i | 0 <= i < |stats| :: r[i].plate == stats[i].plate && r[i].daysToKm.Some?
  {
    seq(|stats|, i requires 0 <= i < |stats| => PredictionOf(stats[i], services, clock, kmThreshold, dayThreshold))
  }

  /** The forecast of a usage summary, as the code computes it: empty for an
      empty summary, and empty for the whole fleet as soon as one plate has
      a zero mean rate (the integer cast of an infinite or undefined day
      count raises and the handler returns an empty table). */
  function ForecastFrom(stats: seq<Stat>, services: seq<Service>, clock: Clock, kmThreshold: int, dayThreshold: int): (r: seq<Prediction>)
    ensures |stats| == 0 || SomeZeroRate(stats) ==> r == []
    ensures |stats| > 0 && !SomeZeroRate(stats) ==>
              |r| == |stats| && multiset(r) == multiset(Predictions(stats, services, clock, kmThreshold, dayThreshold))
    ensures Sorted(r, LabelLe)
  {
    if |stats| == 0 || SomeZeroRate(stats) then []
    else
      var ps := Predictions(stats, services, clock, kmThreshold, dayThreshold);
      LabelLePreorder();
      SortBySorted(ps, LabelLe);
      SortBy(ps, LabelLe)
  }

  /** `predecir_proximos_mantenimientos`: the forecast of the usage summary. */
  function Forecast(vehicles: seq<Vehicle>, services: seq<Service>, clock: Clock, kmThreshold: int, dayThreshold: int): (r: seq<Prediction>)
    ensures |vehicles| == 0 || |services| == 0 ==> r == []
    ensures SomeZeroRate(Analyze(vehicles, services, clock.analysed)) ==> r == []
    ensures Sorted(r, LabelLe)
    ensures forall x | x in r :: exists st | st in Analyze(vehicles, services, clock.analysed) ::
              st.mean != 0.0 && x == PredictionOf(st, services, clock, kmThreshold, dayThreshold)
  {
    var stats := Analyze(vehicles, services, clock.analysed);
    ForecastRowsFromStats(stats, services, clock, kmThreshold, dayThreshold);
    ForecastFrom(stats, services, clock, kmThreshold, dayThreshold)
  }

  /** Every written forecast row is the prediction of a summary row. */
  lemma ForecastRowsFromStats(stats: seq<Stat>, services: seq<Service>, clock: Clock, kmThreshold: int, dayThreshold: int)
    ensures forall x | x in ForecastFrom(stats, services, clock, kmThreshold, dayThreshold) :: exists st | st in stats ::
              st.mean != 0.0 && x == PredictionOf(st, services, clock, kmThreshold, dayThreshold)
  {
    var r := ForecastFrom(stats, services, clock, kmThreshold, dayThreshold);
    if |stats| > 0 && !SomeZeroRate(stats) {
      var ps := Predictions(stats, services, clock, kmThreshold, dayThreshold);
      forall x | x in r ensures exists st | st in stats ::
        st.mean != 0.0 && x == PredictionOf(st, services, clock, kmThreshold, dayThreshold)
      {
        assert x in multiset(ps);
        var i :| 0 <= i < |ps| && ps[i] == x;
        assert stats[i] in stats;
      }
    }
  }

  /** Because the sort compares label text, every PLANIFICADO row (due in
      more than 30 days) is placed before every URGENTE row (due within 15
      days). */
  lemma {:induction false} PlannedBeforeUrgent(r: seq<Prediction>)
    requires Sorted(r, LabelLe)
    requires forall k | 0 <= k < |r| :: r[k].estado == Label(r[k].daysUntil)
    ensures forall i, j | 0 <= i < |r| && 0 <= j < |r| && r[i].estado == Urgent && r[j].estado == Planned ::
              j < i && r[i].daysUntil < r[j].daysUntil
  {
    LabelTextOrder();
    StrLessTransitive(Planned, Soon, Urgent);
    forall i, j | 0 <= i < |r| && 0 <= j < |r| && r[i].estado == Urgent && r[j].estado == Planned
      ensures j < i
    {
      if i < j {
        assert false;
      }
    }
  }

  // ---------------------------------------------------------------------
  // The table as intended

  /** The band of a day count, most urgent first. */
  function Rank(days: int): (k: nat)
    ensures k <= 3
    ensures Label(days) == Overdue <==> k == 0
    ensures Label(days) == Urgent <==> k == 1
    ensures Label(days) == Soon <==> k == 2
    ensures Label(days) == Planned <==> k == 3
  {
    if days < 0 then 0 else if days <= 15 then 1 else if days <= 30 then 2 else 3
  }

  lemma RankMonotone(a: int, b: int)
    requires a <= b
    ensures Rank(a) <= Rank(b)
  {
  }

  /** Urgency order: band first, then days left. */
  predicate UrgencyLe(a: Prediction, b: Prediction) {
    Rank(a.daysUntil) < Rank(b.daysUntil) || (Rank(a.daysUntil) == Rank(b.daysUntil) && a.daysUntil <= b.daysUntil)
  }

  predicate DaysLe(a: Prediction, b: Prediction) {
    a.daysUntil <= b.daysUntil
  }

  /** Ordering by band and then by days left is the same as ordering by
      days left alone. */
  lemma UrgencyLeIsDaysLe(a: Prediction, b: Prediction)
    ensures UrgencyLe(a, b) <==> DaysLe(a, b)
  {
    if a.daysUntil <= b.daysUntil {
      RankMonotone(a.daysUntil, b.daysUntil);
    } else {
      RankMonotone(b.daysUntil, a.daysUntil);
    }
  }

  lemma UrgencyLePreorder()
    ensures IsTotalPreorder(UrgencyLe)
  {
    forall a, b ensures UrgencyLe(a, b) <==> DaysLe(a, b) {
      UrgencyLeIsDaysLe(a, b);
    }
  }

  /** The forecast row of any summary row: a zero rate never reaches the
      distance threshold, so such a plate is due by time alone. */
  function PredictionIntended(st: Stat, services: seq<Service>, clock: Clock, kmThreshold: int, dayThreshold: int): (r: Prediction)
    ensures st.mean != 0.0 ==> r == PredictionOf(st, services, clock, kmThreshold, dayThreshold)
    ensures st.mean == 0.0 ==> r.daysToKm.None? && r.next == r.dateByTime
    ensures r.daysUntil < 0 <==> r.dateByTime < clock.hoy
  {
    if st.mean != 0.0 then PredictionOf(st, services, clock, kmThreshold, dayThreshold)
    else Complete(Base(st, services, clock, dayThreshold), clock.hoy, None)
  }

  function PredictionsIntended(stats: seq<Stat>, services: seq<Service>, clock: Clock, kmThreshold: int, dayThreshold: int): (r: seq<Prediction>)
    ensures |r| == |stats|
    ensures forall i | 0 <= i < |stats| :: r[i].plate == stats[i].plate
  {
    seq(|stats|, i requires 0 <= i < |stats| => PredictionIntended(stats[i], services, clock, kmThreshold, dayThreshold))
  }

  /** The corrected forecaster: one row for every summary row, whatever the
      rates, ordered by urgency band and days left. */
  function ForecastIntended(stats: seq<Stat>, services: seq<Service>, clock: Clock, kmThreshold: int, dayThreshold: int): (r: seq<Prediction>)
    ensures |r| == |stats|
    ensures multiset(r) == multiset(PredictionsIntended(stats, services, clock, kmThreshold, dayThreshold))
    ensures Sorted(r, UrgencyLe)
  {
    var ps := PredictionsIntended(stats, services, clock, kmThreshold, dayThreshold);
    UrgencyLePreorder();
    SortBySorted(ps, UrgencyLe);
    SortBy(ps, UrgencyLe)
  }

  /** The corrected table lists the most pressing rows first. */
  lemma IntendedOrderIsByDaysLeft(stats: seq<Stat>, services: seq<Service>, clock: Clock, kmThreshold: int, dayThreshold: int)
    ensures Sorted(ForecastIntended(stats, services, clock, kmThreshold, dayThreshold), DaysLe)
  {
    var r := ForecastIntended(stats, services, clock, kmThreshold, dayThreshold);
    forall i, j | 0 <= i < j < |r| ensures DaysLe(r[i], r[j]) {
      UrgencyLeIsDaysLe(r[i], r[j]);
    }
  }

  /** With no zero rate the corrected table holds the same rows as the
      written one. */
  lemma IntendedAgreesWithoutZeroRates(stats: seq<Stat>, services: seq<Service>, clock: Clock, kmThreshold: int, dayThreshold: int)
    requires |stats| > 0 && !SomeZeroRate(stats)
    ensures multiset(ForecastIntended(stats, services, clock, kmThreshold, dayThreshold))
         == multiset(ForecastFrom(stats, services, clock, kmThreshold, dayThreshold))
  {
    assert PredictionsIntended(stats, services, clock, kmThreshold, dayThreshold)
        == Predictions(stats, services, clock, kmThreshold, dayThreshold);
  }

  /** A fleet with one parked vehicle: the written forecaster returns an
      empty table, the corrected one a row for each vehicle. */
  lemma ZeroRateEmptiesFleet(moving: Stat, parked: Stat, services: seq<Service>, clock: Clock)
    requires moving.mean > 0.0 && parked.mean == 0.0
    ensures ForecastFrom([moving, parked], services, clock, DefaultKmThreshold, DefaultDayThreshold) == []
    ensures |ForecastIntended([moving, parked], services, clock, DefaultKmThreshold, DefaultDayThreshold)| == 2
  {
    assert [moving, parked][1].mean == 0.0;
  }
}

=== FILE: legacy.dfy ===
/** The store operations of database.py that go beyond plain SQL: the
    import that skips plates already stored, and completing a scheduled
    maintenance. Database errors are not modelled. */
module Legacy {
  import opened Common
  import opened Text
  import opened Store
  import CsvImport

  /** `add_vehicle`: the plate is the primary key, so a stored plate makes
      the insert fail and leaves the store as it was. */
  function AddVehicle(f: Fleet, p: string, row: Row): (r: (bool, Fleet))
    ensures r.0 <==> p !in f.vehicles
    ensures r.0 ==> r.1 == f.(vehicles := f.vehicles[p := row])
    ensures !r.0 ==> r.1 == f
  {
    if p in f.vehicles then (false, f) else (true, f.(vehicles := f.vehicles[p := row]))
  }

  // ---------------------------------------------------------------------
  // Import

  /** The key an imported row is stored under: the plate stripped and
      upper-cased; a missing plate prints as "nan". */
  function PlateOf(c: CsvImport.Cell): string {
    if c.Some? then Upper(Strip(c.value)) else "NAN"
  }

  function TextOr(c: CsvImport.Cell, default: Value): Value {
    if c.Some? then Str(c.value) else default
  }

  /** The row inserted for an imported vehicle: missing text becomes '' for
      the descriptive columns and NULL for the optional ones. */
  function NewRow(x: CsvImport.StdRow, p: string): (r: Row)
    ensures r.Keys == VehicleColumns
    ensures r["patente"] == Str(p) && r["km"] == Int(x.km) && r["estado"] == Str(x.estado)
  {
    map c | c in VehicleColumns :: NewCell(x, p, c)
  }

  /** The value the import writes into column `c`. */
  function NewCell(x: CsvImport.StdRow, p: string, c: string): Value {
    if c == "patente" then Str(p)
    else if c == "area" then TextOr(x.area, Str(""))
    else if c == "tipo" then TextOr(x.tipo, Str(""))
    else if c == "marca" then TextOr(x.marca, Str(""))
    else if c == "modelo" then TextOr(x.modelo, Str(""))
    else if c == "año" then Int(x.anio)
    else if c == "estado" then Str(x.estado)
    else if c == "km" then Int(x.km)
    else if c == "taller" then TextOr(x.taller, Null)
    else if c == "rori" then TextOr(x.rori, Null)
    else if c == "id_vehiculo" then Int(x.idVehiculo)
    else if c == "vtv_vencimiento" then TextOr(x.vtv, Null)
    else Null
  }

  datatype ImportResult = ImportResult(success: nat, errors: nat, errorPlates: seq<string>, fleet: Fleet)

  function ImportedPlates(rows: seq<CsvImport.StdRow>): set<string> {
    set k | 0 <= k < |rows| :: PlateOf(rows[k].patente)
  }

  lemma ImportedPlatesSplit(rows: seq<CsvImport.StdRow>)
    requires |rows| > 0
    ensures ImportedPlates(rows) == {PlateOf(rows[0].patente)} + ImportedPlates(rows[1..])
  {
    var rest := rows[1..];
    forall p | p in ImportedPlates(rows) ensures p in {PlateOf(rows[0].patente)} + ImportedPlates(rest) {
      var k :| 0 <= k < |rows| && PlateOf(rows[k].patente) == p;
      if k > 0 { assert rows[k] == rest[k - 1]; }
    }
    forall p | p in ImportedPlates(rest) ensures p in ImportedPlates(rows) {
      var k :| 0 <= k < |rest| && PlateOf(rest[k].patente) == p;
      assert rest[k] == rows[k + 1];
    }
  }

  /** `import_vehicles_from_df`: each row is inserted under its cleaned
      plate unless that plate is already stored (including by an earlier
      row), in which case it counts as an error and its plate is listed.
      Stored vehicles are never modified and every imported plate ends up
      stored. */
  function ImportVehicles(f: Fleet, rows: seq<CsvImport.StdRow>): (r: ImportResult)
    ensures r.success + r.errors == |rows|
    ensures |r.errorPlates| == r.errors
    ensures forall k | 0 <= k < |r.errorPlates| :: r.errorPlates[k] in f.vehicles || r.errorPlates[k] in ImportedPlates(rows)
    ensures r.fleet.services == f.services && r.fleet.incidents == f.incidents && r.fleet.schedules == f.schedules
    ensures forall p | p in f.vehicles :: p in r.fleet.vehicles && r.fleet.vehicles[p] == f.vehicles[p]
    ensures r.fleet.vehicles.Keys == f.vehicles.Keys + ImportedPlates(rows)
    decreases |rows|
  {
    if |rows| == 0 then ImportResult(0, 0, [], f)
    else
      var x := rows[0];
      var p := PlateOf(x.patente);
      ImportedPlatesSplit(rows);
      if p in f.vehicles then
        var rest := ImportVehicles(f, rows[1..]);
        ImportResult(rest.success, rest.errors + 1, [p] + rest.errorPlates, rest.fleet)
      else
        var g := AddVehicle(f, p, NewRow(x, p)).1;
        var rest := ImportVehicles(g, rows[1..]);
        ImportResult(rest.success + 1, rest.errors, rest.errorPlates, rest.fleet)
  }

  /** The successes are the plates the import adds to the store. */
  lemma {:induction false} ImportCountsNewPlates(f: Fleet, rows: seq<CsvImport.StdRow>)
    ensures ImportVehicles(f, rows).success == |ImportedPlates(rows) - f.vehicles.Keys|
    decreases |rows|
  {
    if |rows| == 0 {
      assert ImportedPlates(rows) == {};
    } else {
      var p := PlateOf(rows[0].patente);
      var g := Step(f, rows[0]);
      assert ImportedPlates(rows) == {p} + ImportedPlates(rows[1..]) by {
        ImportedPlatesSplit(rows);
      }
      assert g.vehicles.Keys == f.vehicles.Keys + {p};
      assert ImportVehicles(f, rows).success == (if p in f.vehicles then 0 else 1) + ImportVehicles(g, rows[1..]).success by {
        assert rows[0..] == rows;
        StepImport(f, rows, 0);
      }
      ImportCountsNewPlates(g, rows[1..]);
      NewPlateCounted(f.vehicles.Keys, p, ImportedPlates(rows[1..]));
    }
  }

  lemma NewPlateCounted(stored: set<string>, p: string, later: set<string>)
    ensures |({p} + later) - stored| == (if p in stored then 0 else 1) + |later - (stored + {p})|
  {
    if p in stored {
      assert ({p} + later) - stored == later - (stored + {p});
    } else {
      assert ({p} + later) - stored == {p} + (later - (stored + {p}));
    }
  }

  /** Row `i` is refused: its plate is stored already or belongs to an
      earlier row. */
  predicate Refused(f: Fleet, rows: seq<CsvImport.StdRow>, i: nat)
    requires i < |rows|
  {
    PlateOf(rows[i].patente) in f.vehicles.Keys + ImportedPlates(rows[..i])
  }

  /** The plates of the refused rows from `i` on, in row order. */
  function RefusedFrom(f: Fleet, rows: seq<CsvImport.StdRow>, i: nat): seq<string>
    requires i <= |rows|
    decreases |rows| - i
  {
    if i == |rows| then []
    else (if Refused(f, rows, i) then [PlateOf(rows[i].patente)] else []) + RefusedFrom(f, rows, i + 1)
  }

  lemma ImportedPlatesExtend(rows: seq<CsvImport.StdRow>, i: nat)
    requires i < |rows|
    ensures ImportedPlates(rows[..i + 1]) == ImportedPlates(rows[..i]) + {PlateOf(rows[i].patente)}
  {
    assert rows[..i + 1] == rows[..i] + [rows[i]];
    ImportedPlatesSnoc(rows[..i], rows[i]);
  }

  lemma ImportedPlatesSnoc(a: seq<CsvImport.StdRow>, x: CsvImport.StdRow)
    ensures ImportedPlates(a + [x]) == ImportedPlates(a) + {PlateOf(x.patente)}
  {
    var b := a + [x];
    var p := PlateOf(x.patente);
    assert ImportedPlates(b) <= ImportedPlates(a) + {p} by {
      forall q | q in ImportedPlates(b) ensures q in ImportedPlates(a) + {p} {
        var k :| 0 <= k < |b| && PlateOf(b[k].patente) == q;
        if k < |a| { assert PlateOf(a[k].patente) == q; }
      }
    }
    assert ImportedPlates(a) + {p} <= ImportedPlates(b) by {
      assert PlateOf(b[|a|].patente) == p;
      forall q | q in ImportedPlates(a) ensures q in ImportedPlates(b) {
        var k :| 0 <= k < |a| && PlateOf(a[k].patente) == q;
        assert PlateOf(b[k].patente) == q;
      }
    }
  }

  /** The import reports exactly the refused rows' plates, in row order, and
      stores every other row as its inserted row under its plate. */
  lemma ImportVehiclesExactly(f: Fleet, rows: seq<CsvImport.StdRow>)
    ensures ImportVehicles(f, rows).errorPlates == RefusedFrom(f, rows, 0)
    ensures forall i | 0 <= i < |rows| && !Refused(f, rows, i) ::
              ImportVehicles(f, rows).fleet.vehicles[PlateOf(rows[i].patente)] == NewRow(rows[i], PlateOf(rows[i].patente))
  {
    assert rows[..0] == [] && rows[0..] == rows;
    ErrorsFrom(f, f, rows, 0);
    StoredFrom(f, f, rows, 0);
  }

  /** The store after importing row `x` into `g`. */
  function Step(g: Fleet, x: CsvImport.StdRow): Fleet {
    var p := PlateOf(x.patente);
    if p in g.vehicles then g else AddVehicle(g, p, NewRow(x, p)).1
  }

  lemma StepKeys(f: Fleet, g: Fleet, rows: seq<CsvImport.StdRow>, i: nat)
    requires i < |rows| && g.vehicles.Keys == f.vehicles.Keys + ImportedPlates(rows[..i])
    ensures Step(g, rows[i]).vehicles.Keys == f.vehicles.Keys + ImportedPlates(rows[..i + 1])
    ensures !Refused(f, rows, i) ==> Step(g, rows[i]).vehicles[PlateOf(rows[i].patente)] == NewRow(rows[i], PlateOf(rows[i].patente))
  {
    ImportedPlatesExtend(rows, i);
  }

  lemma StepImport(g: Fleet, rows: seq<CsvImport.StdRow>, i: nat)
    requires i < |rows|
    ensures ImportVehicles(g, rows[i..]).success ==
              (if PlateOf(rows[i].patente) in g.vehicles then 0 else 1) + ImportVehicles(Step(g, rows[i]), rows[i + 1..]).success
    ensures ImportVehicles(g, rows[i..]).fleet == ImportVehicles(Step(g, rows[i]), rows[i + 1..]).fleet
    ensures ImportVehicles(g, rows[i..]).errorPlates ==
              (if PlateOf(rows[i].patente) in g.vehicles then [PlateOf(rows[i].patente)] else [])
              + ImportVehicles(Step(g, rows[i]), rows[i + 1..]).errorPlates
  {
    assert rows[i..][0] == rows[i] && rows[i..][1..] == rows[i + 1..];
  }

  /** The errors of the import of the rows from `i` on, into a store
      holding `f` and the plates of the rows before `i`. */
  lemma {:induction false} ErrorsFrom(f: Fleet, g: Fleet, rows: seq<CsvImport.StdRow>, i: nat)
    requires i <= |rows|
    requires g.vehicles.Keys == f.vehicles.Keys + ImportedPlates(rows[..i])
    ensures ImportVehicles(g, rows[i..]).errorPlates == RefusedFrom(f, rows, i)
    decreases |rows| - i
  {
    if i < |rows| {
      StepKeys(f, g, rows, i);
      StepImport(g, rows, i);
      ErrorsFrom(f, Step(g, rows[i]), rows, i + 1);
    }
  }

  /** The vehicles stored by the import of the rows from `i` on. */
  lemma {:induction false} StoredFrom(f: Fleet, g: Fleet, rows: seq<CsvImport.StdRow>, i: nat)
    requires i <= |rows|
    requires g.vehicles.Keys == f.vehicles.Keys + ImportedPlates(rows[..i])
    ensures forall j | i <= j < |rows| && !Refused(f, rows, j) ::
              ImportVehicles(g, rows[i..]).fleet.vehicles[PlateOf(rows[j].patente)] == NewRow(rows[j], PlateOf(rows[j].patente))
    decreases |rows| - i
  {
    if i < |rows| {
      StepKeys(f, g, rows, i);
      StepImport(g, rows, i);
      StoredFrom(f, Step(g, rows[i]), rows, i + 1);
    }
  }

  /** Importing the same rows a second time adds nothing and reports every
      row as an error. */
  lemma {:induction false} ReimportAddsNothing(f: Fleet, rows: seq<CsvImport.StdRow>)
    requires ImportedPlates(rows) <= f.vehicles.Keys
    ensures ImportVehicles(f, rows).fleet == f
    ensures ImportVehicles(f, rows).errors == |rows|
    decreases |rows|
  {
    if |rows| > 0 {
      ImportedPlatesSplit(rows);
      ReimportAddsNothing(f, rows[1..]);
    }
  }

  // ---------------------------------------------------------------------
  // Completing a scheduled maintenance

  const Completed: string := "COMPLETADO"

  /** The earlier of two ISO dates, compared as strings: today when the
      scheduled date is later. */
  function EarlierDate(today: string, scheduled: string): (d: string)
    ensures d == today || d == scheduled
    ensures StrLe(d, today) && StrLe(d, scheduled)
  {
    StrLessTrichotomy(today, scheduled);
    if StrLess(today, scheduled) then today else scheduled
  }

  /** The record a completed maintenance adds: the vehicle's current km, no
      workshop and no cost. */
  function CompletionRecord(s: Schedule, date: string, km: Value): ServiceRecord {
    ServiceRecord(s.patente, Str(date), km, s.tipoService, Str(""), Int(0), s.descripcion, Null)
  }

  /** `mark_maintenance_completed`. The schedule is read joined with its
      vehicle, so an unknown id or a schedule whose vehicle is gone gives
      False with nothing changed. Otherwise the status becomes COMPLETADO
      first; when a service is to be recorded, a missing scheduled date
      makes the string comparison raise after that write, so the result is
      False with the status changed and no record added. */
  function MarkMaintenanceCompleted(f: Fleet, id: int, serviceDone: bool, today: string): (r: (bool, Fleet))
    ensures id !in f.schedules || f.schedules[id].patente !in f.vehicles ==> r == (false, f)
    ensures id in f.schedules && f.schedules[id].patente in f.vehicles ==>
              && r.1.schedules == f.schedules[id := f.schedules[id].(estado := Completed)]
              && r.1.incidents == f.incidents
              && r.1.vehicles.Keys == f.vehicles.Keys
    ensures id in f.schedules && f.schedules[id].patente in f.vehicles && !serviceDone ==>
              r.0 && r.1.services == f.services && r.1.vehicles == f.vehicles
    ensures id in f.schedules && f.schedules[id].patente in f.vehicles && serviceDone
            && f.schedules[id].fechaProgramada.None? ==>
              !r.0 && r.1.services == f.services && r.1.vehicles == f.vehicles
    ensures id in f.schedules && f.schedules[id].patente in f.vehicles && serviceDone
            && f.schedules[id].fechaProgramada.Some? ==>
              var s := f.schedules[id];
              var v := f.vehicles[s.patente];
              var date := EarlierDate(today, s.fechaProgramada.value);
              && r.0
              && r.1.services == f.services + [CompletionRecord(s, date, if "km" in v then v["km"] else Null)]
              && r.1.vehicles[s.patente] == Serviced(v, Str(date), if "km" in v then v["km"] else Null, Str(""))
              && forall p | p in f.vehicles && p != s.patente :: r.1.vehicles[p] == f.vehicles[p]
  {
    if id !in f.schedules || f.schedules[id].patente !in f.vehicles then (false, f)
    else
      var s := f.schedules[id];
      var marked := f.(schedules := f.schedules[id := s.(estado := Completed)]);
      if !serviceDone then (true, marked)
      else if s.fechaProgramada.None? then (false, marked)
      else
        var v := f.vehicles[s.patente];
        var km := if "km" in v then v["km"] else Null;
        var date := EarlierDate(today, s.fechaProgramada.value);
        (true, AddServiceRecord(marked, CompletionRecord(s, date, km)).1)
  }

  /** A completed maintenance records a service no later than today. */
  lemma CompletionNeverInTheFuture(f: Fleet, id: int, today: string)
    requires id in f.schedules && f.schedules[id].patente in f.vehicles && f.schedules[id].fechaProgramada.Some?
    ensures var r := MarkMaintenanceCompleted(f, id, true, today).1;
            |r.services| == |f.services| + 1 && r.services[|f.services|].fecha.Str?
            && StrLe(r.services[|f.services|].fecha.s, today)
  {
  }
}

=== FILE: messages.dfy ===
/** The notification texts of send_message.py. Sending is simulated: the
    message is printed and success is always reported, so the model keeps
    an outbox of the messages "sent" in order. */
module Messages {
  import opened Common
  import opened Text

  /** One simulated SMS. */
  datatype Sms = Sms(to: string, text: string)

  /** `send_twilio_message`: the message goes out unchanged to the given
      number and the call always reports success. */
  function SendTwilio(outbox: seq<Sms>, to: string, message: string): (r: (bool, seq<Sms>))
    ensures r.0
    ensures |r.1| == |outbox| + 1 && r.1[..|outbox|] == outbox
    ensures r.1[|outbox|].to == to && r.1[|outbox|].text == message
  {
    var sent := outbox + [Sms(to, message)];
    assert sent[..|outbox|] == outbox;
    (true, sent)
  }

  const Signature: string := "Sistema de Gestión de Flota Vehicular."

  // ---------------------------------------------------------------------
  // Maintenance reminder

  function ReminderHead(patente: string, marca: string, modelo: string): string {
    "RECORDATORIO: El vehículo " + patente + " (" + marca + " " + modelo + ") "
  }

  const DateLead: string := "tiene programado un servicio para el día "
  const KmLead: string := "Debe realizarse un servicio al alcanzar "

  /** The date sentence, only for a non-empty date. */
  function DateSentence(fecha: Option<string>): string {
    if TruthyText(fecha) then DateLead + fecha.value + ". " else ""
  }

  /** The km sentence, only for a km that is present and non-zero. */
  function KmSentence(km: Option<int>): string {
    if km.Some? && km.value != 0 then KmLead + IntToString(km.value) + " km. " else ""
  }

  /** The text of `send_maintenance_reminder`. */
  function ReminderText(patente: string, marca: string, modelo: string, fecha: Option<string>, km: Option<int>): string {
    ReminderHead(patente, marca, modelo) + (DateSentence(fecha) + (KmSentence(km) + Signature))
  }

  /** `send_maintenance_reminder`: sends exactly one message, the reminder
      text, and reports success. */
  function SendMaintenanceReminder(outbox: seq<Sms>, to: string, patente: string, marca: string, modelo: string,
                                   fecha: Option<string>, km: Option<int>): (r: (bool, seq<Sms>))
    ensures r.0
    ensures |r.1| == |outbox| + 1 && r.1[..|outbox|] == outbox
    ensures r.1[|outbox|] == Sms(to, ReminderText(patente, marca, modelo, fecha, km))
  {
    SendTwilio(outbox, to, ReminderText(patente, marca, modelo, fecha, km))
  }

  /** The reminder opens with the vehicle and closes with the signature. */
  lemma ReminderFrame(patente: string, marca: string, modelo: string, fecha: Option<string>, km: Option<int>)
    ensures var m := ReminderText(patente, marca, modelo, fecha, km);
            StartsWith(m, ReminderHead(patente, marca, modelo)) && EndsWith(m, Signature)
  {
    var rest := DateSentence(fecha) + (KmSentence(km) + Signature);
    ContainsStart(ReminderHead(patente, marca, modelo), rest);
    assert EndsWith(Signature, Signature);
    EndsAfter(KmSentence(km), Signature, Signature);
    EndsAfter(DateSentence(fecha), KmSentence(km) + Signature, Signature);
    EndsAfter(ReminderHead(patente, marca, modelo), rest, Signature);
  }

  /** Right after the heading comes the date sentence exactly when the date
      is non-empty. */
  lemma ReminderDateIffGiven(patente: string, marca: string, modelo: string, fecha: Option<string>, km: Option<int>)
    ensures var m := ReminderText(patente, marca, modelo, fecha, km);
            var after := m[|ReminderHead(patente, marca, modelo)|..];
            StartsWith(after, DateLead) <==> TruthyText(fecha)
    ensures TruthyText(fecha) ==>
              StartsWith(ReminderText(patente, marca, modelo, fecha, km)[|ReminderHead(patente, marca, modelo)|..],
                         DateLead + fecha.value + ". ")
  {
    var head := ReminderHead(patente, marca, modelo);
    var m := ReminderText(patente, marca, modelo, fecha, km);
    var after := DateSentence(fecha) + (KmSentence(km) + Signature);
    assert m[|head|..] == after;
    if TruthyText(fecha) {
      assert after[..|DateLead + fecha.value + ". "|] == DateLead + fecha.value + ". ";
      assert after[..|DateLead|] == DateLead;
    } else {
      assert after == KmSentence(km) + Signature;
      if km.Some? && km.value != 0 {
        assert after[0] == KmLead[0] == 'D';
      } else {
        assert after[0] == Signature[0] == 'S';
      }
      assert DateLead[0] == 't';
    }
  }

  /** After the date part comes the km sentence exactly when the km is
      present and non-zero; a km of 0 is left out. */
  lemma ReminderKmIffGiven(patente: string, marca: string, modelo: string, fecha: Option<string>, km: Option<int>)
    ensures var m := ReminderText(patente, marca, modelo, fecha, km);
            var after := m[|ReminderHead(patente, marca, modelo)| + |DateSentence(fecha)|..];
            StartsWith(after, KmLead) <==> km.Some? && km.value != 0
    ensures km.Some? && km.value != 0 ==>
              var m := ReminderText(patente, marca, modelo, fecha, km);
              StartsWith(m[|ReminderHead(patente, marca, modelo)| + |DateSentence(fecha)|..],
                         KmLead + IntToString(km.value) + " km. ")
  {
    var head := ReminderHead(patente, marca, modelo);
    var m := ReminderText(patente, marca, modelo, fecha, km);
    var after := KmSentence(km) + Signature;
    assert m == (head + DateSentence(fecha)) + after;
    assert m[|head| + |DateSentence(fecha)|..] == after;
    if km.Some? && km.value != 0 {
      var k := KmLead + IntToString(km.value) + " km. ";
      assert after[..|k|] == k;
      assert after[..|KmLead|] == KmLead;
    } else {
      assert after == Signature;
    }
  }

  /** An absent date and an empty one give the same reminder, and so do an
      absent km and a km of 0. */
  lemma ReminderOmitsEmptyParts(patente: string, marca: string, modelo: string, fecha: Option<string>, km: Option<int>)
    ensures !TruthyText(fecha) ==> ReminderText(patente, marca, modelo, fecha, km) == ReminderText(patente, marca, modelo, None, km)
    ensures km == Some(0) ==> ReminderText(patente, marca, modelo, fecha, km) == ReminderText(patente, marca, modelo, fecha, None)
    ensures ReminderText(patente, marca, modelo, None, None) == ReminderHead(patente, marca, modelo) + Signature
  {
    assert DateSentence(None) + (KmSentence(None) + Signature) == Signature;
  }

  // ---------------------------------------------------------------------
  // VTV expiration alert

  function AlertHead(patente: string, marca: string, modelo: string): string {
    "ALERTA: La VTV del vehículo " + patente + " (" + marca + " " + modelo + ") "
  }

  const ExpiredLead: string := "venció el "
  const DueLead: string := "vence el "
  const Renewal: string := "Por favor, programe la renovación a la brevedad. "

  /** The expiry sentence: past for zero or fewer days left, otherwise the
      date with the days remaining. */
  function ExpirySentence(fecha: string, dias: int): string {
    if dias <= 0 then ExpiredLead + fecha + ". " else DueLead + fecha + " (en " + IntToString(dias) + " días). "
  }

  /** The text of `send_vtv_expiration_alert`. */
  function AlertText(patente: string, marca: string, modelo: string, fecha: string, dias: int): string {
    AlertHead(patente, marca, modelo) + (ExpirySentence(fecha, dias) + (Renewal + Signature))
  }

  /** `send_vtv_expiration_alert`: sends exactly one message, the alert
      text, and reports success. */
  function SendVtvExpirationAlert(outbox: seq<Sms>, to: string, patente: string, marca: string, modelo: string,
                                  fecha: string, dias: int): (r: (bool, seq<Sms>))
    ensures r.0
    ensures |r.1| == |outbox| + 1 && r.1[..|outbox|] == outbox
    ensures r.1[|outbox|] == Sms(to, AlertText(patente, marca, modelo, fecha, dias))
  {
    SendTwilio(outbox, to, AlertText(patente, marca, modelo, fecha, dias))
  }

  /** The alert opens with the vehicle and closes with the renewal request
      and the signature. */
  lemma AlertFrame(patente: string, marca: string, modelo: string, fecha: string, dias: int)
    ensures var m := AlertText(patente, marca, modelo, fecha, dias);
            StartsWith(m, AlertHead(patente, marca, modelo)) && EndsWith(m, Renewal + Signature)
  {
    var rest := ExpirySentence(fecha, dias) + (Renewal + Signature);
    ContainsStart(AlertHead(patente, marca, modelo), rest);
    assert EndsWith(Renewal + Signature, Renewal + Signature);
    EndsAfter(ExpirySentence(fecha, dias), Renewal + Signature, Renewal + Signature);
    EndsAfter(AlertHead(patente, marca, modelo), rest, Renewal + Signature);
  }

  /** The alert says the VTV expired exactly when no days are left, and
      otherwise gives the days remaining. */
  lemma AlertExpiredIffNoDaysLeft(patente: string, marca: string, modelo: string, fecha: string, dias: int)
    ensures var after := AlertText(patente, marca, modelo, fecha, dias)[|AlertHead(patente, marca, modelo)|..];
            StartsWith(after, ExpiredLead) <==> dias <= 0
    ensures dias > 0 ==>
              var after := AlertText(patente, marca, modelo, fecha, dias)[|AlertHead(patente, marca, modelo)|..];
              StartsWith(after, DueLead + fecha + " (en " + IntToString(dias) + " días). ")
  {
    var head := AlertHead(patente, marca, modelo);
    var e := ExpirySentence(fecha, dias);
    var after := e + (Renewal + Signature);
    assert AlertText(patente, marca, modelo, fecha, dias)[|head|..] == after;
    if dias <= 0 {
      assert after[..|ExpiredLead|] == ExpiredLead;
    } else {
      assert after[..|e|] == e;
      assert after[4] == 'e';
    }
  }

  /** Once expired, the alert no longer depends on how many days ago. */
  lemma ExpiredAlertIgnoresDays(patente: string, marca: string, modelo: string, fecha: string, d1: int, d2: int)
    requires d1 <= 0 && d2 <= 0
    ensures AlertText(patente, marca, modelo, fecha, d1) == AlertText(patente, marca, modelo, fecha, d2)
  {
  }
}

=== FILE: pagination.dfy ===
/** The paginated table (pagination.py, `crear_tabla_paginada`) and the
    filterable table around it (`tabla_filtrable`). The page number kept in
    the session is a parameter; a frame is a list of typed columns and rows
    of cells, and column filters name a column by its position. */
module Pagination {
  import opened Common
  import opened Text

  // ---------------------------------------------------------------------
  // Page arithmetic

  /** What one render shows: the clamped page, the page count and the
      half-open row range of the slice. */
  datatype View = View(page: nat, nPages: nat, start: nat, end: nat)

  /** Floor division plus one page for a remainder: the smallest page count
      whose pages hold every row. */
  function NPages(len: nat, size: nat): (n: nat)
    requires size > 0
    ensures len <= n * size
    ensures n == 0 || (n - 1) * size < len
    ensures len > 0 <==> n >= 1
  {
    var q := len / size;
    assert len == q * size + len % size;
    if len % size != 0 then
      assert (q + 1) * size == q * size + size;
      q + 1
    else q
  }

  /** The stored page is pulled down to the last page and then up to 0. */
  function Clamp(stored: int, n: nat): (r: nat)
    ensures n >= 1 ==> r < n
    ensures 0 <= stored < n ==> r == stored
    ensures stored >= n && n >= 1 ==> r == n - 1
    ensures stored < 0 ==> r == 0
  {
    var p := if stored >= n then n - 1 else stored;
    if p < 0 then 0 else p
  }

  function PageStart(page: nat, size: nat): nat {
    page * size
  }

  function PageEnd(page: nat, size: nat, len: nat): nat {
    if PageStart(page, size) + size <= len then PageStart(page, size) + size else len
  }

  /** One render of `crear_tabla_paginada`: nothing for an empty frame;
      otherwise the stored page (0 when none is stored) is clamped and its
      slice is a non-empty run of at most `size` rows inside the frame. */
  function Show(len: nat, size: nat, stored: Option<int>): (r: Option<View>)
    requires size > 0
    ensures r.None? <==> len == 0
    ensures r.Some? ==> r.value.nPages >= 1 && r.value.page < r.value.nPages
    ensures r.Some? ==> 0 <= r.value.start < r.value.end <= len
    ensures r.Some? ==> r.value.end - r.value.start <= size
    ensures r.Some? && stored.Some? && 0 <= stored.value < r.value.nPages ==> r.value.page == stored.value
  {
    if len == 0 then None
    else
      var n := NPages(len, size);
      var page := Clamp(if stored.Some? then stored.value else 0, n);
      PageStartInside(page, n, size, len);
      Some(View(page, n, PageStart(page, size), PageEnd(page, size, len)))
  }

  lemma PageStartInside(page: nat, n: nat, size: nat, len: nat)
    requires size > 0 && n == NPages(len, size) && page < n
    ensures PageStart(page, size) < len
  {
    MulMonotone(page, n - 1, size);
  }

  lemma MulMonotone(a: nat, b: nat, size: nat)
    requires a <= b
    ensures a * size <= b * size
  {
    assert b * size == a * size + (b - a) * size;
  }

  /** Every row index lies in the slice of exactly one page: the page
      `i / size`. */
  lemma {:induction false} PagesPartitionRows(len: nat, size: nat, i: nat)
    requires size > 0 && i < len
    ensures i / size < NPages(len, size)
    ensures forall p: nat | p < NPages(len, size) ::
              PageStart(p, size) <= i < PageEnd(p, size, len) <==> p == i / size
  {
    var n := NPages(len, size);
    var q := i / size;
    assert i == q * size + i % size;
    if q >= n {
      MulMonotone(n, q, size);
      assert false;
    }
    forall p: nat | p < n
      ensures PageStart(p, size) <= i < PageEnd(p, size, len) <==> p == q
    {
      if p < q {
        MulMonotone(p + 1, q, size);
        assert (p + 1) * size == p * size + size;
      } else if p > q {
        MulMonotone(q + 1, p, size);
        assert (q + 1) * size == q * size + size;
      } else {
        assert (q + 1) * size == q * size + size;
      }
    }
  }

  /** Consecutive pages abut, the first starts at row 0 and the last ends
      at the last row. */
  lemma PagesAreContiguous(len: nat, size: nat)
    requires size > 0 && len > 0
    ensures PageStart(0, size) == 0
    ensures PageEnd(NPages(len, size) - 1, size, len) == len
    ensures forall p: nat | p + 1 < NPages(len, size) :: PageEnd(p, size, len) == PageStart(p + 1, size)
  {
    var n := NPages(len, size);
    assert (n - 1) * size + size == n * size;
    forall p: nat | p + 1 < n
      ensures PageEnd(p, size, len) == PageStart(p + 1, size)
    {
      MulMonotone(p + 1, n - 1, size);
      assert (p + 1) * size == p * size + size;
    }
  }

  // ---------------------------------------------------------------------
  // Navigation

  /** The four buttons and the page selector. */
  datatype Control = First | Prev | Next | Last | Goto(index: int)

  /** A disabled button cannot be pressed. */
  predicate Disabled(c: Control, page: int, n: nat) {
    match c
    case First => page == 0
    case Prev => page <= 0
    case Next => page >= n - 1
    case Last => page == n - 1
    case Goto(_) => false
  }

  /** The page stored after using a control on the shown page `page`. The
      selector offers pages 0 .. n-1 only and stores a different choice. */
  function Press(c: Control, page: int, n: nat): (r: int)
    ensures Disabled(c, page, n) ==> r == page
    ensures c == First ==> r == 0
    ensures c == Last ==> r == n - 1
    ensures c == Prev && page > 0 ==> r == page - 1
    ensures c == Next && page < n - 1 ==> r == page + 1
    ensures c.Goto? && 0 <= c.index < n ==> r == c.index
  {
    if Disabled(c, page, n) then page
    else
      match c
      case First => 0
      case Prev => page - 1
      case Next => page + 1
      case Last => n - 1
      case Goto(i) => if 0 <= i < n then i else page
  }

  /** Starting from a page the render showed, every control stores a page
      that the next render shows as it is, without clamping. */
  lemma NavigationStaysInRange(len: nat, size: nat, stored: Option<int>, c: Control)
    requires size > 0 && len > 0
    ensures var v := Show(len, size, stored).value;
            var next := Press(c, v.page, v.nPages);
            0 <= next < v.nPages && Show(len, size, Some(next)).value.page == next
  {
  }

  // ---------------------------------------------------------------------
  // Filters and search

  datatype Column = Column(name: string, isObject: bool)

  type Row = seq<Value>

  datatype Frame = Frame(columns: seq<Column>, rows: seq<Row>)

  /** A multiselect filter on one column; an empty selection filters
      nothing. */
  datatype Filter = Filter(column: nat, selected: seq<Value>)

  /** Every filter names a column that every row has. */
  predicate FiltersFit(rows: seq<Row>, filters: seq<Filter>) {
    forall k, f | 0 <= k < |rows| && f in filters :: f.column < |rows[k]|
  }

  predicate Admits(f: Filter, row: Row)
    requires f.column < |row|
  {
    |f.selected| == 0 || row[f.column] in f.selected
  }

  /** `isin` on one column, skipped for an empty selection. */
  function ApplyFilter(rows: seq<Row>, f: Filter): (r: seq<Row>)
    requires forall k | 0 <= k < |rows| :: f.column < |rows[k]|
    ensures |r| <= |rows|
    ensures forall k | 0 <= k < |r| :: r[k] in rows
  {
    if |rows| == 0 then []
    else
      var rest := ApplyFilter(rows[1..], f);
      if Admits(f, rows[0]) then [rows[0]] + rest else rest
  }

  /** The filters applied one after the other, in the order they are
      declared. */
  function ApplyFilters(rows: seq<Row>, filters: seq<Filter>): (r: seq<Row>)
    requires FiltersFit(rows, filters)
    ensures |r| <= |rows|
    ensures forall k | 0 <= k < |r| :: r[k] in rows
    decreases |filters|
  {
    if |filters| == 0 then rows
    else
      var once := ApplyFilter(rows, filters[0]);
      assert FiltersFit(once, filters[1..]) by {
        forall k, f | 0 <= k < |once| && f in filters[1..] ensures f.column < |once[k]| {
          var j :| 0 <= j < |rows| && rows[j] == once[k];
        }
      }
      ApplyFilters(once, filters[1..])
  }

  /** A row passes every filter at once. */
  predicate PassesAll(row: Row, filters: seq<Filter>)
    requires forall f | f in filters :: f.column < |row|
  {
    forall f | f in filters :: Admits(f, row)
  }

  /** The reference: the rows, in order, that pass every filter at once. */
  function Passing(rows: seq<Row>, filters: seq<Filter>): (r: seq<Row>)
    requires FiltersFit(rows, filters)
    ensures forall k | 0 <= k < |r| :: r[k] in rows
  {
    if |rows| == 0 then []
    else
      var rest := Passing(rows[1..], filters);
      if PassesAll(rows[0], filters) then [rows[0]] + rest else rest
  }

  /** Filtering by `f` and then by the rest keeps what passes all of them. */
  lemma {:induction false} PassingAfterFilter(rows: seq<Row>, f: Filter, fs: seq<Filter>)
    requires FiltersFit(rows, [f] + fs)
    ensures FiltersFit(ApplyFilter(rows, f), fs)
    ensures Passing(ApplyFilter(rows, f), fs) == Passing(rows, [f] + fs)
  {
    var once := ApplyFilter(rows, f);
    assert FiltersFit(once, fs) by {
      forall k, g | 0 <= k < |once| && g in fs ensures g.column < |once[k]| {
        var j :| 0 <= j < |rows| && rows[j] == once[k];
        assert g in [f] + fs;
      }
    }
    if |rows| > 0 {
      assert FiltersFit(rows[1..], [f] + fs);
      PassingAfterFilter(rows[1..], f, fs);
      assert f in [f] + fs;
      assert PassesAll(rows[0], [f] + fs) <==> Admits(f, rows[0]) && PassesAll(rows[0], fs) by {
        forall g | g in [f] + fs ensures g == f || g in fs { }
      }
    }
  }

  /** The column filters are conjunctive: applying them in sequence keeps
      exactly the rows that pass all of them, in their original order. */
  lemma {:induction false} FiltersAreConjunctive(rows: seq<Row>, filters: seq<Filter>)
    requires FiltersFit(rows, filters)
    ensures ApplyFilters(rows, filters) == Passing(rows, filters)
    decreases |filters|
  {
    if |filters| == 0 {
      NoFilterPassesAll(rows);
    } else {
      assert filters == [filters[0]] + filters[1..];
      PassingAfterFilter(rows, filters[0], filters[1..]);
      FiltersAreConjunctive(ApplyFilter(rows, filters[0]), filters[1..]);
    }
  }

  lemma {:induction false} NoFilterPassesAll(rows: seq<Row>)
    ensures Passing(rows, []) == rows
  {
    if |rows| > 0 {
      NoFilterPassesAll(rows[1..]);
      assert rows == [rows[0]] + rows[1..];
    }
  }

  /** `astype(str)` of a cell; the text of a float is a parameter. */
  function CellText(v: Value, realText: real -> string): string {
    match v
    case Null => "None"
    case Str(s) => s
    case Int(i) => IntToString(i)
    case Real(x) => realText(x)
  }

  /** `str.contains(text, case=False)` on one cell. */
  predicate CellMatches(v: Value, text: string, realText: real -> string) {
    Contains(Lower(CellText(v, realText)), Lower(text))
  }

  /** The mask built column by column: the `|` of the matches of the
      object-typed columns from `k` on. */
  function MaskFrom(columns: seq<Column>, row: Row, k: nat, text: string, realText: real -> string): bool
    requires |row| == |columns| && k <= |columns|
    decreases |columns| - k
  {
    if k == |columns| then false
    else (columns[k].isObject && CellMatches(row[k], text, realText)) || MaskFrom(columns, row, k + 1, text, realText)
  }

  /** The mask holds for a row iff some object-typed column from `k` on
      contains the text. */
  lemma {:induction false} MaskIsSomeColumn(columns: seq<Column>, row: Row, k: nat, text: string, realText: real -> string)
    requires |row| == |columns| && k <= |columns|
    ensures MaskFrom(columns, row, k, text, realText) <==>
            exists c | k <= c < |columns| :: columns[c].isObject && CellMatches(row[c], text, realText)
    decreases |columns| - k
  {
    if k < |columns| {
      MaskIsSomeColumn(columns, row, k + 1, text, realText);
      if columns[k].isObject && CellMatches(row[k], text, realText) {
        assert k <= k < |columns|;
      } else if c :| k <= c < |columns| && columns[c].isObject && CellMatches(row[c], text, realText) {
        assert k + 1 <= c;
      }
    }
  }

  predicate WellFormed(f: Frame) {
    forall k | 0 <= k < |f.rows| :: |f.rows[k]| == |f.columns|
  }

  predicate HasObjectColumn(columns: seq<Column>) {
    exists c | 0 <= c < |columns| :: columns[c].isObject
  }

  function MaskRows(columns: seq<Column>, rows: seq<Row>, text: string, realText: real -> string): (r: seq<Row>)
    requires forall k | 0 <= k < |rows| :: |rows[k]| == |columns|
    ensures |r| <= |rows|
    ensures forall k | 0 <= k < |r| :: r[k] in rows
  {
    if |rows| == 0 then []
    else
      var rest := MaskRows(columns, rows[1..], text, realText);
      if MaskFrom(columns, rows[0], 0, text, realText) then [rows[0]] + rest else rest
  }

  /** The search box: an empty text keeps every row; a non-empty text keeps
      the rows where some object-typed column contains it, ignoring case.
      With no object-typed column the mask stays the scalar `False`, and
      indexing the frame with it raises (`None`). */
  function Search(f: Frame, text: string, realText: real -> string): (r: Option<seq<Row>>)
    requires WellFormed(f)
    ensures |text| == 0 ==> r == Some(f.rows)
    ensures r.None? <==> |text| > 0 && !HasObjectColumn(f.columns)
    ensures r.Some? ==> |r.value| <= |f.rows|
  {
    if |text| == 0 then Some(f.rows)
    else if !HasObjectColumn(f.columns) then None
    else Some(MaskRows(f.columns, f.rows, text, realText))
  }

  /** A searched row is kept iff one of its object-typed cells contains the
      text, and the kept rows are in their original order. */
  lemma {:induction false} SearchKeepsMatchingRows(columns: seq<Column>, rows: seq<Row>, text: string, realText: real -> string)
    requires forall k | 0 <= k < |rows| :: |rows[k]| == |columns|
    ensures var r := MaskRows(columns, rows, text, realText);
            forall row | row in rows ::
              row in r <==> exists c | 0 <= c < |columns| :: columns[c].isObject && CellMatches(row[c], text, realText)
  {
    if |rows| > 0 {
      SearchKeepsMatchingRows(columns, rows[1..], text, realText);
      MaskIsSomeColumn(columns, rows[0], 0, text, realText);
      var r := MaskRows(columns, rows, text, realText);
      forall row | row in rows
        ensures row in r <==> exists c | 0 <= c < |columns| :: columns[c].isObject && CellMatches(row[c], text, realText)
      {
        if row == rows[0] {
        } else {
          assert row in rows[1..];
        }
      }
    }
  }

  /** `tabla_filtrable`: an empty frame comes back unchanged; otherwise the
      column filters, then the search, then the column choice (an empty
      choice keeps every column). `None` is the raised error of a search
      with no text column. */
  function Filterable(f: Frame, filters: seq<Filter>, search: string, chosen: seq<nat>,
                      realText: real -> string): (r: Option<Frame>)
    requires WellFormed(f) && FiltersFit(f.rows, filters)
    requires forall k | 0 <= k < |chosen| :: chosen[k] < |f.columns|
    ensures |f.rows| == 0 ==> r == Some(f)
    ensures r.Some? ==> |r.value.rows| <= |f.rows|
    ensures r.None? <==> |f.rows| > 0 && |search| > 0 && !HasObjectColumn(f.columns)
    ensures r.Some? && |f.rows| > 0 && |chosen| > 0 ==> |r.value.columns| == |chosen|
    ensures r.Some? && |chosen| == 0 ==> r.value.columns == f.columns
  {
    if |f.rows| == 0 then Some(f)
    else
      var filtered := ApplyFilters(f.rows, filters);
      var searched := Search(Frame(f.columns, filtered), search, realText);
      if searched.None? then None
      else if |chosen| == 0 then Some(Frame(f.columns, searched.value))
      else
        var rows := searched.value;
        Some(Frame(seq(|chosen|, k requires 0 <= k < |chosen| => f.columns[chosen[k]]),
                   seq(|rows|, i requires 0 <= i < |rows| => Select(rows[i], chosen))))
  }

  /** Without search or column choice, the filterable table shows exactly
      the rows that pass every filter. */
  lemma FilterableWithoutSearchIsConjunctive(f: Frame, filters: seq<Filter>, realText: real -> string)
    requires WellFormed(f) && FiltersFit(f.rows, filters)
    ensures Filterable(f, filters, "", [], realText) == Some(Frame(f.columns, Passing(f.rows, filters)))
  {
    FiltersAreConjunctive(f.rows, filters);
    if |f.rows| == 0 {
      assert Passing(f.rows, filters) == [];
    }
  }

  /** A row the search box lets through: there is no text, or some
      object-typed cell contains it, ignoring case. */
  predicate SearchHit(columns: seq<Column>, row: Row, text: string, realText: real -> string)
    requires |row| == |columns|
  {
    |text| == 0 || exists c | 0 <= c < |columns| :: columns[c].isObject && CellMatches(row[c], text, realText)
  }

  /** The reference for the rows shown: in their original order, the rows
      that pass every filter and that the search lets through. */
  function Shown(columns: seq<Column>, rows: seq<Row>, filters: seq<Filter>, text: string,
                 realText: real -> string): seq<Row>
    requires forall k | 0 <= k < |rows| :: |rows[k]| == |columns|
    requires FiltersFit(rows, filters)
  {
    if |rows| == 0 then []
    else
      var rest := Shown(columns, rows[1..], filters, text, realText);
      if PassesAll(rows[0], filters) && SearchHit(columns, rows[0], text, realText) then [rows[0]] + rest else rest
  }

  /** Each row cut down to the chosen columns, in the chosen order. */
  function Project(rows: seq<Row>, chosen: seq<nat>): seq<Row>
    requires forall i, k | 0 <= i < |rows| && 0 <= k < |chosen| :: chosen[k] < |rows[i]|
  {
    seq(|rows|, i requires 0 <= i < |rows| => Select(rows[i], chosen))
  }

  /** Searching the rows that passed the filters keeps exactly the rows of
      the reference. */
  lemma {:induction false} SearchAfterFilters(columns: seq<Column>, rows: seq<Row>, filters: seq<Filter>, text: string,
                                              realText: real -> string)
    requires forall k | 0 <= k < |rows| :: |rows[k]| == |columns|
    requires FiltersFit(rows, filters) && |text| > 0
    ensures forall k | 0 <= k < |Passing(rows, filters)| :: |Passing(rows, filters)[k]| == |columns|
    ensures MaskRows(columns, Passing(rows, filters), text, realText) == Shown(columns, rows, filters, text, realText)
  {
    if |rows| > 0 {
      assert FiltersFit(rows[1..], filters);
      SearchAfterFilters(columns, rows[1..], filters, text, realText);
      MaskIsSomeColumn(columns, rows[0], 0, text, realText);
      var rest := Passing(rows[1..], filters);
      if PassesAll(rows[0], filters) {
        assert ([rows[0]] + rest)[1..] == rest;
      }
    }
  }

  /** Without a search text the reference is the rows that pass every
      filter. */
  lemma {:induction false} ShownWithoutSearch(columns: seq<Column>, rows: seq<Row>, filters: seq<Filter>,
                                              realText: real -> string)
    requires forall k | 0 <= k < |rows| :: |rows[k]| == |columns|
    requires FiltersFit(rows, filters)
    ensures Shown(columns, rows, filters, "", realText) == Passing(rows, filters)
  {
    if |rows| > 0 {
      assert FiltersFit(rows[1..], filters);
      ShownWithoutSearch(columns, rows[1..], filters, realText);
    }
  }

  /** A non-empty table that the search does not reject shows the chosen
      columns (every column when none is chosen) of exactly the rows that
      pass every filter and match the search, in their original order. */
  lemma FilterableShowsReference(f: Frame, filters: seq<Filter>, search: string, chosen: seq<nat>,
                                 realText: real -> string)
    requires WellFormed(f) && FiltersFit(f.rows, filters)
    requires forall k | 0 <= k < |chosen| :: chosen[k] < |f.columns|
    requires |f.rows| > 0 && (|search| == 0 || HasObjectColumn(f.columns))
    ensures var shown := Shown(f.columns, f.rows, filters, search, realText);
            && (forall i, k | 0 <= i < |shown| && 0 <= k < |chosen| :: chosen[k] < |shown[i]|)
            && Filterable(f, filters, search, chosen, realText) ==
                 Some(if |chosen| == 0 then Frame(f.columns, shown)
                      else Frame(seq(|chosen|, k requires 0 <= k < |chosen| => f.columns[chosen[k]]), Project(shown, chosen)))
  {
    FiltersAreConjunctive(f.rows, filters);
    var passing := Passing(f.rows, filters);
    if |search| == 0 {
      ShownWithoutSearch(f.columns, f.rows, filters, realText);
    } else {
      SearchAfterFilters(f.columns, f.rows, filters, search, realText);
    }
    var shown := Shown(f.columns, f.rows, filters, search, realText);
    assert forall i | 0 <= i < |shown| :: shown[i] in passing;
  }
}

=== FILE: secure.dfy ===
/** The validated store of secure_database.py. Every operation runs its
    checks before its first write, so a rejected call leaves the fleet as
    it was. The current year and the date parser (`strptime` with
    "%Y-%m-%d") are parameters. */
module Secure {
  import opened Common
  import opened Text
  import opened Validators
  import opened Store
  import CsvImport

  const MinYear: int := 1950

  /** The arguments of `add_vehicle` after the plate. */
  datatype VehicleInput = VehicleInput(
    area: Option<string>, tipo: Option<string>, marca: Option<string>, modelo: Option<string>,
    anio: Value, estado: Option<string>, km: Value, fechaService: Option<string>, taller: Option<string>,
    observaciones: Option<string>, pdfFiles: Option<string>, rori: Option<string>, idVehiculo: Value,
    vtv: Option<string>)

  function OptText(t: Option<string>): Value {
    if t.Some? then Str(t.value) else Null
  }

  /** `validar_fecha(d, False)`: an empty date is fine, any other must
      parse. */
  predicate OptionalDateOk(d: Option<string>, dateOk: string -> bool) {
    !TruthyText(d) || dateOk(d.value)
  }

  /** The year is an integer in [1950, current year]. */
  predicate YearOk(v: Value, currentYear: int) {
    ValidateInt(v, Some(MinYear), Some(currentYear), true).Accept?
  }

  /** An empty km is allowed; otherwise an integer >= 0. */
  predicate KmOk(v: Value) {
    ValidateInt(v, Some(0), None, false).Accept?
  }

  /** A truthy vehicle id must be an integer >= 0. */
  predicate IdOk(v: Value) {
    !Truthy(v) || ValidateInt(v, Some(0), None, false).Accept?
  }

  /** Every check of `add_vehicle`, in the order they run. */
  predicate VehicleChecks(patente: string, x: VehicleInput, currentYear: int, dateOk: string -> bool) {
    ValidatePlate(patente).PlateOk? && FieldChecks(x, currentYear, dateOk)
  }

  /** The checks of `add_vehicle` after the plate. */
  predicate FieldChecks(x: VehicleInput, currentYear: int, dateOk: string -> bool) {
    && YearOk(x.anio, currentYear)
    && KmOk(x.km)
    && IdOk(x.idVehiculo)
    && OptionalDateOk(x.fechaService, dateOk)
    && OptionalDateOk(x.vtv, dateOk)
  }

  /** Optional text that is sanitised only when non-empty. */
  function SanitizeIfTruthy(t: Option<string>): Value {
    if TruthyText(t) then OptText(Sanitize(t)) else Null
  }

  /** The row `add_vehicle` inserts: the descriptive text sanitised, the
      rest as given, and the plate exactly as the caller wrote it. */
  function NewRow(patente: string, x: VehicleInput): (r: Row)
    ensures r.Keys == VehicleColumns
    ensures r["patente"] == Str(patente) && r["año"] == x.anio && r["km"] == x.km
    ensures forall c | c in TextColumns :: r[c] == NewCell(patente, x, c)
  {
    map c | c in VehicleColumns :: NewCell(patente, x, c)
  }

  /** The sanitised text columns of a vehicle row. */
  const TextColumns: set<string> := {"area", "tipo", "marca", "modelo", "estado", "taller", "observaciones", "rori"}

  /** The value `add_vehicle` writes into column `c`. */
  function NewCell(patente: string, x: VehicleInput, c: string): Value {
    if c == "patente" then Str(patente)
    else if c == "area" then OptText(Sanitize(x.area))
    else if c == "tipo" then OptText(Sanitize(x.tipo))
    else if c == "marca" then OptText(Sanitize(x.marca))
    else if c == "modelo" then OptText(Sanitize(x.modelo))
    else if c == "año" then x.anio
    else if c == "estado" then OptText(Sanitize(x.estado))
    else if c == "km" then x.km
    else if c == "fecha_service" then OptText(x.fechaService)
    else if c == "taller" then SanitizeIfTruthy(x.taller)
    else if c == "observaciones" then SanitizeIfTruthy(x.observaciones)
    else if c == "pdf_files" then OptText(x.pdfFiles)
    else if c == "rori" then SanitizeIfTruthy(x.rori)
    else if c == "id_vehiculo" then x.idVehiculo
    else if c == "vtv_vencimiento" then OptText(x.vtv)
    else Null
  }

  /** Sanitised text never holds ';'. */
  lemma TextCellHasNoSemicolon(patente: string, x: VehicleInput, c: string)
    requires c in TextColumns
    ensures NewCell(patente, x, c) == Null || (NewCell(patente, x, c).Str? && ';' !in NewCell(patente, x, c).s)
  {
  }

  // ---------------------------------------------------------------------
  // add_vehicle

  /** `add_vehicle`: inserts exactly one vehicle, under the plate as given,
      when every check passes and the plate is not stored yet. */
  function AddVehicle(f: Fleet, patente: string, x: VehicleInput, currentYear: int,
                      dateOk: string -> bool): (r: (bool, Fleet))
    ensures r.0 <==> VehicleChecks(patente, x, currentYear, dateOk) && patente !in f.vehicles
    ensures r.0 ==> r.1 == f.(vehicles := f.vehicles[patente := NewRow(patente, x)])
    ensures r.0 ==> |r.1.vehicles| == |f.vehicles| + 1
    ensures !r.0 ==> r.1 == f
  {
    if !VehicleChecks(patente, x, currentYear, dateOk) || patente in f.vehicles then (false, f)
    else (true, f.(vehicles := f.vehicles[patente := NewRow(patente, x)]))
  }

  /** A stored vehicle has a year between 1950 and the current year, a
      km that is empty or non-negative, and text without ';'. */
  lemma AddedVehicleIsValid(f: Fleet, patente: string, x: VehicleInput, currentYear: int, dateOk: string -> bool)
    requires AddVehicle(f, patente, x, currentYear, dateOk).0
    ensures var row := AddVehicle(f, patente, x, currentYear, dateOk).1.vehicles[patente];
            && PyInt(row["año"]).Some? && MinYear <= PyInt(row["año"]).value <= currentYear
            && (row["km"] == Null || row["km"] == Str("") || (PyInt(row["km"]).Some? && PyInt(row["km"]).value >= 0))
            && forall c | c in TextColumns && row[c].Str? :: ';' !in row[c].s
  {
    var row := NewRow(patente, x);
    assert AddVehicle(f, patente, x, currentYear, dateOk).1.vehicles[patente] == row;
    assert YearOk(x.anio, currentYear) && KmOk(x.km);
    forall c | c in TextColumns && row[c].Str? ensures ';' !in row[c].s {
      TextCellHasNoSemicolon(patente, x, c);
    }
  }

  // ---------------------------------------------------------------------
  // The plate is stored as typed

  /** `add_vehicle` validates the plate but then keys the row by the text
      the caller typed, not by the separator-free plate the validator
      returns. Two spellings of one plate therefore both succeed and store
      the same vehicle twice, and the lookup by the canonical spelling
      misses the first. */
  lemma SpellingVariantsStoredTwice(f: Fleet, c: string, x: VehicleInput, currentYear: int, dateOk: string -> bool)
    requires Canonical(c) && FieldChecks(x, currentYear, dateOk)
    requires c !in f.vehicles && WithSeparators(c, "-", "") !in f.vehicles
    ensures var g := AddVehicle(f, WithSeparators(c, "-", ""), x, currentYear, dateOk);
            var h := AddVehicle(g.1, c, x, currentYear, dateOk);
            && g.0 && GetVehicle(g.1, c).None?
            && h.0 && |h.1.vehicles| == |f.vehicles| + 2
  {
    var spelled := WithSeparators(c, "-", "");
    HyphenatedSpelling(c);
    var g := f.(vehicles := f.vehicles[spelled := NewRow(spelled, x)]);
    assert AddVehicle(f, spelled, x, currentYear, dateOk) == (true, g);
    var h := g.(vehicles := g.vehicles[c := NewRow(c, x)]);
    assert AddVehicle(g, c, x, currentYear, dateOk) == (true, h);
  }

  /** A canonical plate and its hyphenated spelling both validate to the
      canonical plate, yet are different texts. */
  lemma HyphenatedSpelling(c: string)
    requires Canonical(c)
    ensures ValidatePlate(WithSeparators(c, "-", "")) == PlateOk(c)
    ensures ValidatePlate(c) == PlateOk(c)
    ensures WithSeparators(c, "-", "") != c
  {
    PlateAcceptsSeparatedForms(c, "-", "");
    BareSpelling(c);
    assert |WithSeparators(c, "-", "")| == |c| + 1;
  }

  /** A canonical plate validates to itself. */
  lemma BareSpelling(c: string)
    requires Canonical(c)
    ensures ValidatePlate(c) == PlateOk(c)
  {
    PlateAcceptsSeparatedForms(c, "", "");
    assert WithSeparators(c, "", "") == c;
  }

  /** `add_vehicle` as evidently intended: the row is keyed by the plate the
      validator returns. */
  function AddVehicleCanonical(f: Fleet, patente: string, x: VehicleInput, currentYear: int,
                               dateOk: string -> bool): (r: (bool, Fleet))
    ensures r.0 <==> VehicleChecks(patente, x, currentYear, dateOk) && ValidatePlate(patente).plate !in f.vehicles
    ensures r.0 ==> var key := ValidatePlate(patente).plate;
                    r.1 == f.(vehicles := f.vehicles[key := NewRow(key, x)])
    ensures !r.0 ==> r.1 == f
  {
    match ValidatePlate(patente)
    case PlateBad(_) => (false, f)
    case PlateOk(key) =>
      if !FieldChecks(x, currentYear, dateOk) || key in f.vehicles then (false, f)
      else (true, f.(vehicles := f.vehicles[key := NewRow(key, x)]))
  }

  /** `get_vehicle_by_patente` looking up the validated plate. */
  function GetVehicleCanonical(f: Fleet, patente: string): (r: Option<Row>)
    ensures r.Some? <==> ValidatePlate(patente).PlateOk? && ValidatePlate(patente).plate in f.vehicles
    ensures r.Some? ==> r.value == f.vehicles[ValidatePlate(patente).plate]
  {
    match ValidatePlate(patente)
    case PlateBad(_) => None
    case PlateOk(key) => if key in f.vehicles then Some(f.vehicles[key]) else None
  }

  /** Keyed by the validated plate, every stored key is a canonical plate. */
  lemma CanonicalAddKeepsKeysCanonical(f: Fleet, patente: string, x: VehicleInput, currentYear: int,
                                       dateOk: string -> bool)
    requires forall p | p in f.vehicles :: Canonical(p)
    ensures forall p | p in AddVehicleCanonical(f, patente, x, currentYear, dateOk).1.vehicles :: Canonical(p)
  {
  }

  /** Keyed by the validated plate, adding the canonical spelling after any
      other spelling is refused, and the canonical spelling finds the
      vehicle. */
  lemma SpellingVariantsCollide(f: Fleet, c: string, s1: string, s2: string, x: VehicleInput, currentYear: int,
                                dateOk: string -> bool)
    requires Canonical(c) && SepOk(s1) && SepOk(s2)
    ensures var g := AddVehicleCanonical(f, WithSeparators(c, s1, s2), x, currentYear, dateOk).1;
            && !AddVehicleCanonical(g, c, x, currentYear, dateOk).0
            && (FieldChecks(x, currentYear, dateOk) ==> c in g.vehicles && GetVehicleCanonical(g, c).Some?)
            && (FieldChecks(x, currentYear, dateOk) && c !in f.vehicles ==> |g.vehicles| == |f.vehicles| + 1)
  {
    var spelled := WithSeparators(c, s1, s2);
    PlateAcceptsSeparatedForms(c, s1, s2);
    BareSpelling(c);
    var g := AddVehicleCanonical(f, spelled, x, currentYear, dateOk).1;
    if FieldChecks(x, currentYear, dateOk) {
      assert c in g.vehicles;
    }
  }

  // ---------------------------------------------------------------------
  // update_vehicle

  /** A date passed to `update_vehicle`: a non-empty value must be a string
      that parses. */
  predicate ValueDateOk(v: Value, dateOk: string -> bool) {
    !Truthy(v) || (v.Str? && dateOk(v.s))
  }

  /** The field checks of `update_vehicle`, each applied only to a column
      the call names. */
  predicate UpdateChecks(patente: string, changes: map<string, Value>, currentYear: int, dateOk: string -> bool) {
    && ValidatePlate(patente).PlateOk?
    && ("año" in changes ==> YearOk(changes["año"], currentYear))
    && ("km" in changes ==> KmOk(changes["km"]))
    && ("id_vehiculo" in changes ==> IdOk(changes["id_vehiculo"]))
    && ("fecha_service" in changes ==> ValueDateOk(changes["fecha_service"], dateOk))
    && ("vtv_vencimiento" in changes ==> ValueDateOk(changes["vtv_vencimiento"], dateOk))
  }

  /** String values are sanitised, except the PDF list. */
  function SanitizeChanges(changes: map<string, Value>): (r: map<string, Value>)
    ensures r.Keys == changes.Keys
    ensures forall c | c in changes && changes[c].Str? && c != "pdf_files" :: r[c] == Str(Sanitize(Some(changes[c].s)).value)
    ensures forall c | c in changes && (!changes[c].Str? || c == "pdf_files") :: r[c] == changes[c]
  {
    map c | c in changes ::
      if changes[c].Str? && c != "pdf_files" then Str(Sanitize(Some(changes[c].s)).value) else changes[c]
  }

  /** `update_vehicle`: after the checks, a plate that is not stored is
      refused; an empty update or a column the table does not have makes
      the SQL statement fail. Otherwise exactly the named columns change. */
  function UpdateVehicle(f: Fleet, patente: string, changes: map<string, Value>, currentYear: int,
                         dateOk: string -> bool): (r: (bool, Fleet))
    requires "patente" !in changes
    ensures r.0 <==> UpdateChecks(patente, changes, currentYear, dateOk) && patente in f.vehicles
                     && |changes| > 0 && changes.Keys <= VehicleColumns
    ensures !r.0 ==> r.1 == f
    ensures r.0 ==> r.1 == f.(vehicles := f.vehicles[patente := f.vehicles[patente] + SanitizeChanges(changes)])
  {
    if !UpdateChecks(patente, changes, currentYear, dateOk) || patente !in f.vehicles
       || |changes| == 0 || !(changes.Keys <= VehicleColumns) then (false, f)
    else (true, f.(vehicles := f.vehicles[patente := f.vehicles[patente] + SanitizeChanges(changes)]))
  }

  /** An accepted update leaves every other vehicle as it was. */
  lemma UpdateKeepsOtherVehicles(f: Fleet, patente: string, changes: map<string, Value>, currentYear: int,
                                 dateOk: string -> bool)
    requires "patente" !in changes && UpdateVehicle(f, patente, changes, currentYear, dateOk).0
    ensures var g := UpdateVehicle(f, patente, changes, currentYear, dateOk).1;
            && g.vehicles.Keys == f.vehicles.Keys
            && (forall p | p in f.vehicles && p != patente :: g.vehicles[p] == f.vehicles[p])
  {
  }

  /** An accepted update changes only the named columns of its vehicle,
      and stores a non-text value as given. */
  lemma UpdateChangesOnlyNamedColumns(f: Fleet, patente: string, changes: map<string, Value>, currentYear: int,
                                      dateOk: string -> bool)
    requires "patente" !in changes && UpdateVehicle(f, patente, changes, currentYear, dateOk).0
    ensures var row := UpdateVehicle(f, patente, changes, currentYear, dateOk).1.vehicles[patente];
            && (forall c | c in f.vehicles[patente] && c !in changes :: row[c] == f.vehicles[patente][c])
            && (forall c | c in changes && !changes[c].Str? :: row[c] == changes[c])
  {
    var s := SanitizeChanges(changes);
    var row := f.vehicles[patente] + s;
    assert UpdateVehicle(f, patente, changes, currentYear, dateOk).1.vehicles[patente] == row;
    forall c | c in f.vehicles[patente] && c !in changes ensures row[c] == f.vehicles[patente][c] {
      assert c !in s;
    }
    forall c | c in changes && !changes[c].Str? ensures row[c] == changes[c] {
      assert c in s && s[c] == changes[c];
    }
  }

  // ---------------------------------------------------------------------
  // delete_vehicle

  /** The refusal of `delete_vehicle`: a heading naming the plate, one line
      per kind of related row that exists, and a closing instruction. */
  function RefusalMessage(patente: string, services: nat, incidents: nat, schedules: nat): string {
    RefusalHead(patente)
    + (CountLine(services, ServicesWord)
    + (CountLine(incidents, IncidentsWord)
    + (CountLine(schedules, SchedulesWord) + RefusalFoot)))
  }

  function RefusalHead(patente: string): string {
    "No se puede eliminar el vehículo " + patente + " porque tiene registros relacionados:\n"
  }

  const RefusalFoot: string := "\nDebe eliminar estos registros antes de eliminar el vehículo."
  const ServicesWord: string := " registros de servicio\n"
  const IncidentsWord: string := " incidentes\n"
  const SchedulesWord: string := " mantenimientos programados\n"

  /** The line listing `n` related rows of one kind; nothing when there are
      none. */
  function CountLine(n: nat, what: string): string {
    if n > 0 then "- " + NatToString(n) + what else ""
  }

  /** The refusal opens with the heading and closes with the instruction. */
  lemma RefusalFrame(patente: string, sc: nat, ic: nat, mc: nat)
    ensures var m := RefusalMessage(patente, sc, ic, mc);
            StartsWith(m, RefusalHead(patente)) && EndsWith(m, RefusalFoot)
  {
    var c := CountLine(mc, SchedulesWord) + RefusalFoot;
    var b := CountLine(ic, IncidentsWord) + c;
    var a := CountLine(sc, ServicesWord) + b;
    ContainsStart(RefusalHead(patente), a);
    assert EndsWith(RefusalFoot, RefusalFoot);
    EndsAfter(CountLine(mc, SchedulesWord), RefusalFoot, RefusalFoot);
    EndsAfter(CountLine(ic, IncidentsWord), c, RefusalFoot);
    EndsAfter(CountLine(sc, ServicesWord), b, RefusalFoot);
    EndsAfter(RefusalHead(patente), a, RefusalFoot);
  }

  /** The refusal names each kind of related row that exists, with its
      count. */
  lemma RefusalListsCounts(patente: string, sc: nat, ic: nat, mc: nat)
    ensures var m := RefusalMessage(patente, sc, ic, mc);
            && (sc > 0 ==> Contains(m, "- " + NatToString(sc) + ServicesWord))
            && (ic > 0 ==> Contains(m, "- " + NatToString(ic) + IncidentsWord))
            && (mc > 0 ==> Contains(m, "- " + NatToString(mc) + SchedulesWord))
  {
    var head := RefusalHead(patente);
    var lc := CountLine(mc, SchedulesWord);
    var lb := CountLine(ic, IncidentsWord);
    var la := CountLine(sc, ServicesWord);
    var c := lc + RefusalFoot;
    var b := lb + c;
    var a := la + b;
    ContainsStart(la, b);
    ContainsAfter(head, a, la);
    ContainsStart(lb, c);
    ContainsAfter(la, b, lb);
    ContainsAfter(head, a, lb);
    ContainsStart(lc, RefusalFoot);
    ContainsAfter(lb, c, lc);
    ContainsAfter(la, b, lc);
    ContainsAfter(head, a, lc);
  }

  datatype Deletion = Deletion(ok: bool, message: string, fleet: Fleet)

  /** `delete_vehicle`: an invalid plate is refused with the validator's
      message; a plate that any service, incident or schedule names is
      refused with the counts; otherwise the row is deleted, and the call
      succeeds even when no row had that plate. */
  function DeleteVehicle(f: Fleet, patente: string): (r: Deletion)
    ensures ValidatePlate(patente).PlateBad? ==> r == Deletion(false, ValidatePlate(patente).message, f)
    ensures r.ok <==> ValidatePlate(patente).PlateOk? && ServiceCount(f.services, patente) == 0
                      && IncidentCount(f.incidents, patente) == 0 && ScheduleCount(f.schedules, patente) == 0
    ensures !r.ok ==> r.fleet == f
    ensures r.ok ==> r.fleet == f.(vehicles := f.vehicles - {patente})
                     && r.message == "Vehículo " + patente + " eliminado correctamente."
  {
    match ValidatePlate(patente)
    case PlateBad(m) => Deletion(false, m, f)
    case PlateOk(_) =>
      var sc := ServiceCount(f.services, patente);
      var ic := IncidentCount(f.incidents, patente);
      var mc := ScheduleCount(f.schedules, patente);
      if sc > 0 || ic > 0 || mc > 0 then Deletion(false, RefusalMessage(patente, sc, ic, mc), f)
      else Deletion(true, "Vehículo " + patente + " eliminado correctamente.", f.(vehicles := f.vehicles - {patente}))
  }

  /** Because related rows block it, deleting never leaves a service,
      incident or schedule without its vehicle. */
  lemma DeleteKeepsConsistency(f: Fleet, patente: string)
    requires Consistent(f)
    ensures Consistent(DeleteVehicle(f, patente).fleet)
  {
    var r := DeleteVehicle(f, patente);
    if r.ok {
      assert forall k | 0 <= k < |f.services| :: f.services[k].patente != patente;
      assert forall k | 0 <= k < |f.incidents| :: f.incidents[k].patente != patente;
      assert forall id | id in f.schedules :: f.schedules[id].patente != patente;
    }
  }

  // ---------------------------------------------------------------------
  // get_vehicle_by_patente

  /** `get_vehicle_by_patente`: nothing for a plate the validator refuses;
      otherwise the row stored under exactly that text. */
  function GetVehicle(f: Fleet, patente: string): (r: Option<Row>)
    ensures ValidatePlate(patente).PlateBad? ==> r.None?
    ensures r.Some? <==> ValidatePlate(patente).PlateOk? && patente in f.vehicles
    ensures r.Some? ==> r.value == f.vehicles[patente]
  {
    if ValidatePlate(patente).PlateBad? || patente !in f.vehicles then None else Some(f.vehicles[patente])
  }

  /** A vehicle just added is found under the plate it was added with. */
  lemma AddThenGet(f: Fleet, patente: string, x: VehicleInput, currentYear: int, dateOk: string -> bool)
    requires AddVehicle(f, patente, x, currentYear, dateOk).0
    ensures GetVehicle(AddVehicle(f, patente, x, currentYear, dateOk).1, patente) == Some(NewRow(patente, x))
  {
  }

  // ---------------------------------------------------------------------
  // add_service_record

  /** `float(costo)`: numbers as they are, strings through the decimal
      reader; anything else raises. */
  function PyFloat(v: Value): Option<real> {
    match v
    case Null => None
    case Int(i) => Some(i as real)
    case Real(x) => Some(x)
    case Str(s) => CsvImport.ParseNumber(s)
  }

  /** The checks of `add_service_record`, in the order they run. */
  predicate ServiceChecks(f: Fleet, patente: string, fecha: Option<string>, km: Value, costo: Value,
                          dateOk: string -> bool) {
    && ValidatePlate(patente).PlateOk?
    && TruthyText(fecha) && dateOk(fecha.value)
    && ValidateInt(km, Some(0), None, true).Accept?
    && PyFloat(costo).Some? && PyFloat(costo).value >= 0.0
    && patente in f.vehicles
  }

  /** `add_service_record`: when every check passes, the record (text
      sanitised, cost as a float, the attachment list as given) is appended
      and the vehicle takes its km, date and sanitised workshop, no other
      vehicle changing; otherwise nothing changes. */
  function AddServiceRecord(f: Fleet, patente: string, fecha: Option<string>, km: Value, tipoService: Option<string>,
                            taller: Option<string>, costo: Value, descripcion: Option<string>,
                            pdfFiles: Option<string>, dateOk: string -> bool): (r: (bool, Fleet))
    ensures r.0 <==> ServiceChecks(f, patente, fecha, km, costo, dateOk)
    ensures !r.0 ==> r.1 == f
    ensures r.0 ==> && |r.1.services| == |f.services| + 1
                    && r.1.services[..|f.services|] == f.services
                    && r.1.services[|f.services|].patente == patente
                    && r.1.services[|f.services|].fecha == Str(fecha.value)
                    && r.1.services[|f.services|].km == km
                    && r.1.services[|f.services|].tipoService == OptText(Sanitize(tipoService))
                    && r.1.services[|f.services|].taller == OptText(Sanitize(taller))
                    && r.1.services[|f.services|].costo == Real(PyFloat(costo).value)
                    && r.1.services[|f.services|].descripcion == OptText(Sanitize(descripcion))
                    && r.1.services[|f.services|].pdfFiles == OptText(pdfFiles)
                    && r.1.incidents == f.incidents && r.1.schedules == f.schedules
                    && r.1.vehicles.Keys == f.vehicles.Keys
                    && r.1.vehicles[patente] == Serviced(f.vehicles[patente], Str(fecha.value), km, OptText(Sanitize(taller)))
                    && forall p | p in f.vehicles && p != patente :: r.1.vehicles[p] == f.vehicles[p]
  {
    if !ServiceChecks(f, patente, fecha, km, costo, dateOk) then (false, f)
    else
      var t := OptText(Sanitize(taller));
      var rec := ServiceRecord(patente, Str(fecha.value), km, OptText(Sanitize(tipoService)), t,
                               Real(PyFloat(costo).value), OptText(Sanitize(descripcion)), OptText(pdfFiles));
      var g := Store.AddServiceRecord(f, rec).1;
      assert g.services[..|f.services|] == f.services;
      (true, g)
  }

  /** An accepted service record keeps every reference valid, since its
      vehicle must exist. */
  lemma ServiceKeepsConsistency(f: Fleet, patente: string, fecha: Option<string>, km: Value, tipoService: Option<string>,
                                taller: Option<string>, costo: Value, descripcion: Option<string>,
                                pdfFiles: Option<string>, dateOk: string -> bool)
    requires Consistent(f)
    ensures Consistent(AddServiceRecord(f, patente, fecha, km, tipoService, taller, costo, descripcion, pdfFiles, dateOk).1)
  {
    var r := AddServiceRecord(f, patente, fecha, km, tipoService, taller, costo, descripcion, pdfFiles, dateOk);
    if r.0 {
      var g := r.1;
      forall k | 0 <= k < |g.services| ensures g.services[k].patente in g.vehicles {
        if k < |f.services| {
          assert g.services[k] == g.services[..|f.services|][k];
        }
      }
    }
  }
}

=== FILE: sorting.dfy ===
/** Stable sorting by a caller-supplied "goes no later than" relation. The
    analytics tables are ordered with pandas `sort_values`; the model sorts
    sequences with this insertion sort, which keeps equal rows in their
    original order. */
module Sorting {

  /** `le` is total and transitive: a sort key with ties. */
  ghost predicate IsTotalPreorder<T(!new)>(le: (T, T) -> bool) {
    && (forall a, b :: le(a, b) || le(b, a))
    && (forall a, b, c :: le(a, b) && le(b, c) ==> le(a, c))
  }

  predicate Sorted<T>(s: seq<T>, le: (T, T) -> bool) {
    forall i, j | 0 <= i < j < |s| :: le(s[i], s[j])
  }

  /** Puts `x` in front of the first element it may precede. */
  function Insert<T>(x: T, s: seq<T>, le: (T, T) -> bool): (r: seq<T>)
    ensures multiset(r) == multiset(s) + multiset{x}
    ensures |r| == |s| + 1
  {
    if |s| == 0 then [x]
    else if le(x, s[0]) then [x] + s
    else
      assert s == [s[0]] + s[1..];
      [s[0]] + Insert(x, s[1..], le)
  }

  /** Insertion sort; an element is placed before every later element it
      ties with, so the sort is stable. */
  function SortBy<T>(s: seq<T>, le: (T, T) -> bool): (r: seq<T>)
    ensures multiset(r) == multiset(s)
    ensures |r| == |s|
  {
    if |s| == 0 then []
    else
      assert s == [s[0]] + s[1..];
      Insert(s[0], SortBy(s[1..], le), le)
  }

  lemma {:induction false} InsertSorted<T(!new)>(x: T, s: seq<T>, le: (T, T) -> bool)
    requires IsTotalPreorder(le) && Sorted(s, le)
    ensures Sorted(Insert(x, s, le), le)
  {
    if |s| > 0 && !le(x, s[0]) {
      InsertSorted(x, s[1..], le);
      var r := Insert(x, s, le);
      var t := Insert(x, s[1..], le);
      assert r == [s[0]] + t;
      assert le(s[0], x);
      forall j | 0 < j < |r|
        ensures le(s[0], r[j])
      {
        assert r[j] in multiset(t);
        assert r[j] in multiset(s[1..]) + multiset{x};
        if r[j] != x {
          assert r[j] in multiset(s[1..]);
          var k :| 0 <= k < |s[1..]| && s[1..][k] == r[j];
          assert s[k + 1] == r[j];
        }
      }
    }
  }

  /** Sorting by a total preorder yields a sorted permutation. */
  lemma {:induction false} SortBySorted<T(!new)>(s: seq<T>, le: (T, T) -> bool)
    requires IsTotalPreorder(le)
    ensures Sorted(SortBy(s, le), le)
  {
    if |s| > 0 {
      SortBySorted(s[1..], le);
      InsertSorted(s[0], SortBy(s[1..], le), le);
    }
  }
}

=== FILE: standalone.dfy ===
/** The store operations of database_standalone.py: the import that
    updates plates already stored, and the delete that refuses vehicles
    with history. Database errors are not modelled. */
module Standalone {
  import opened Common
  import opened Store

  /** An imported row: column name to value; a NaN cell is `Null` and a
      column the frame lacks is an absent key. */
  type ImportRow = map<string, Value>

  /** The columns an import may overwrite, each with the value an insert
      uses when the row lacks the column. */
  const InsertDefaults: map<string, Value> := map[
    "area" := Str(""), "tipo" := Str(""), "marca" := Str(""), "modelo" := Str(""), "año" := Int(0),
    "estado" := Str("SERVICIO"), "km" := Int(0), "taller" := Str(""), "rori" := Str(""),
    "id_vehiculo" := Int(0), "vtv_vencimiento" := Str("")]

  /** The listed columns of the row that hold a value. */
  function Present(row: ImportRow): (r: map<string, Value>)
    ensures forall c :: c in r <==> c in InsertDefaults && c in row && row[c] != Null
    ensures forall c | c in r :: r[c] == row[c]
  {
    map c | c in InsertDefaults && c in row && row[c] != Null :: row[c]
  }

  /** The row inserted for a new plate: `row.get` with the defaults, so a
      NaN cell is stored as NULL; the unlisted columns are NULL. */
  function Inserted(row: ImportRow, p: string): (r: Row)
    ensures r.Keys == VehicleColumns && r["patente"] == Str(p)
    ensures forall c | c in InsertDefaults :: r[c] == (if c in row then row[c] else InsertDefaults[c])
  {
    map c | c in VehicleColumns ::
      if c == "patente" then Str(p)
      else if c in InsertDefaults then (if c in row then row[c] else InsertDefaults[c])
      else Null
  }

  /** A plate that is text or missing; other plate values are not modelled. */
  predicate TextPlate(row: ImportRow) {
    "patente" in row ==> row["patente"].Str?
  }

  datatype ImportResult = ImportResult(success: nat, errors: nat, errorPlates: seq<Value>, fleet: Fleet)

  /** One row of the upsert: a row without a plate fails (listed as
      "unknown"); a stored plate gets every listed column the row holds a
      value for, and fails when there is none; a new plate is inserted. */
  function UpsertOne(f: Fleet, row: ImportRow): (r: (bool, Value, Fleet))
    requires TextPlate(row)
    ensures "patente" !in row ==> r == (false, Str("unknown"), f)
    ensures "patente" in row && row["patente"].s in f.vehicles && |Present(row)| == 0 ==>
              r == (false, row["patente"], f)
    ensures "patente" in row && row["patente"].s in f.vehicles && |Present(row)| > 0 ==>
              r.0 && r.2 == f.(vehicles := f.vehicles[row["patente"].s := f.vehicles[row["patente"].s] + Present(row)])
    ensures "patente" in row && row["patente"].s !in f.vehicles ==>
              r.0 && r.2 == f.(vehicles := f.vehicles[row["patente"].s := Inserted(row, row["patente"].s)])
  {
    if "patente" !in row then (false, Str("unknown"), f)
    else
      var p := row["patente"].s;
      if p in f.vehicles then
        var fields := Present(row);
        if |fields| == 0 then (false, row["patente"], f)
        else (true, row["patente"], f.(vehicles := f.vehicles[p := f.vehicles[p] + fields]))
      else (true, row["patente"], f.(vehicles := f.vehicles[p := Inserted(row, p)]))
  }

  /** An update overwrites exactly the listed columns the row holds a value
      for and keeps every other column of the stored vehicle. */
  lemma UpsertOverwritesPresentColumns(f: Fleet, row: ImportRow)
    requires TextPlate(row) && "patente" in row && row["patente"].s in f.vehicles && |Present(row)| > 0
    ensures var v := f.vehicles[row["patente"].s];
            var w := UpsertOne(f, row).2.vehicles[row["patente"].s];
            && (forall c | c in InsertDefaults && c in row && row[c] != Null :: w[c] == row[c])
            && (forall c | c in v && (c !in InsertDefaults || c !in row || row[c] == Null) :: w[c] == v[c])
  {
  }

  /** `import_vehicles_from_df` of the standalone store, one row after the
      other: every row is a success or an error, every error lists a
      plate, and no vehicle is removed. */
  function ImportVehicles(f: Fleet, rows: seq<ImportRow>): (r: ImportResult)
    requires forall k | 0 <= k < |rows| :: TextPlate(rows[k])
    ensures r.success + r.errors == |rows|
    ensures |r.errorPlates| == r.errors
    ensures f.vehicles.Keys <= r.fleet.vehicles.Keys
    ensures r.fleet.services == f.services && r.fleet.incidents == f.incidents && r.fleet.schedules == f.schedules
    decreases |rows|
  {
    if |rows| == 0 then ImportResult(0, 0, [], f)
    else
      var one := UpsertOne(f, rows[0]);
      var rest := ImportVehicles(one.2, rows[1..]);
      if one.0 then ImportResult(rest.success + 1, rest.errors, rest.errorPlates, rest.fleet)
      else ImportResult(rest.success, rest.errors + 1, [one.1] + rest.errorPlates, rest.fleet)
  }

  /** After the import every row's plate is stored. */
  lemma {:induction false} ImportStoresEveryPlate(f: Fleet, rows: seq<ImportRow>)
    requires forall k | 0 <= k < |rows| :: TextPlate(rows[k])
    ensures forall k | 0 <= k < |rows| && "patente" in rows[k] && rows[k]["patente"].Str? ::
              rows[k]["patente"].s in ImportVehicles(f, rows).fleet.vehicles
    decreases |rows|
  {
    if |rows| > 0 {
      var one := UpsertOne(f, rows[0]);
      ImportStoresEveryPlate(one.2, rows[1..]);
      forall k | 1 <= k < |rows| ensures rows[k] == rows[1..][k - 1] { }
    }
  }

  /** The row names plate `p`. */
  predicate RowOf(row: ImportRow, p: string) {
    "patente" in row && row["patente"] == Str(p)
  }

  /** The plates the rows name. */
  function RowPlates(rows: seq<ImportRow>): set<string> {
    set k | 0 <= k < |rows| && "patente" in rows[k] && rows[k]["patente"].Str? :: rows[k]["patente"].s
  }

  /** Row `i` fails: it has no plate, or its plate is already stored (in
      `f` or by an earlier row) and it holds no value to update. */
  predicate Refused(f: Fleet, rows: seq<ImportRow>, i: nat)
    requires i < |rows| && forall k | 0 <= k < |rows| :: TextPlate(rows[k])
  {
    "patente" !in rows[i]
    || (rows[i]["patente"].Str? && rows[i]["patente"].s in f.vehicles.Keys + RowPlates(rows[..i]) && |Present(rows[i])| == 0)
  }

  /** What an error lists for a row: its plate, or "unknown". */
  function Listed(row: ImportRow): Value {
    if "patente" in row then row["patente"] else Str("unknown")
  }

  /** The listed plates of the failed rows from `i` on, in row order. */
  function RefusedFrom(f: Fleet, rows: seq<ImportRow>, i: nat): seq<Value>
    requires i <= |rows| && forall k | 0 <= k < |rows| :: TextPlate(rows[k])
    decreases |rows| - i
  {
    if i == |rows| then []
    else (if Refused(f, rows, i) then [Listed(rows[i])] else []) + RefusedFrom(f, rows, i + 1)
  }

  /** The last row before `n` of plate `p` that holds a value for column
      `c`. */
  function LastWrite(rows: seq<ImportRow>, p: string, c: string, n: nat): (r: Option<nat>)
    requires n <= |rows|
    ensures r.Some? ==> r.value < n && RowOf(rows[r.value], p) && c in Present(rows[r.value])
                        && forall j | r.value < j < n :: !(RowOf(rows[j], p) && c in Present(rows[j]))
    ensures r.None? ==> forall j | 0 <= j < n :: !(RowOf(rows[j], p) && c in Present(rows[j]))
  {
    if n == 0 then None
    else if RowOf(rows[n - 1], p) && c in Present(rows[n - 1]) then Some(n - 1)
    else LastWrite(rows, p, c, n - 1)
  }

  /** The first row before `n` of plate `p`. */
  function FirstRow(rows: seq<ImportRow>, p: string, n: nat): (r: Option<nat>)
    requires n <= |rows|
    ensures r.Some? ==> r.value < n && RowOf(rows[r.value], p) && forall j | 0 <= j < r.value :: !RowOf(rows[j], p)
    ensures r.None? ==> forall j | 0 <= j < n :: !RowOf(rows[j], p)
  {
    if n == 0 then None
    else match FirstRow(rows, p, n - 1)
      case Some(j) => Some(j)
      case None => if RowOf(rows[n - 1], p) then Some(n - 1) else None
  }

  /** Column `c` of the vehicle with plate `p` once the rows before `n` are
      imported into `f`: the value of the last row of the plate that holds
      one; failing that, the stored value, or for a new plate what its
      first row inserted. `None` when there is no such column or vehicle. */
  function ColumnAfter(f: Fleet, rows: seq<ImportRow>, n: nat, p: string, c: string): Option<Value>
    requires n <= |rows|
  {
    match LastWrite(rows, p, c, n)
    case Some(i) => Some(rows[i][c])
    case None =>
      if p in f.vehicles then (if c in f.vehicles[p] then Some(f.vehicles[p][c]) else None)
      else match FirstRow(rows, p, n)
        case None => None
        case Some(i) => if c in VehicleColumns then Some(Inserted(rows[i], p)[c]) else None
  }

  /** Column `c` of the vehicle with plate `p` in `g`. */
  function Lookup(g: Fleet, p: string, c: string): Option<Value> {
    if p in g.vehicles && c in g.vehicles[p] then Some(g.vehicles[p][c]) else None
  }

  /** `g` is `f` with the rows before `n` imported. */
  ghost predicate ImportedUpTo(f: Fleet, g: Fleet, rows: seq<ImportRow>, n: nat)
    requires n <= |rows| && forall k | 0 <= k < |rows| :: TextPlate(rows[k])
  {
    && g.vehicles.Keys == f.vehicles.Keys + RowPlates(rows[..n])
    && forall p, c :: Lookup(g, p, c) == ColumnAfter(f, rows, n, p, c)
  }

  /** The import reports exactly the failed rows, in row order; it stores
      every plate of `f` and of the rows, and each column of a vehicle
      holds the value the last row of its plate gave it, or else the
      stored or first inserted value. */
  lemma ImportVehiclesExactly(f: Fleet, rows: seq<ImportRow>)
    requires forall k | 0 <= k < |rows| :: TextPlate(rows[k])
    ensures ImportVehicles(f, rows).errorPlates == RefusedFrom(f, rows, 0)
    ensures ImportedUpTo(f, ImportVehicles(f, rows).fleet, rows, |rows|)
  {
    assert rows[..0] == [] && rows[0..] == rows;
    assert ImportedUpTo(f, f, rows, 0);
    ImportFrom(f, f, rows, 0);
    assert rows[..|rows|] == rows;
  }

  lemma {:induction false} ImportFrom(f: Fleet, g: Fleet, rows: seq<ImportRow>, i: nat)
    requires i <= |rows| && forall k | 0 <= k < |rows| :: TextPlate(rows[k])
    requires ImportedUpTo(f, g, rows, i)
    ensures ImportVehicles(g, rows[i..]).errorPlates == RefusedFrom(f, rows, i)
    ensures ImportedUpTo(f, ImportVehicles(g, rows[i..]).fleet, rows, |rows|)
    decreases |rows| - i
  {
    if i == |rows| {
      assert rows[i..] == [];
    } else {
      var one := UpsertOne(g, rows[i]);
      ImportUnfold(g, rows, i);
      StepRefused(f, g, rows, i);
      StepImported(f, g, rows, i);
      ImportFrom(f, one.2, rows, i + 1);
    }
  }

  /** Importing the rows from `i` is importing row `i`, then the rest. */
  lemma ImportUnfold(g: Fleet, rows: seq<ImportRow>, i: nat)
    requires i < |rows| && forall k | 0 <= k < |rows| :: TextPlate(rows[k])
    ensures var one := UpsertOne(g, rows[i]);
            && ImportVehicles(g, rows[i..]).errorPlates ==
                 (if one.0 then [] else [one.1]) + ImportVehicles(one.2, rows[i + 1..]).errorPlates
            && ImportVehicles(g, rows[i..]).fleet == ImportVehicles(one.2, rows[i + 1..]).fleet
  {
    assert rows[i..][0] == rows[i] && rows[i..][1..] == rows[i + 1..];
  }

  lemma RowPlatesExtend(rows: seq<ImportRow>, i: nat)
    requires i < |rows| && TextPlate(rows[i])
    ensures RowPlates(rows[..i + 1]) == RowPlates(rows[..i]) + (if "patente" in rows[i] then {rows[i]["patente"].s} else {})
  {
    var a := rows[..i];
    var b := rows[..i + 1];
    assert b[i] == rows[i];
    forall q | q in RowPlates(b) ensures q in RowPlates(a) + (if "patente" in rows[i] then {rows[i]["patente"].s} else {}) {
      var k :| 0 <= k < |b| && "patente" in b[k] && b[k]["patente"].Str? && b[k]["patente"].s == q;
      if k < i { assert b[k] == a[k]; }
    }
    forall q | q in RowPlates(a) ensures q in RowPlates(b) {
      var k :| 0 <= k < |a| && "patente" in a[k] && a[k]["patente"].Str? && a[k]["patente"].s == q;
      assert b[k] == a[k];
    }
  }

  /** A plate is among the rows before `n` exactly when it has a first row. */
  lemma FirstRowIffPlate(rows: seq<ImportRow>, p: string, n: nat)
    requires n <= |rows| && forall k | 0 <= k < |rows| :: TextPlate(rows[k])
    ensures FirstRow(rows, p, n).Some? <==> p in RowPlates(rows[..n])
  {
    var a := rows[..n];
    if p in RowPlates(a) {
      var k :| 0 <= k < |a| && "patente" in a[k] && a[k]["patente"].Str? && a[k]["patente"].s == p;
      assert a[k] == rows[k] && RowOf(rows[k], p);
    }
    if FirstRow(rows, p, n).Some? {
      var k := FirstRow(rows, p, n).value;
      assert a[k] == rows[k];
    }
  }

  /** One row fails exactly when `Refused` says so. */
  lemma StepRefused(f: Fleet, g: Fleet, rows: seq<ImportRow>, i: nat)
    requires i < |rows| && forall k | 0 <= k < |rows| :: TextPlate(rows[k])
    requires g.vehicles.Keys == f.vehicles.Keys + RowPlates(rows[..i])
    ensures var one := UpsertOne(g, rows[i]);
            (one.0 <==> !Refused(f, rows, i)) && one.1 == Listed(rows[i])
  {
  }

  /** Importing row `i` into a store holding the rows before it gives a
      store holding the rows up to it. */
  lemma StepImported(f: Fleet, g: Fleet, rows: seq<ImportRow>, i: nat)
    requires i < |rows| && forall k | 0 <= k < |rows| :: TextPlate(rows[k])
    requires ImportedUpTo(f, g, rows, i)
    ensures ImportedUpTo(f, UpsertOne(g, rows[i]).2, rows, i + 1)
  {
    var x := rows[i];
    var h := UpsertOne(g, x).2;
    RowPlatesExtend(rows, i);
    forall p, c ensures Lookup(h, p, c) == ColumnAfter(f, rows, i + 1, p, c) {
      StepColumn(f, g, rows, i, p, c);
    }
  }

  lemma StepColumn(f: Fleet, g: Fleet, rows: seq<ImportRow>, i: nat, p: string, c: string)
    requires i < |rows| && forall k | 0 <= k < |rows| :: TextPlate(rows[k])
    requires ImportedUpTo(f, g, rows, i)
    ensures Lookup(UpsertOne(g, rows[i]).2, p, c) == ColumnAfter(f, rows, i + 1, p, c)
  {
    assert Lookup(g, p, c) == ColumnAfter(f, rows, i, p, c);
    assert TextPlate(rows[i]);
    FirstRowIffPlate(rows, p, i);
    if !RowOf(rows[i], p) {
      OtherPlateColumn(f, g, rows, i, p, c);
    } else if c in Present(rows[i]) {
      WrittenColumn(g, rows, i, p, c);
    } else {
      KeptColumn(f, g, rows, i, p, c);
    }
  }

  /** A row of another plate leaves the column as it was. */
  lemma OtherPlateColumn(f: Fleet, g: Fleet, rows: seq<ImportRow>, i: nat, p: string, c: string)
    requires i < |rows| && TextPlate(rows[i]) && !RowOf(rows[i], p)
    requires Lookup(g, p, c) == ColumnAfter(f, rows, i, p, c)
    ensures Lookup(UpsertOne(g, rows[i]).2, p, c) == ColumnAfter(f, rows, i + 1, p, c)
  {
    assert LastWrite(rows, p, c, i + 1) == LastWrite(rows, p, c, i);
    assert FirstRow(rows, p, i + 1) == FirstRow(rows, p, i);
    assert "patente" in rows[i] ==> rows[i]["patente"].s != p;
  }

  /** A row of the plate holding a value for the column writes it. */
  lemma WrittenColumn(g: Fleet, rows: seq<ImportRow>, i: nat, p: string, c: string)
    requires i < |rows| && TextPlate(rows[i]) && RowOf(rows[i], p) && c in Present(rows[i])
    ensures Lookup(UpsertOne(g, rows[i]).2, p, c) == Some(rows[i][c])
    ensures LastWrite(rows, p, c, i + 1) == Some(i)
  {
    assert InsertDefaults.Keys <= VehicleColumns;
  }

  /** A row of the plate without a value for the column keeps the stored
      value, or inserts the default for a new plate. */
  lemma KeptColumn(f: Fleet, g: Fleet, rows: seq<ImportRow>, i: nat, p: string, c: string)
    requires i < |rows| && TextPlate(rows[i]) && RowOf(rows[i], p) && c !in Present(rows[i])
    requires g.vehicles.Keys == f.vehicles.Keys + RowPlates(rows[..i])
    requires FirstRow(rows, p, i).Some? <==> p in RowPlates(rows[..i])
    requires Lookup(g, p, c) == ColumnAfter(f, rows, i, p, c)
    ensures Lookup(UpsertOne(g, rows[i]).2, p, c) == ColumnAfter(f, rows, i + 1, p, c)
  {
    assert LastWrite(rows, p, c, i + 1) == LastWrite(rows, p, c, i);
    if p in g.vehicles {
      KeptStored(g, rows[i], p, c);
      SameColumnAfter(f, rows, i, p, c);
    } else {
      KeptNew(f, g, rows, i, p, c);
    }
  }

  /** A new plate's first row inserts the default for a column it has no
      value for. */
  lemma KeptNew(f: Fleet, g: Fleet, rows: seq<ImportRow>, i: nat, p: string, c: string)
    requires i < |rows| && TextPlate(rows[i]) && RowOf(rows[i], p) && c !in Present(rows[i])
    requires p !in g.vehicles && g.vehicles.Keys == f.vehicles.Keys + RowPlates(rows[..i])
    requires FirstRow(rows, p, i).Some? <==> p in RowPlates(rows[..i])
    requires LastWrite(rows, p, c, i + 1) == LastWrite(rows, p, c, i)
    ensures Lookup(UpsertOne(g, rows[i]).2, p, c) == ColumnAfter(f, rows, i + 1, p, c)
  {
    assert FirstRow(rows, p, i + 1) == Some(i);
  }

  /** A row that neither writes the column nor is the plate's first row
      leaves what the import makes of the column. */
  lemma SameColumnAfter(f: Fleet, rows: seq<ImportRow>, i: nat, p: string, c: string)
    requires i < |rows| && LastWrite(rows, p, c, i + 1) == LastWrite(rows, p, c, i)
    requires p in f.vehicles || FirstRow(rows, p, i).Some?
    ensures ColumnAfter(f, rows, i + 1, p, c) == ColumnAfter(f, rows, i, p, c)
  {
    assert p !in f.vehicles ==> FirstRow(rows, p, i + 1) == FirstRow(rows, p, i);
  }

  /** Updating a stored vehicle leaves a column the row has no value for. */
  lemma KeptStored(g: Fleet, row: ImportRow, p: string, c: string)
    requires TextPlate(row) && RowOf(row, p) && c !in Present(row) && p in g.vehicles
    ensures Lookup(UpsertOne(g, row).2, p, c) == Lookup(g, p, c)
  {
  }

  // ---------------------------------------------------------------------
  // Delete

  /** `delete_vehicle`: refused while a service or incident names the
      plate; otherwise the row goes and the result says whether there was
      one. Schedules are not checked. */
  function DeleteVehicle(f: Fleet, p: string): (r: (bool, Fleet))
    ensures ServiceCount(f.services, p) > 0 || IncidentCount(f.incidents, p) > 0 ==> r == (false, f)
    ensures ServiceCount(f.services, p) == 0 && IncidentCount(f.incidents, p) == 0 ==>
              r.0 == (p in f.vehicles) && r.1 == f.(vehicles := f.vehicles - {p})
  {
    if ServiceCount(f.services, p) > 0 || IncidentCount(f.incidents, p) > 0 then (false, f)
    else (p in f.vehicles, f.(vehicles := f.vehicles - {p}))
  }

  /** A vehicle with a recorded service cannot be deleted. */
  lemma ServicedVehicleIsKept(f: Fleet, rec: ServiceRecord)
    ensures var g := AddServiceRecord(f, rec).1;
            DeleteVehicle(g, rec.patente) == (false, g)
  {
    var g := AddServiceRecord(f, rec).1;
    assert g.services[|f.services|] == rec;
  }

  /** The delete keeps services and incidents pointing at stored vehicles,
      though a schedule may be left naming a deleted plate. */
  lemma DeleteKeepsServiceReferences(f: Fleet, p: string)
    requires forall k | 0 <= k < |f.services| :: f.services[k].patente in f.vehicles
    requires forall k | 0 <= k < |f.incidents| :: f.incidents[k].patente in f.vehicles
    ensures var g := DeleteVehicle(f, p).1;
            && (forall k | 0 <= k < |g.services| :: g.services[k].patente in g.vehicles)
            && (forall k | 0 <= k < |g.incidents| :: g.incidents[k].patente in g.vehicles)
  {
  }
}

=== FILE: store.dfy ===
/** The fleet database as the store operations see it: vehicle rows keyed
    by plate, and the service, incident and schedule tables that refer to
    plates. A vehicle row maps column names to values, so that updates
    naming arbitrary columns can be stated directly. */
module Store {
  import opened Common

  type Row = map<string, Value>

  /** The columns of the `vehiculos` table. */
  const VehicleColumns: set<string> := {
    "patente", "area", "tipo", "marca", "modelo", "año", "estado", "km", "fecha_service",
    "taller", "observaciones", "pdf_files", "rori", "id_vehiculo", "vtv_vencimiento"}

  /** A row of `historial_service`. */
  datatype ServiceRecord = ServiceRecord(
    patente: string, fecha: Value, km: Value, tipoService: Value, taller: Value,
    costo: Value, descripcion: Value, pdfFiles: Value)

  /** A row of `incidentes`; only the plate matters to the store rules. */
  datatype Incident = Incident(patente: string)

  /** A row of `programacion_mantenimiento`. */
  datatype Schedule = Schedule(
    patente: string, fechaProgramada: Option<string>, tipoService: Value, descripcion: Value, estado: string)

  datatype Fleet = Fleet(
    vehicles: map<string, Row>, services: seq<ServiceRecord>, incidents: seq<Incident>,
    schedules: map<int, Schedule>)

  /** Every service, incident and schedule names a stored vehicle. */
  predicate Consistent(f: Fleet) {
    && (forall k | 0 <= k < |f.services| :: f.services[k].patente in f.vehicles)
    && (forall k | 0 <= k < |f.incidents| :: f.incidents[k].patente in f.vehicles)
    && (forall id | id in f.schedules :: f.schedules[id].patente in f.vehicles)
  }

  /** `SELECT COUNT(*) FROM historial_service WHERE patente = p`. */
  function ServiceCount(services: seq<ServiceRecord>, p: string): (n: nat)
    ensures n > 0 <==> exists k | 0 <= k < |services| :: services[k].patente == p
  {
    var plates := seq(|services|, k requires 0 <= k < |services| => services[k].patente);
    assert forall k | 0 <= k < |services| :: plates[k] == services[k].patente;
    assert p in plates <==> exists k | 0 <= k < |services| :: plates[k] == p;
    Occurrences(plates, p)
  }

  /** `SELECT COUNT(*) FROM incidentes WHERE patente = p`. */
  function IncidentCount(incidents: seq<Incident>, p: string): (n: nat)
    ensures n > 0 <==> exists k | 0 <= k < |incidents| :: incidents[k].patente == p
  {
    var plates := seq(|incidents|, k requires 0 <= k < |incidents| => incidents[k].patente);
    assert forall k | 0 <= k < |incidents| :: plates[k] == incidents[k].patente;
    assert p in plates <==> exists k | 0 <= k < |incidents| :: plates[k] == p;
    Occurrences(plates, p)
  }

  function ScheduleCount(schedules: map<int, Schedule>, p: string): (n: nat)
    ensures n > 0 <==> exists id | id in schedules :: schedules[id].patente == p
  {
    ScheduleIdsCard(schedules, p);
    |set id | id in schedules && schedules[id].patente == p|
  }

  lemma ScheduleIdsCard(schedules: map<int, Schedule>, p: string)
    ensures |set id | id in schedules && schedules[id].patente == p| > 0
            <==> exists id | id in schedules :: schedules[id].patente == p
  {
    var ids := set id | id in schedules && schedules[id].patente == p;
    if exists id | id in schedules :: schedules[id].patente == p {
      var id :| id in schedules && schedules[id].patente == p;
      assert id in ids;
    } else {
      assert ids == {};
    }
  }

  /** The columns a service record writes back to its vehicle. */
  const ServiceColumns: set<string> := {"km", "fecha_service", "taller"}

  /** The vehicle row after a service: km, last service date and workshop
      take the record's values, every other column is kept. */
  function Serviced(v: Row, fecha: Value, km: Value, taller: Value): (r: Row)
    ensures r.Keys == v.Keys + ServiceColumns
    ensures r["km"] == km && r["fecha_service"] == fecha && r["taller"] == taller
    ensures forall c | c in v && c !in ServiceColumns :: r[c] == v[c]
  {
    v["km" := km]["fecha_service" := fecha]["taller" := taller]
  }

  /** `add_service_record` of database.py and database_standalone.py: the
      record is appended and the vehicle it names, when stored, takes its
      km, date and workshop; on SQLite, which leaves the foreign key
      unenforced, a record for an unknown plate is still appended, since
      the update then matches no row. */
  function AddServiceRecord(f: Fleet, rec: ServiceRecord): (r: (bool, Fleet))
    ensures r.0
    ensures r.1.services == f.services + [rec]
    ensures r.1.incidents == f.incidents && r.1.schedules == f.schedules
    ensures r.1.vehicles.Keys == f.vehicles.Keys
    ensures rec.patente in f.vehicles ==> r.1.vehicles[rec.patente] == Serviced(f.vehicles[rec.patente], rec.fecha, rec.km, rec.taller)
    ensures forall p | p in f.vehicles && p != rec.patente :: r.1.vehicles[p] == f.vehicles[p]
  {
    var vehicles :=
      if rec.patente in f.vehicles
      then f.vehicles[rec.patente := Serviced(f.vehicles[rec.patente], rec.fecha, rec.km, rec.taller)]
      else f.vehicles;
    (true, f.(vehicles := vehicles, services := f.services + [rec]))
  }

  /** A service for a stored vehicle keeps every reference valid. */
  lemma ServiceForStoredVehicleKeepsConsistency(f: Fleet, rec: ServiceRecord)
    requires Consistent(f) && rec.patente in f.vehicles
    ensures Consistent(AddServiceRecord(f, rec).1)
  {
    var g := AddServiceRecord(f, rec).1;
    forall k | 0 <= k < |g.services| ensures g.services[k].patente in g.vehicles {
      if k < |f.services| { assert g.services[k] == f.services[k]; }
    }
  }
}

=== FILE: text.dfy ===
/** String operations of Python's `str` that the fleet code relies on:
    character classes, `strip`, `upper`/`lower`, `replace`, `str(int)`,
    parsing of decimal digits, and code-point ordering of strings. */
module Text {

  predicate IsDigit(c: char) { '0' <= c <= '9' }
  predicate IsUpperAscii(c: char) { 'A' <= c <= 'Z' }
  predicate IsLowerAscii(c: char) { 'a' <= c <= 'z' }
  predicate IsAsciiLetter(c: char) { IsUpperAscii(c) || IsLowerAscii(c) }

  /** Python's `str.isspace()`; `str.strip()` and the regex class `\s`
      use the same set. */
  predicate IsSpace(c: char) {
    || ('\t' <= c <= '\r')
    || ('\U{1C}' <= c <= ' ')
    || c == '\U{85}' || c == '\U{A0}' || c == '\U{1680}'
    || ('\U{2000}' <= c <= '\U{200A}')
    || c == '\U{2028}' || c == '\U{2029}' || c == '\U{202F}' || c == '\U{205F}'
    || c == '\U{3000}'
  }

  predicate AllDigits(s: string) {
    forall i | 0 <= i < |s| :: IsDigit(s[i])
  }

  predicate AllUpper(s: string) {
    forall i | 0 <= i < |s| :: IsUpperAscii(s[i])
  }

  predicate NoSpace(s: string) {
    forall i | 0 <= i < |s| :: !IsSpace(s[i])
  }

  predicate StartsWith(s: string, p: string) {
    |p| <= |s| && s[..|p|] == p
  }

  predicate EndsWith(s: string, p: string) {
    |p| <= |s| && s[|s| - |p|..] == p
  }

  /** `p in s` for strings: `p` occurs in `s` as a contiguous piece. */
  predicate Contains(s: string, p: string)
    decreases |s|
  {
    StartsWith(s, p) || (|s| > 0 && Contains(s[1..], p))
  }

  /** A string contains its own prefixes. */
  lemma ContainsStart(p: string, y: string)
    ensures Contains(p + y, p)
  {
    assert (p + y)[..|p|] == p;
  }

  /** Whatever `y` contains, `x + y` contains too. */
  lemma {:induction false} ContainsAfter(x: string, y: string, p: string)
    requires Contains(y, p)
    ensures Contains(x + y, p)
    decreases |x|
  {
    if |x| > 0 {
      assert (x + y)[1..] == x[1..] + y;
      ContainsAfter(x[1..], y, p);
    } else {
      assert x + y == y;
    }
  }

  /** Whatever `y` ends with, `x + y` ends with too. */
  lemma EndsAfter(x: string, y: string, q: string)
    requires EndsWith(y, q)
    ensures EndsWith(x + y, q)
  {
    assert (x + y)[|x + y| - |q|..] == y[|y| - |q|..];
  }

  /** Number of occurrences of `c` in `s`. */
  function Count(s: string, c: char): nat {
    multiset(s)[c]
  }

  // ---------------------------------------------------------------------
  // strip()

  /** `lstrip()`. */
  function TrimLeft(s: string): (r: string)
    ensures |r| <= |s| && (|r| > 0 ==> !IsSpace(r[0]) && r[|r| - 1] == s[|s| - 1])
  {
    if |s| > 0 && IsSpace(s[0]) then TrimLeft(s[1..]) else s
  }

  /** `rstrip()`. */
  function TrimRight(s: string): (r: string)
    ensures |r| <= |s| && (|r| > 0 ==> !IsSpace(r[|r| - 1]) && r[0] == s[0])
  {
    if |s| > 0 && IsSpace(s[|s| - 1]) then TrimRight(s[..|s| - 1]) else s
  }

  /** `lstrip()` removes a prefix made of white space only. */
  lemma {:induction false} TrimLeftIsSuffix(s: string)
    ensures TrimLeft(s) == s[|s| - |TrimLeft(s)|..]
    ensures forall i | 0 <= i < |s| - |TrimLeft(s)| :: IsSpace(s[i])
  {
    if |s| > 0 && IsSpace(s[0]) {
      TrimLeftIsSuffix(s[1..]);
      assert s[1..][|s| - 1 - |TrimLeft(s)|..] == s[|s| - |TrimLeft(s)|..];
    }
  }

  /** `rstrip()` removes a suffix made of white space only. */
  lemma {:induction false} TrimRightIsPrefix(s: string)
    ensures TrimRight(s) == s[..|TrimRight(s)|]
    ensures forall i | |TrimRight(s)| <= i < |s| :: IsSpace(s[i])
  {
    if |s| > 0 && IsSpace(s[|s| - 1]) {
      TrimRightIsPrefix(s[..|s| - 1]);
    }
  }

  /** Python's `str.strip()`: a piece of `s` that neither starts nor ends
      with white space (`StripIsSlice` says which piece). */
  function Strip(s: string): (r: string)
    ensures |r| <= |s|
    ensures |r| > 0 ==> !IsSpace(r[0]) && !IsSpace(r[|r| - 1])
  {
    TrimRight(TrimLeft(s))
  }

  /** How many white-space characters `strip()` removes from the front. */
  function LeadingSpaces(s: string): nat {
    |s| - |TrimLeft(s)|
  }

  /** `strip()` keeps the piece of `s` between a white-space prefix and a
      white-space suffix. */
  lemma StripIsSlice(s: string)
    ensures LeadingSpaces(s) + |Strip(s)| <= |s|
    ensures Strip(s) == s[LeadingSpaces(s)..LeadingSpaces(s) + |Strip(s)|]
    ensures forall i | 0 <= i < LeadingSpaces(s) :: IsSpace(s[i])
    ensures forall i | LeadingSpaces(s) + |Strip(s)| <= i < |s| :: IsSpace(s[i])
  {
    var l := TrimLeft(s);
    var r := Strip(s);
    var a := LeadingSpaces(s);
    TrimLeftIsSuffix(s);
    TrimRightIsPrefix(l);
    assert l == s[a..];
    assert r == s[a..a + |r|] by { assert r == l[..|r|]; }
    forall i | a + |r| <= i < |s| ensures IsSpace(s[i]) {
      assert s[i] == l[i - a];
    }
  }

  /** Stripping is the identity on a string whose ends are not white space. */
  lemma StripKeeps(s: string)
    requires |s| > 0 ==> !IsSpace(s[0]) && !IsSpace(s[|s| - 1])
    ensures Strip(s) == s
  {
  }

  /** A string that is entirely white space strips to the empty string. */
  lemma {:induction false} StripAllSpace(s: string)
    requires forall i | 0 <= i < |s| :: IsSpace(s[i])
    ensures Strip(s) == ""
  {
    if |s| > 0 {
      assert TrimLeft(s) == TrimLeft(s[1..]);
      StripAllSpace(s[1..]);
    }
  }

  // ---------------------------------------------------------------------
  // upper() / lower(), on ASCII and the Latin-1 letters

  function UpperChar(c: char): char {
    if 'a' <= c <= 'z' || ('\U{E0}' <= c <= '\U{FE}' && c != '\U{F7}') then (c as int - 32) as char
    else if c == '\U{FF}' then '\U{178}'
    else if c == '\U{B5}' then '\U{39C}'
    else c
  }

  function LowerChar(c: char): char {
    if 'A' <= c <= 'Z' || ('\U{C0}' <= c <= '\U{DE}' && c != '\U{D7}') then (c as int + 32) as char
    else c
  }

  /** Python's `str.upper()` restricted to one-to-one case mappings. */
  function Upper(s: string): (r: string)
    ensures |r| == |s| && forall i | 0 <= i < |s| :: r[i] == UpperChar(s[i])
  {
    seq(|s|, i requires 0 <= i < |s| => UpperChar(s[i]))
  }

  /** Python's `str.lower()` restricted to one-to-one case mappings. */
  function Lower(s: string): (r: string)
    ensures |r| == |s| && forall i | 0 <= i < |s| :: r[i] == LowerChar(s[i])
  {
    seq(|s|, i requires 0 <= i < |s| => LowerChar(s[i]))
  }

  /** Upper-casing leaves upper-case letters, digits, white space and '-' alone. */
  lemma UpperKeeps(s: string)
    requires forall i | 0 <= i < |s| :: IsUpperAscii(s[i]) || IsDigit(s[i]) || IsSpace(s[i]) || s[i] == '-'
    ensures Upper(s) == s
  {
  }

  // ---------------------------------------------------------------------
  // replace()

  /** Python's `s.replace(pat, rep)`: every non-overlapping occurrence of
      `pat`, found scanning from the left, is replaced by `rep`. */
  function ReplaceAll(s: string, pat: string, rep: string): string
    requires |pat| > 0
    decreases |s|
  {
    if |s| < |pat| then s
    else if s[..|pat|] == pat then rep + ReplaceAll(s[|pat|..], pat, rep)
    else [s[0]] + ReplaceAll(s[1..], pat, rep)
  }

  /** Removing a pattern only ever deletes characters. */
  lemma {:induction false} RemovalOnlyDeletes(s: string, pat: string)
    requires |pat| > 0
    ensures multiset(ReplaceAll(s, pat, "")) <= multiset(s)
    decreases |s|
  {
    if |s| < |pat| {
    } else if s[..|pat|] == pat {
      RemovalOnlyDeletes(s[|pat|..], pat);
      assert s == s[..|pat|] + s[|pat|..];
      assert multiset(s) == multiset(s[..|pat|]) + multiset(s[|pat|..]);
    } else {
      RemovalOnlyDeletes(s[1..], pat);
      assert s == [s[0]] + s[1..];
    }
  }

  /** Removing a pattern that does not contain `c` keeps every `c`. */
  lemma {:induction false} RemovalKeepsCount(s: string, pat: string, c: char)
    requires |pat| > 0 && c !in pat
    ensures Count(ReplaceAll(s, pat, ""), c) == Count(s, c)
    decreases |s|
  {
    if |s| < |pat| {
    } else if s[..|pat|] == pat {
      RemovalKeepsCount(s[|pat|..], pat, c);
      assert s == s[..|pat|] + s[|pat|..];
      assert multiset(s) == multiset(s[..|pat|]) + multiset(s[|pat|..]);
      assert multiset(s[..|pat|])[c] == 0;
    } else {
      RemovalKeepsCount(s[1..], pat, c);
      assert s == [s[0]] + s[1..];
    }
  }

  /** Removing a one-character pattern leaves no occurrence of it. */
  lemma {:induction false} RemovalOfCharIsComplete(s: string, c: char)
    ensures c !in ReplaceAll(s, [c], "")
    decreases |s|
  {
    if |s| < 1 {
    } else if s[..1] == [c] {
      RemovalOfCharIsComplete(s[1..], c);
    } else {
      RemovalOfCharIsComplete(s[1..], c);
      assert s[0] != c;
    }
  }

  /** Doubling a one-character pattern doubles its count. */
  lemma {:induction false} DoublingDoublesCount(s: string, c: char)
    ensures Count(ReplaceAll(s, [c], [c, c]), c) == 2 * Count(s, c)
    decreases |s|
  {
    if |s| < 1 {
    } else {
      DoublingDoublesCount(s[1..], c);
      assert s == [s[0]] + s[1..];
      if s[..1] == [c] {
        assert s[0] == c;
      }
    }
  }

  // ---------------------------------------------------------------------
  // Digits and str(int)

  function DigitValue(c: char): nat
    requires IsDigit(c)
  {
    c as int - '0' as int
  }

  function DigitChar(d: nat): (c: char)
    requires d < 10
    ensures IsDigit(c) && DigitValue(c) == d
  {
    ('0' as int + d) as char
  }

  /** The number a string of decimal digits denotes. */
  function DigitsValue(s: string): nat
    requires AllDigits(s)
  {
    if |s| == 0 then 0 else 10 * DigitsValue(s[..|s| - 1]) + DigitValue(s[|s| - 1])
  }

  /** `str(n)` for a natural number. */
  function NatToString(n: nat): (s: string)
    ensures |s| > 0 && AllDigits(s)
  {
    if n < 10 then [DigitChar(n)] else NatToString(n / 10) + [DigitChar(n % 10)]
  }

  /** `str(i)` for an integer. */
  function IntToString(i: int): (s: string)
    ensures |s| > 0 && NoSpace(s)
  {
    if i < 0 then "-" + NatToString(-i) else NatToString(i)
  }

  /** Reading back the decimal text of a number gives the number. */
  lemma {:induction false} NatToStringRoundTrip(n: nat)
    ensures DigitsValue(NatToString(n)) == n
  {
    if n >= 10 {
      NatToStringRoundTrip(n / 10);
      var s := NatToString(n);
      assert s[..|s| - 1] == NatToString(n / 10);
    }
  }

  // ---------------------------------------------------------------------
  // Code-point ordering of strings (Python's `<` on str)

  predicate StrLess(a: string, b: string)
    decreases |a|
  {
    if |a| == 0 then |b| > 0
    else if |b| == 0 then false
    else if a[0] != b[0] then a[0] < b[0]
    else StrLess(a[1..], b[1..])
  }

  predicate StrLe(a: string, b: string) {
    a == b || StrLess(a, b)
  }

  /** Code-point order is a strict total order on strings. */
  lemma {:induction false} StrLessTrichotomy(a: string, b: string)
    ensures StrLess(a, b) || a == b || StrLess(b, a)
    ensures !(StrLess(a, b) && StrLess(b, a))
    ensures !StrLess(a, a)
    decreases |a|
  {
    if |a| > 0 && |b| > 0 && a[0] == b[0] {
      StrLessTrichotomy(a[1..], b[1..]);
      if a[1..] == b[1..] {
        assert a == [a[0]] + a[1..] && b == [b[0]] + b[1..];
      }
    } else if |a| > 0 {
      StrLessTrichotomy(a[1..], a[1..]);
    }
  }

  lemma {:induction false} StrLessTransitive(a: string, b: string, c: string)
    requires StrLess(a, b) && StrLess(b, c)
    ensures StrLess(a, c)
    decreases |a|
  {
    if |a| > 0 && |b| > 0 && |c| > 0 && a[0] == b[0] && b[0] == c[0] {
      StrLessTransitive(a[1..], b[1..], c[1..]);
    }
  }
}

=== FILE: usage.dfy ===
/** The usage-rate estimator `analizar_km_por_tiempo` (analytics.py): every
    plate's service odometer readings plus a "today" reading of the
    vehicle's current km, ordered by date; each consecutive pair with both
    km known and a positive day gap gives one km-per-day sample; samples are
    summarised per plate and the table is ordered by mean rate, highest
    first. Service dates are day numbers and stand for their midnight; the
    "today" reading is taken at `now`, an instant in nanoseconds (a
    parameter), so a run after midnight sits part-way into its day. */
module Usage {
  import opened Common
  import opened Text
  import opened Sorting

  /** A row of the vehicle table, as far as the estimator reads it. */
  datatype Vehicle = Vehicle(
    plate: string, marca: Option<string>, modelo: Option<string>,
    tipo: Option<string>, area: Option<string>, km: Option<int>)

  /** A row of the service table: plate, service date (a day number) and km. */
  datatype Service = Service(plate: string, date: Option<int>, km: Option<int>)

  /** One odometer observation of a plate, dated by an instant. */
  datatype Reading = Reading(date: Option<int>, km: Option<int>)

  /** One km-per-day sample, with the km and instant of the later reading. */
  datatype Sample = Sample(rate: real, km: int, date: int)

  /** The estimator's summary row for one plate. */
  datatype Stat = Stat(
    plate: string, marca: Option<string>, modelo: Option<string>,
    tipo: Option<string>, area: Option<string>,
    mean: real, min: real, max: real, count: nat,
    kmLast: int, dateLast: int, annual: real)

  /** No two summary rows share a plate. */
  predicate OnePerPlate(r: seq<Stat>) {
    forall i, j | 0 <= i < j < |r| :: r[i].plate != r[j].plate
  }

  /** Plates are the primary key of the vehicle table. */
  predicate DistinctPlates(vehicles: seq<Vehicle>) {
    forall i, j | 0 <= i < j < |vehicles| :: vehicles[i].plate != vehicles[j].plate
  }

  // ---------------------------------------------------------------------
  // Instants

  /** Nanoseconds in a day: pandas counts timestamps and spans in
      nanoseconds. */
  const DayNanos: int := 86_400_000_000_000

  /** A date without a time of day, as an instant: its midnight. */
  function Midnight(day: int): (t: int)
    ensures WholeDays(t) == day
  {
    day * DayNanos
  }

  /** `Timedelta.days`: the whole days in a span, rounded down, so minus one
      hour is day -1. */
  function WholeDays(span: int): (d: int)
    ensures d * DayNanos <= span < (d + 1) * DayNanos
  {
    span / DayNanos
  }

  // ---------------------------------------------------------------------
  // Readings

  /** Date order with missing dates last, as pandas sorts `NaT`. */
  predicate DateLe(a: Reading, b: Reading) {
    b.date.None? || (a.date.Some? && a.date.value <= b.date.value)
  }

  lemma DateLePreorder()
    ensures IsTotalPreorder(DateLe)
  {
  }

  /** The plate's service rows, in table order, as readings. */
  function ServiceReadings(p: string, services: seq<Service>): (r: seq<Reading>)
    ensures |r| <= |services|
  {
    if |services| == 0 then []
    else
      var s := services[|services| - 1];
      var date := if s.date.Some? then Some(Midnight(s.date.value)) else None;
      ServiceReadings(p, services[..|services| - 1]) + (if s.plate == p then [Reading(date, s.km)] else [])
  }

  /** The synthetic "today" reading `(now, current km)` of the plate's
      vehicle. */
  function TodayReadings(p: string, vehicles: seq<Vehicle>, now: int): (r: seq<Reading>)
    ensures forall i | 0 <= i < |r| :: r[i].date == Some(now)
  {
    if |vehicles| == 0 then []
    else
      var v := vehicles[|vehicles| - 1];
      TodayReadings(p, vehicles[..|vehicles| - 1], now) + (if v.plate == p then [Reading(Some(now), v.km)] else [])
  }

  /** With distinct plates a vehicle contributes at most one today reading. */
  lemma {:induction false} TodayReadingsAtMostOne(p: string, vehicles: seq<Vehicle>, now: int)
    requires DistinctPlates(vehicles)
    ensures |TodayReadings(p, vehicles, now)| <= 1
    ensures |TodayReadings(p, vehicles, now)| == 1 <==> exists i | 0 <= i < |vehicles| :: vehicles[i].plate == p
  {
    if |vehicles| > 0 {
      var init := vehicles[..|vehicles| - 1];
      assert DistinctPlates(init) by {
        forall i, j | 0 <= i < j < |init| ensures init[i].plate != init[j].plate {
          assert init[i] == vehicles[i] && init[j] == vehicles[j];
        }
      }
      TodayReadingsAtMostOne(p, init, now);
      if vehicles[|vehicles| - 1].plate == p {
        forall i | 0 <= i < |init|
          ensures init[i].plate != p
        {
          assert init[i] == vehicles[i];
        }
      } else {
        if exists i | 0 <= i < |vehicles| :: vehicles[i].plate == p {
          var i :| 0 <= i < |vehicles| && vehicles[i].plate == p;
          assert i < |init| && init[i].plate == p;
        }
      }
    }
  }

  /** The plate's observations ordered by date (missing dates last); rows
      with the same date keep table order, service rows before the today
      reading. */
  function Readings(p: string, vehicles: seq<Vehicle>, services: seq<Service>, now: int): (r: seq<Reading>)
    ensures multiset(r) == multiset(ServiceReadings(p, services) + TodayReadings(p, vehicles, now))
    ensures Sorted(r, DateLe)
  {
    DateLePreorder();
    SortBySorted(ServiceReadings(p, services) + TodayReadings(p, vehicles, now), DateLe);
    SortBy(ServiceReadings(p, services) + TodayReadings(p, vehicles, now), DateLe)
  }

  // ---------------------------------------------------------------------
  // Samples

  /** The whole days between two dated readings. */
  function Gap(a: Reading, b: Reading): int
    requires a.date.Some? && b.date.Some?
  {
    WholeDays(b.date.value - a.date.value)
  }

  /** A consecutive pair survives `dropna` and the `dias > 0` filter. */
  predicate ValidPair(a: Reading, b: Reading) {
    a.date.Some? && b.date.Some? && a.km.Some? && b.km.Some? && Gap(a, b) > 0
  }

  /** Δkm / Δdays of a valid pair; a falling odometer gives a negative rate. */
  function PairSample(a: Reading, b: Reading): (s: Sample)
    requires ValidPair(a, b)
    ensures s.rate * Gap(a, b) as real == (b.km.value - a.km.value) as real
    ensures s.km == b.km.value && s.date == b.date.value
  {
    Sample((b.km.value - a.km.value) as real / Gap(a, b) as real, b.km.value, b.date.value)
  }

  /** In a run after midnight the today reading is less than a whole day
      before the next midnight, so a service dated tomorrow gives no sample,
      and one dated `k` days ahead is `k - 1` days after it. */
  lemma LaterServiceGapAfterMidnight(now: int, day: int, vkm: Option<int>, skm: Option<int>)
    requires now % DayNanos != 0 && day > now / DayNanos
    ensures Gap(Reading(Some(now), vkm), Reading(Some(Midnight(day)), skm)) == day - now / DayNanos - 1
    ensures day == now / DayNanos + 1 ==> !ValidPair(Reading(Some(now), vkm), Reading(Some(Midnight(day)), skm))
  {
    var q := now / DayNanos;
    assert now == q * DayNanos + now % DayNanos;
    var span := day * DayNanos - now;
    assert (day - q - 1) * DayNanos < span < (day - q) * DayNanos;
  }

  /** The samples of consecutive pairs of `rs`, in order. */
  function Samples(rs: seq<Reading>): seq<Sample> {
    if |rs| < 2 then []
    else
      var a, b := rs[|rs| - 2], rs[|rs| - 1];
      Samples(rs[..|rs| - 1]) + (if ValidPair(a, b) then [PairSample(a, b)] else [])
  }

  /** Every valid consecutive pair contributes its sample. */
  lemma {:induction false} ValidPairsGiveSamples(rs: seq<Reading>)
    ensures forall k | 0 < k < |rs| && ValidPair(rs[k - 1], rs[k]) :: PairSample(rs[k - 1], rs[k]) in Samples(rs)
  {
    if |rs| >= 2 {
      var init := rs[..|rs| - 1];
      ValidPairsGiveSamples(init);
      forall k | 0 < k < |rs| && ValidPair(rs[k - 1], rs[k])
        ensures PairSample(rs[k - 1], rs[k]) in Samples(rs)
      {
        if k < |rs| - 1 {
          assert init[k - 1] == rs[k - 1] && init[k] == rs[k];
        }
      }
    }
  }

  /** Every sample comes from a valid consecutive pair. */
  lemma {:induction false} SamplesComeFromValidPairs(rs: seq<Reading>)
    ensures forall x | x in Samples(rs) :: exists k | 0 < k < |rs| :: ValidPair(rs[k - 1], rs[k]) && x == PairSample(rs[k - 1], rs[k])
  {
    if |rs| >= 2 {
      var init := rs[..|rs| - 1];
      SamplesComeFromValidPairs(init);
      forall x | x in Samples(rs)
        ensures exists k | 0 < k < |rs| :: ValidPair(rs[k - 1], rs[k]) && x == PairSample(rs[k - 1], rs[k])
      {
        if x in Samples(init) {
          var k :| 0 < k < |init| && ValidPair(init[k - 1], init[k]) && x == PairSample(init[k - 1], init[k]);
          assert init[k - 1] == rs[k - 1] && init[k] == rs[k];
        } else {
          var k := |rs| - 1;
          assert ValidPair(rs[k - 1], rs[k]) && x == PairSample(rs[k - 1], rs[k]);
        }
      }
    }
  }

  /** Readings with a non-decreasing odometer give only non-negative rates. */
  lemma {:induction false} MonotoneOdometerNonNegativeRates(rs: seq<Reading>)
    requires forall i, j | 0 <= i < j < |rs| && rs[i].km.Some? && rs[j].km.Some? :: rs[i].km.value <= rs[j].km.value
    ensures forall x | x in Samples(rs) :: x.rate >= 0.0
  {
    if |rs| >= 2 {
      var init := rs[..|rs| - 1];
      assert forall i | 0 <= i < |init| :: init[i] == rs[i];
      MonotoneOdometerNonNegativeRates(init);
      var a, b := rs[|rs| - 2], rs[|rs| - 1];
      if ValidPair(a, b) {
        RisingPairRate(a, b);
      }
    }
  }

  lemma RisingPairRate(a: Reading, b: Reading)
    requires ValidPair(a, b) && a.km.value <= b.km.value
    ensures PairSample(a, b).rate >= 0.0
  {
    var d := Gap(a, b) as real;
    var n := (b.km.value - a.km.value) as real;
    assert d > 0.0 && n >= 0.0;
    assert PairSample(a, b).rate == n / d;
  }

  /** A falling odometer is not filtered: every consecutive pair with both
      km known, a positive day gap and a smaller later km yields its sample,
      and that sample's rate is negative. */
  lemma FallingOdometerKept(rs: seq<Reading>, k: nat)
    requires 0 < k < |rs| && ValidPair(rs[k - 1], rs[k]) && rs[k].km.value < rs[k - 1].km.value
    ensures PairSample(rs[k - 1], rs[k]) in Samples(rs) && PairSample(rs[k - 1], rs[k]).rate < 0.0
  {
    ValidPairsGiveSamples(rs);
    FallingPairRate(rs[k - 1], rs[k]);
  }

  lemma FallingPairRate(a: Reading, b: Reading)
    requires ValidPair(a, b) && b.km.value < a.km.value
    ensures PairSample(a, b).rate < 0.0
  {
    var d := Gap(a, b) as real;
    var n := (b.km.value - a.km.value) as real;
    assert d > 0.0 && n < 0.0;
    assert PairSample(a, b).rate == n / d;
  }

  // ---------------------------------------------------------------------
  // Aggregates

  function Rates(xs: seq<Sample>): (r: seq<real>)
    ensures |r| == |xs| && forall i | 0 <= i < |xs| :: r[i] == xs[i].rate
  {
    seq(|xs|, i requires 0 <= i < |xs| => xs[i].rate)
  }

  function Sum(xs: seq<real>): real {
    if |xs| == 0 then 0.0 else Sum(xs[..|xs| - 1]) + xs[|xs| - 1]
  }

  function MinOf(xs: seq<real>): (m: real)
    requires |xs| > 0
    ensures m in xs && forall i | 0 <= i < |xs| :: m <= xs[i]
  {
    if |xs| == 1 then xs[0]
    else
      var m := MinOf(xs[..|xs| - 1]);
      if xs[|xs| - 1] < m then xs[|xs| - 1] else m
  }

  function MaxOf(xs: seq<real>): (m: real)
    requires |xs| > 0
    ensures m in xs && forall i | 0 <= i < |xs| :: xs[i] <= m
  {
    if |xs| == 1 then xs[0]
    else
      var m := MaxOf(xs[..|xs| - 1]);
      if xs[|xs| - 1] > m then xs[|xs| - 1] else m
  }

  lemma {:induction false} SumBounds(xs: seq<real>, lo: real, hi: real)
    requires forall i | 0 <= i < |xs| :: lo <= xs[i] <= hi
    ensures |xs| as real * lo <= Sum(xs) <= |xs| as real * hi
  {
    if |xs| > 0 {
      SumBounds(xs[..|xs| - 1], lo, hi);
    }
  }

  function Mean(xs: seq<real>): real
    requires |xs| > 0
  {
    Sum(xs) / |xs| as real
  }

  /** `m` added up `n` times. */
  function Times(m: real, n: nat): real {
    m * n as real
  }

  /** The mean rate of some samples: counted once per sample, it adds up
      to the sum of the rates. */
  function MeanRate(xs: seq<Sample>): (m: real)
    requires |xs| > 0
    ensures Times(m, |xs|) == Sum(Rates(xs))
  {
    var rates := Rates(xs);
    MeanTimesCount(rates, |xs|);
    Mean(rates)
  }

  lemma MeanRateBounds(xs: seq<Sample>)
    requires |xs| > 0
    ensures MinOf(Rates(xs)) <= MeanRate(xs) <= MaxOf(Rates(xs))
  {
    MeanBetweenMinAndMax(Rates(xs));
  }

  /** The mean, counted once per entry, adds up to the sum. */
  lemma MeanTimesCount(xs: seq<real>, n: nat)
    requires n == |xs| > 0
    ensures Mean(xs) * (n as real) == Sum(xs)
  {
    var q := Sum(xs) / n as real;
    assert q * n as real == Sum(xs);
  }

  lemma DivideBounds(a: real, n: real, lo: real, hi: real)
    requires n > 0.0 && n * lo <= a <= n * hi
    ensures lo <= a / n <= hi
  {
    var q := a / n;
    assert a == n * q;
  }

  /** The mean lies between the minimum and the maximum. */
  lemma MeanBetweenMinAndMax(xs: seq<real>)
    requires |xs| > 0
    ensures MinOf(xs) <= Mean(xs) <= MaxOf(xs)
  {
    var lo, hi := MinOf(xs), MaxOf(xs);
    SumBounds(xs, lo, hi);
    MeanWithin(xs, lo, hi);
  }

  lemma MeanWithin(xs: seq<real>, lo: real, hi: real)
    requires |xs| > 0
    requires |xs| as real * lo <= Sum(xs) <= |xs| as real * hi
    ensures lo <= Mean(xs) <= hi
  {
    DivideBounds(Sum(xs), |xs| as real, lo, hi);
  }

  /** The vehicle row of a plate (`first` over the left-joined columns). */
  function VehicleOf(p: string, vehicles: seq<Vehicle>): (r: Option<Vehicle>)
    ensures r.Some? ==> r.value in vehicles && r.value.plate == p
    ensures r.None? ==> forall i | 0 <= i < |vehicles| :: vehicles[i].plate != p
  {
    if |vehicles| == 0 then None
    else if vehicles[0].plate == p then Some(vehicles[0])
    else VehicleOf(p, vehicles[1..])
  }


  /** The summary of a plate with at least one sample. */
  function StatOf(p: string, vehicles: seq<Vehicle>, xs: seq<Sample>): (st: Stat)
    requires |xs| > 0
    ensures st.plate == p && st.count == |xs|
    ensures Times(st.mean, |xs|) == Sum(Rates(xs))
    ensures st.min <= st.mean <= st.max
    ensures st.min in Rates(xs) && st.max in Rates(xs)
    ensures forall i | 0 <= i < |xs| :: st.min <= xs[i].rate <= st.max
    ensures st.annual == st.mean * 365.0
    ensures st.kmLast == xs[|xs| - 1].km && st.dateLast == xs[|xs| - 1].date
  {
    var rates := Rates(xs);
    var v := VehicleOf(p, vehicles);
    var mean := MeanRate(xs);
    MeanRateBounds(xs);
    var info := if v.Some? then v.value else Vehicle(p, None, None, None, None, None);
    Stat(p, info.marca, info.modelo, info.tipo, info.area,
         mean, MinOf(rates), MaxOf(rates), |xs|, xs[|xs| - 1].km, xs[|xs| - 1].date, mean * 365.0)
  }

  // ---------------------------------------------------------------------
  // The table

  /** Distinct values, first occurrences, in order. */
  function Distinct(s: seq<string>): (r: seq<string>)
    ensures forall x :: x in r <==> x in s
    ensures forall i, j | 0 <= i < j < |r| :: r[i] != r[j]
  {
    if |s| == 0 then []
    else
      var d := Distinct(s[..|s| - 1]);
      if s[|s| - 1] in d then d else d + [s[|s| - 1]]
  }

  function ServicePlates(services: seq<Service>): (r: seq<string>)
    ensures |r| == |services| && forall i | 0 <= i < |r| :: r[i] == services[i].plate
  {
    seq(|services|, i requires 0 <= i < |services| => services[i].plate)
  }

  function PlateLe(a: string, b: string): bool { StrLe(a, b) }

  function MeanDesc(a: Stat, b: Stat): bool { a.mean >= b.mean }

  lemma MeanDescPreorder()
    ensures IsTotalPreorder(MeanDesc)
  {
  }

  /** The samples of plate `p`. */
  function PlateSamples(p: string, vehicles: seq<Vehicle>, services: seq<Service>, now: int): seq<Sample> {
    Samples(Readings(p, vehicles, services, now))
  }

  /** The summaries of the listed plates that have at least one sample, in
      the order of `ps`; `samplesOf` gives each plate's samples. */
  function StatsFor(ps: seq<string>, vehicles: seq<Vehicle>, samplesOf: string -> seq<Sample>): (r: seq<Stat>)
    ensures |r| <= |ps|
  {
    if |ps| == 0 then []
    else
      var p := ps[|ps| - 1];
      StatsFor(ps[..|ps| - 1], vehicles, samplesOf) + (if |samplesOf(p)| > 0 then [StatOf(p, vehicles, samplesOf(p))] else [])
  }

  /** Each summary is the summary of a listed plate's samples, and every
      listed plate with a sample has a summary. */
  lemma {:induction false} StatsForContents(ps: seq<string>, vehicles: seq<Vehicle>, samplesOf: string -> seq<Sample>)
    ensures forall st | st in StatsFor(ps, vehicles, samplesOf) ::
              st.plate in ps && |samplesOf(st.plate)| > 0 && st == StatOf(st.plate, vehicles, samplesOf(st.plate))
    ensures forall p | p in ps && |samplesOf(p)| > 0 :: exists st | st in StatsFor(ps, vehicles, samplesOf) :: st.plate == p
  {
    if |ps| > 0 {
      var init, p := ps[..|ps| - 1], ps[|ps| - 1];
      StatsForContents(init, vehicles, samplesOf);
      var a, r := StatsFor(init, vehicles, samplesOf), StatsFor(ps, vehicles, samplesOf);
      assert r == a + (if |samplesOf(p)| > 0 then [StatOf(p, vehicles, samplesOf(p))] else []);
      forall st | st in r
        ensures st.plate in ps && |samplesOf(st.plate)| > 0 && st == StatOf(st.plate, vehicles, samplesOf(st.plate))
      {
        if st in a {
          assert st.plate in init;
        }
      }
      forall q | q in ps && |samplesOf(q)| > 0
        ensures exists st | st in r :: st.plate == q
      {
        if q in init {
          var st :| st in a && st.plate == q;
          assert st in r;
        } else {
          assert q == p;
          assert StatOf(p, vehicles, samplesOf(p)) in r;
        }
      }
    }
  }

  /** Every summary belongs to a listed plate. */
  lemma {:induction false} StatsForPlates(ps: seq<string>, vehicles: seq<Vehicle>, samplesOf: string -> seq<Sample>)
    ensures forall st | st in StatsFor(ps, vehicles, samplesOf) :: st.plate in ps
  {
    if |ps| > 0 {
      var init, p := ps[..|ps| - 1], ps[|ps| - 1];
      StatsForPlates(init, vehicles, samplesOf);
      var a, r := StatsFor(init, vehicles, samplesOf), StatsFor(ps, vehicles, samplesOf);
      assert r == a + (if |samplesOf(p)| > 0 then [StatOf(p, vehicles, samplesOf(p))] else []);
      forall st | st in r
        ensures st.plate in ps
      {
        if st in a {
          assert st.plate in init;
        }
      }
    }
  }

  /** Listed plates without repetition give summaries without repetition. */
  lemma {:induction false} StatsForDistinct(ps: seq<string>, vehicles: seq<Vehicle>, samplesOf: string -> seq<Sample>)
    requires forall i, j | 0 <= i < j < |ps| :: ps[i] != ps[j]
    ensures OnePerPlate(StatsFor(ps, vehicles, samplesOf))
  {
    if |ps| > 0 {
      var init := ps[..|ps| - 1];
      StatsForDistinct(init, vehicles, samplesOf);
      StatsForPlates(init, vehicles, samplesOf);
      var p := ps[|ps| - 1];
      assert p !in init by {
        forall k | 0 <= k < |init| ensures init[k] != p {
          assert init[k] == ps[k];
        }
      }
      var a := StatsFor(init, vehicles, samplesOf);
      forall i | 0 <= i < |a|
        ensures a[i].plate != p
      {
        assert a[i] in a;
      }
      var r := StatsFor(ps, vehicles, samplesOf);
      if |samplesOf(p)| > 0 {
        var last := StatOf(p, vehicles, samplesOf(p));
        assert r == a + [last];
        assert last.plate == p;
        AppendDistinctPlates(a, last);
      } else {
        assert r == a;
      }
    }
  }

  lemma AppendDistinctPlates(a: seq<Stat>, x: Stat)
    requires OnePerPlate(a)
    requires forall i | 0 <= i < |a| :: a[i].plate != x.plate
    ensures OnePerPlate(a + [x])
  {
  }

  /** `analizar_km_por_tiempo`: one summary per plate that has a sample,
      grouped in plate order and then ordered by mean rate, highest first. */
  function Analyze(vehicles: seq<Vehicle>, services: seq<Service>, now: int): (r: seq<Stat>)
    ensures |vehicles| == 0 || |services| == 0 ==> r == []
    ensures Sorted(r, MeanDesc)
    ensures OnePerPlate(r)
    ensures forall st | st in r :: |PlateSamples(st.plate, vehicles, services, now)| > 0
    ensures forall st | st in r :: st == StatOf(st.plate, vehicles, PlateSamples(st.plate, vehicles, services, now))
    ensures |vehicles| > 0 ==> forall s | s in services && |PlateSamples(s.plate, vehicles, services, now)| > 0 ::
              exists st | st in r :: st.plate == s.plate
  {
    if |vehicles| == 0 || |services| == 0 then []
    else
      var plates := SortBy(Distinct(ServicePlates(services)), PlateLe);
      var stats := StatsFor(plates, vehicles, p => PlateSamples(p, vehicles, services, now));
      var r := SortBy(stats, MeanDesc);
      AnalyzeFacts(vehicles, services, now, plates, stats, r);
      r
  }

  lemma AnalyzeFacts(vehicles: seq<Vehicle>, services: seq<Service>, now: int,
                     plates: seq<string>, stats: seq<Stat>, r: seq<Stat>)
    requires plates == SortBy(Distinct(ServicePlates(services)), PlateLe)
    requires stats == StatsFor(plates, vehicles, p => PlateSamples(p, vehicles, services, now))
    requires r == SortBy(stats, MeanDesc)
    ensures Sorted(r, MeanDesc)
    ensures OnePerPlate(r)
    ensures forall st | st in r :: |PlateSamples(st.plate, vehicles, services, now)| > 0
    ensures forall st | st in r :: st == StatOf(st.plate, vehicles, PlateSamples(st.plate, vehicles, services, now))
    ensures forall s | s in services && |PlateSamples(s.plate, vehicles, services, now)| > 0 ::
              exists st | st in r :: st.plate == s.plate
  {
    MeanDescPreorder();
    SortBySorted(stats, MeanDesc);
    AnalyzeOnePerPlate(vehicles, services, now, plates, stats, r);
    AnalyzeContents(vehicles, services, now, plates, stats, r);
    AnalyzeCovers(vehicles, services, now, plates, stats, r);
  }

  lemma AnalyzeOnePerPlate(vehicles: seq<Vehicle>, services: seq<Service>, now: int,
                           plates: seq<string>, stats: seq<Stat>, r: seq<Stat>)
    requires plates == SortBy(Distinct(ServicePlates(services)), PlateLe)
    requires stats == StatsFor(plates, vehicles, p => PlateSamples(p, vehicles, services, now))
    requires r == SortBy(stats, MeanDesc)
    ensures OnePerPlate(r)
  {
    var d := Distinct(ServicePlates(services));
    DistinctSeqPermutation(d, plates);
    StatsForDistinct(plates, vehicles, p => PlateSamples(p, vehicles, services, now));
    PermutationKeepsDistinctPlates(stats, r);
  }

  lemma AnalyzeContents(vehicles: seq<Vehicle>, services: seq<Service>, now: int,
                        plates: seq<string>, stats: seq<Stat>, r: seq<Stat>)
    requires stats == StatsFor(plates, vehicles, p => PlateSamples(p, vehicles, services, now))
    requires r == SortBy(stats, MeanDesc)
    ensures forall st | st in r :: |PlateSamples(st.plate, vehicles, services, now)| > 0
    ensures forall st | st in r :: st == StatOf(st.plate, vehicles, PlateSamples(st.plate, vehicles, services, now))
  {
    StatsForContents(plates, vehicles, p => PlateSamples(p, vehicles, services, now));
    SameElements(stats, r);
  }

  lemma AnalyzeCovers(vehicles: seq<Vehicle>, services: seq<Service>, now: int,
                      plates: seq<string>, stats: seq<Stat>, r: seq<Stat>)
    requires plates == SortBy(Distinct(ServicePlates(services)), PlateLe)
    requires stats == StatsFor(plates, vehicles, p => PlateSamples(p, vehicles, services, now))
    requires r == SortBy(stats, MeanDesc)
    ensures forall s | s in services && |PlateSamples(s.plate, vehicles, services, now)| > 0 ::
              exists st | st in r :: st.plate == s.plate
  {
    var samplesOf := p => PlateSamples(p, vehicles, services, now);
    PlatesCovered(plates, vehicles, samplesOf, r);
    forall s | s in services && |PlateSamples(s.plate, vehicles, services, now)| > 0
      ensures exists st | st in r :: st.plate == s.plate
    {
      ServicePlateListed(s, services, plates);
      assert |samplesOf(s.plate)| > 0;
    }
  }

  /** Any reordering of the summaries still has one for every plate with a
      sample. */
  lemma PlatesCovered(ps: seq<string>, vehicles: seq<Vehicle>, samplesOf: string -> seq<Sample>, r: seq<Stat>)
    requires multiset(r) == multiset(StatsFor(ps, vehicles, samplesOf))
    ensures forall p | p in ps && |samplesOf(p)| > 0 :: exists st | st in r :: st.plate == p
  {
    var stats := StatsFor(ps, vehicles, samplesOf);
    StatsForContents(ps, vehicles, samplesOf);
    SameElements(stats, r);
  }

  lemma SameElements<T>(a: seq<T>, b: seq<T>)
    requires multiset(a) == multiset(b)
    ensures forall x :: x in a <==> x in b
  {
    forall x
      ensures x in a <==> x in b
    {
      assert x in a <==> x in multiset(a);
      assert x in b <==> x in multiset(b);
    }
  }

  lemma ServicePlateListed(s: Service, services: seq<Service>, plates: seq<string>)
    requires s in services
    requires plates == SortBy(Distinct(ServicePlates(services)), PlateLe)
    ensures s.plate in plates
  {
    var k :| 0 <= k < |services| && services[k] == s;
    assert ServicePlates(services)[k] == s.plate;
    SameElements(Distinct(ServicePlates(services)), plates);
  }

  /** A permutation of a sequence without repetitions has none either. */
  lemma DistinctSeqPermutation(a: seq<string>, b: seq<string>)
    requires multiset(a) == multiset(b)
    requires forall i, j | 0 <= i < j < |a| :: a[i] != a[j]
    ensures forall i, j | 0 <= i < j < |b| :: b[i] != b[j]
  {
    forall i, j | 0 <= i < j < |b|
      ensures b[i] != b[j]
    {
      if b[i] == b[j] {
        MultisetCountTwo(b, i, j);
        NoRepeatCountOne(a, b[i]);
      }
    }
  }

  lemma MultisetCountTwo<T>(b: seq<T>, i: int, j: int)
    requires 0 <= i < j < |b| && b[i] == b[j]
    ensures multiset(b)[b[i]] >= 2
  {
    assert b == b[..i] + [b[i]] + b[i + 1..j] + [b[j]] + b[j + 1..];
  }

  lemma {:induction false} NoRepeatCountOne<T>(a: seq<T>, x: T)
    requires forall i, j | 0 <= i < j < |a| :: a[i] != a[j]
    ensures multiset(a)[x] <= 1
  {
    if |a| > 0 {
      var init := a[..|a| - 1];
      NoRepeatCountOne(init, x);
      assert a == init + [a[|a| - 1]];
      if a[|a| - 1] == x {
        assert x !in init;
      }
    }
  }

  lemma PermutationKeepsDistinctPlates(a: seq<Stat>, b: seq<Stat>)
    requires multiset(a) == multiset(b)
    requires OnePerPlate(a)
    ensures OnePerPlate(b)
  {
    forall i, j | 0 <= i < j < |b|
      ensures b[i].plate != b[j].plate
    {
      if b[i].plate == b[j].plate {
        assert b[i] in multiset(a) && b[j] in multiset(a);
        var k :| 0 <= k < |a| && a[k] == b[i];
        var l :| 0 <= l < |a| && a[l] == b[j];
        if k == l {
          MultisetCountTwo(b, i, j);
          NoRepeatCountOne(a, b[i]);
        }
      }
    }
  }
}

=== FILE: validators.dfy ===
/** Input validators and the SQL-ish sanitiser used by the secure data layer:
    plate format, bounded integers, text length, `sanitizar_input` and the
    e-mail shape. Regular expressions are stated as explicit shapes. */
module Validators {
  import opened Common
  import opened Text

  /** A validator's answer; the source returns the pair `(ok, message)`. */
  datatype Verdict = Accept | Reject(message: string)

  /** `validar_patente` returns `(True, cleaned plate)` or `(False, message)`. */
  datatype PlateVerdict = PlateOk(plate: string) | PlateBad(message: string)

  const EmptyPlateMessage := "La patente no puede estar vacía"
  const PlateFormatMessage := "Formato de patente inválido. Use formato argentino (ABC123) o Mercosur (AB123CD)"

  // ---------------------------------------------------------------------
  // Plates

  /** The regex class `[\s-]`. */
  predicate IsSep(c: char) { IsSpace(c) || c == '-' }

  /** What may stand at a letter/digit boundary: nothing or one separator. */
  predicate SepOk(s: string) {
    |s| <= 1 && (|s| == 1 ==> IsSep(s[0]))
  }

  /** The pieces of an old Argentine plate: three letters, an optional
      separator, three digits. */
  predicate OldParts(a: string, s1: string, b: string) {
    |a| == 3 && AllUpper(a) && SepOk(s1) && |b| == 3 && AllDigits(b)
  }

  /** The pieces of a Mercosur plate: two letters, an optional separator,
      three digits, an optional separator, two letters. */
  predicate MercosurParts(a: string, s1: string, b: string, s2: string, c: string) {
    && |a| == 2 && AllUpper(a) && SepOk(s1) && |b| == 3 && AllDigits(b)
    && SepOk(s2) && |c| == 2 && AllUpper(c)
  }

  /** `^[A-Z]{3}[\s-]?[0-9]{3}$` matches `t`, the separator having width `w`. */
  predicate OldShape(t: string, w: nat) {
    w <= 1 && |t| == 6 + w && OldParts(t[..3], t[3..3 + w], t[3 + w..])
  }

  /** `^[A-Z]{2}[\s-]?[0-9]{3}[\s-]?[A-Z]{2}$` matches `t`, the separators
      having widths `w1` and `w2`. */
  predicate MercosurShape(t: string, w1: nat, w2: nat) {
    && w1 <= 1 && w2 <= 1 && |t| == 7 + w1 + w2
    && MercosurParts(t[..2], t[2..2 + w1], t[2 + w1..5 + w1], t[5 + w1..5 + w1 + w2], t[5 + w1 + w2..])
  }

  /** One of the two plate patterns matches the whole (stripped) text. */
  predicate MatchesPlatePattern(t: string) {
    || OldShape(t, 0) || OldShape(t, 1)
    || MercosurShape(t, 0, 0) || MercosurShape(t, 0, 1)
    || MercosurShape(t, 1, 0) || MercosurShape(t, 1, 1)
  }

  /** A stored plate: LLLDDD (old Argentine) or LLDDDLL (Mercosur). */
  predicate Canonical(c: string) {
    || (|c| == 6 && AllUpper(c[..3]) && AllDigits(c[3..]))
    || (|c| == 7 && AllUpper(c[..2]) && AllDigits(c[2..5]) && AllUpper(c[5..]))
  }

  /** `re.sub(r'[\s-]', '', t)`. */
  function RemoveSeps(t: string): string {
    if |t| == 0 then "" else (if IsSep(t[0]) then "" else [t[0]]) + RemoveSeps(t[1..])
  }

  lemma {:induction false} RemoveSepsAppend(a: string, b: string)
    ensures RemoveSeps(a + b) == RemoveSeps(a) + RemoveSeps(b)
  {
    if |a| > 0 {
      RemoveSepsAppend(a[1..], b);
      assert (a + b)[1..] == a[1..] + b;
    } else {
      assert a + b == b;
    }
  }

  lemma {:induction false} RemoveSepsKeeps(a: string)
    requires AllUpper(a) || AllDigits(a)
    ensures RemoveSeps(a) == a
  {
    if |a| > 0 {
      assert !IsSep(a[0]);
      assert forall i | 0 <= i < |a[1..]| :: a[1..][i] == a[i + 1];
      RemoveSepsKeeps(a[1..]);
      assert a == [a[0]] + a[1..];
    }
  }

  lemma RemoveSepsOfSep(s: string)
    requires SepOk(s)
    ensures RemoveSeps(s) == ""
  {
    if |s| == 1 {
      assert RemoveSeps(s) == RemoveSeps(s[1..]);
    }
  }

  lemma OldPartsRemoveSeps(a: string, s1: string, b: string)
    requires OldParts(a, s1, b)
    ensures RemoveSeps(a + s1 + b) == a + b
  {
    RemoveSepsAppend(a + s1, b);
    RemoveSepsAppend(a, s1);
    RemoveSepsKeeps(a);
    RemoveSepsKeeps(b);
    RemoveSepsOfSep(s1);
  }

  lemma MercosurPartsRemoveSeps(a: string, s1: string, b: string, s2: string, c: string)
    requires MercosurParts(a, s1, b, s2, c)
    ensures RemoveSeps(a + s1 + b + s2 + c) == a + b + c
  {
    RemoveSepsAppend(a + s1 + b + s2, c);
    RemoveSepsAppend(a + s1 + b, s2);
    RemoveSepsAppend(a + s1, b);
    RemoveSepsAppend(a, s1);
    RemoveSepsKeeps(a);
    RemoveSepsKeeps(b);
    RemoveSepsKeeps(c);
    RemoveSepsOfSep(s1);
    RemoveSepsOfSep(s2);
  }

  lemma OldPatternGivesCanonical(t: string, w: nat)
    requires OldShape(t, w)
    ensures Canonical(RemoveSeps(t))
  {
    var a, s1, b := t[..3], t[3..3 + w], t[3 + w..];
    assert t == a + s1 + b;
    OldPartsRemoveSeps(a, s1, b);
    assert (a + b)[..3] == a && (a + b)[3..] == b;
  }

  lemma MercosurPatternGivesCanonical(t: string, w1: nat, w2: nat)
    requires MercosurShape(t, w1, w2)
    ensures Canonical(RemoveSeps(t))
  {
    var a, s1, b, s2, c := t[..2], t[2..2 + w1], t[2 + w1..5 + w1], t[5 + w1..5 + w1 + w2], t[5 + w1 + w2..];
    assert t == a + s1 + b + s2 + c;
    MercosurPartsRemoveSeps(a, s1, b, s2, c);
    assert (a + b + c)[..2] == a && (a + b + c)[2..5] == b && (a + b + c)[5..] == c;
  }

  /** Removing the separators of a matching text leaves a canonical plate. */
  lemma PatternGivesCanonical(t: string)
    requires MatchesPlatePattern(t)
    ensures Canonical(RemoveSeps(t))
  {
    if OldShape(t, 0) {
      OldPatternGivesCanonical(t, 0);
    } else if OldShape(t, 1) {
      OldPatternGivesCanonical(t, 1);
    } else if MercosurShape(t, 0, 0) {
      MercosurPatternGivesCanonical(t, 0, 0);
    } else if MercosurShape(t, 0, 1) {
      MercosurPatternGivesCanonical(t, 0, 1);
    } else if MercosurShape(t, 1, 0) {
      MercosurPatternGivesCanonical(t, 1, 0);
    } else {
      MercosurPatternGivesCanonical(t, 1, 1);
    }
  }

  /** `validar_patente`: empty input is refused; otherwise the upper-cased,
      stripped text must be LLLDDD or LLDDDLL with at most one separator
      (white space or '-') at each letter/digit boundary, and the plate is
      returned with every separator removed. */
  function ValidatePlate(p: string): (r: PlateVerdict)
    ensures |p| == 0 ==> r == PlateBad(EmptyPlateMessage)
    ensures r.PlateOk? <==> |p| > 0 && MatchesPlatePattern(Strip(Upper(p)))
    ensures r.PlateOk? ==> Canonical(r.plate) && (|r.plate| == 6 || |r.plate| == 7)
    ensures r.PlateBad? && |p| > 0 ==> r.message == PlateFormatMessage
  {
    if |p| == 0 then PlateBad(EmptyPlateMessage)
    else
      var t := Strip(Upper(p));
      if MatchesPlatePattern(t) then
        PatternGivesCanonical(t);
        PlateOk(RemoveSeps(t))
      else PlateBad(PlateFormatMessage)
  }

  /** A canonical plate written with the allowed separators. */
  function WithSeparators(c: string, s1: string, s2: string): string
    requires Canonical(c)
  {
    if |c| == 6 then c[..3] + s1 + c[3..] else c[..2] + s1 + c[2..5] + s2 + c[5..]
  }

  /** Upper-case letters, digits and separators, starting and ending with a
      letter or digit. */
  predicate PlateText(x: string) {
    && |x| > 0 && (IsUpperAscii(x[0]) || IsDigit(x[0])) && (IsUpperAscii(x[|x| - 1]) || IsDigit(x[|x| - 1]))
    && forall i | 0 <= i < |x| :: IsUpperAscii(x[i]) || IsDigit(x[i]) || IsSep(x[i])
  }

  /** Upper-casing and stripping leave a plate text alone. */
  lemma PlateTextUnchanged(x: string)
    requires PlateText(x)
    ensures Upper(x) == x && Strip(x) == x
  {
    UpperKeeps(x);
    StripKeeps(x);
  }

  /** A text that upper-casing and stripping leave alone and that matches a
      pattern is accepted as itself without its separators. */
  lemma CleanPlateAccepted(x: string)
    requires |x| > 0 && Upper(x) == x && Strip(x) == x && MatchesPlatePattern(x)
    ensures ValidatePlate(x).PlateOk? && ValidatePlate(x).plate == RemoveSeps(x)
  {
  }

  /** An old-format plate with an optional separator is accepted and cleaned. */
  lemma OldFormAccepted(a: string, s1: string, b: string)
    requires OldParts(a, s1, b)
    ensures ValidatePlate(a + s1 + b) == PlateOk(a + b)
  {
    var x := a + s1 + b;
    assert forall i | 0 <= i < |x| :: x[i] == (if i < 3 then a[i] else if i < 3 + |s1| then s1[i - 3] else b[i - 3 - |s1|]);
    PlateTextUnchanged(x);
    assert x[..3] == a && x[3..3 + |s1|] == s1 && x[3 + |s1|..] == b;
    assert OldShape(x, |s1|);
    OldPartsRemoveSeps(a, s1, b);
    CleanPlateAccepted(x);
  }

  lemma MercosurChars(a: string, s1: string, b: string, s2: string, c: string)
    requires MercosurParts(a, s1, b, s2, c)
    ensures PlateText(a + s1 + b + s2 + c)
  {
    var x := a + s1 + b + s2 + c;
    var w1, w2 := |s1|, |s2|;
    forall i | 0 <= i < |x|
      ensures IsUpperAscii(x[i]) || IsDigit(x[i]) || IsSep(x[i])
    {
      if i < 2 {
        assert x[i] == a[i];
      } else if i < 2 + w1 {
        assert x[i] == s1[i - 2];
      } else if i < 5 + w1 {
        assert x[i] == b[i - 2 - w1];
      } else if i < 5 + w1 + w2 {
        assert x[i] == s2[i - 5 - w1];
      } else {
        assert x[i] == c[i - 5 - w1 - w2];
      }
    }
    assert x[0] == a[0] && x[|x| - 1] == c[1];
  }

  lemma MercosurSlices(a: string, s1: string, b: string, s2: string, c: string)
    requires MercosurParts(a, s1, b, s2, c)
    ensures MercosurShape(a + s1 + b + s2 + c, |s1|, |s2|)
  {
    var x := a + s1 + b + s2 + c;
    var w1, w2 := |s1|, |s2|;
    assert x[..2] == a;
    assert x[2..2 + w1] == s1;
    assert x[2 + w1..5 + w1] == b;
    assert x[5 + w1..5 + w1 + w2] == s2;
    assert x[5 + w1 + w2..] == c;
  }

  /** A Mercosur plate with optional separators is accepted and cleaned. */
  lemma MercosurFormAccepted(a: string, s1: string, b: string, s2: string, c: string)
    requires MercosurParts(a, s1, b, s2, c)
    ensures ValidatePlate(a + s1 + b + s2 + c) == PlateOk(a + b + c)
  {
    var x := a + s1 + b + s2 + c;
    MercosurChars(a, s1, b, s2, c);
    PlateTextUnchanged(x);
    MercosurSlices(a, s1, b, s2, c);
    MercosurPartsRemoveSeps(a, s1, b, s2, c);
    CleanPlateAccepted(x);
  }

  /** Every spelling of a canonical plate with optional separators at the
      boundaries is accepted and cleaned back to that plate. */
  lemma PlateAcceptsSeparatedForms(c: string, s1: string, s2: string)
    requires Canonical(c) && SepOk(s1) && SepOk(s2)
    ensures ValidatePlate(WithSeparators(c, s1, s2)) == PlateOk(c)
  {
    if |c| == 6 {
      OldFormAccepted(c[..3], s1, c[3..]);
      assert c[..3] + c[3..] == c;
    } else {
      MercosurFormAccepted(c[..2], s1, c[2..5], s2, c[5..]);
      assert c[..2] + c[2..5] + c[5..] == c;
    }
  }

  /** A cleaned plate validates to itself: validation is idempotent. */
  lemma PlateValidationIdempotent(p: string)
    requires ValidatePlate(p).PlateOk?
    ensures ValidatePlate(ValidatePlate(p).plate) == ValidatePlate(p)
  {
    var c := ValidatePlate(p).plate;
    PlateAcceptsSeparatedForms(c, "", "");
    if |c| == 6 {
      assert WithSeparators(c, "", "") == c;
    } else {
      assert WithSeparators(c, "", "") == c;
    }
  }

  // ---------------------------------------------------------------------
  // int(x) and validar_entero_positivo

  /** The digits of an `int()` literal: digits, single underscores allowed
      between two digits. */
  predicate IsIntBody(u: string) {
    && |u| > 0 && IsDigit(u[0]) && IsDigit(u[|u| - 1])
    && forall i | 0 <= i < |u| - 1 :: IsDigit(u[i]) || (u[i] == '_' && IsDigit(u[i + 1]))
  }

  function DropUnderscores(u: string): (r: string)
    ensures forall i | 0 <= i < |r| :: r[i] != '_' && r[i] in u
    ensures (forall i | 0 <= i < |u| :: u[i] != '_') ==> r == u
  {
    if |u| == 0 then "" else (if u[0] == '_' then "" else [u[0]]) + DropUnderscores(u[1..])
  }

  /** Python's `int(s)` for a string of ASCII digits: surrounding white
      space, an optional sign and a decimal body; `None` where Python raises
      `ValueError`. Other Unicode decimal digits and the digit-count limit
      are not modelled. */
  function ParseIntLiteral(s: string): Option<int> {
    var t := Strip(s);
    if |t| > 0 && (t[0] == '+' || t[0] == '-') then
      var body := t[1..];
      if IsIntBody(body) then
        IntBodyDigits(body);
        var n: int := DigitsValue(DropUnderscores(body));
        Some(if t[0] == '-' then -n else n)
      else None
    else if IsIntBody(t) then
      IntBodyDigits(t);
      Some(DigitsValue(DropUnderscores(t)))
    else None
  }

  /** Without its underscores, an `int()` body is all digits. */
  lemma IntBodyDigits(u: string)
    requires IsIntBody(u)
    ensures AllDigits(DropUnderscores(u))
  {
    var r := DropUnderscores(u);
    forall i | 0 <= i < |r| ensures IsDigit(r[i]) {
      assert r[i] in u && r[i] != '_';
    }
  }

  /** `int(str(n)) == n`. */
  lemma ParseIntOfNatToString(n: nat)
    ensures ParseIntLiteral(NatToString(n)) == Some(n)
  {
    var s := NatToString(n);
    StripKeeps(s);
    assert !(s[0] == '+' || s[0] == '-');
    assert IsIntBody(s);
    assert DropUnderscores(s) == s;
    NatToStringRoundTrip(n);
  }

  lemma ParseIntOfNegative(n: nat)
    requires n > 0
    ensures ParseIntLiteral("-" + NatToString(n)) == Some(-(n as int))
  {
    var body := NatToString(n);
    var s := "-" + body;
    NatToStringIsBody(n);
    assert Strip(s) == s by {
      assert s[|s| - 1] == body[|body| - 1];
      assert !IsSpace(s[0]);
      StripKeeps(s);
    }
    assert s[1..] == body;
    ParseSigned(s, body);
  }

  /** A stripped text made of '-' and an `int()` body parses to minus the body. */
  lemma ParseSigned(s: string, body: string)
    requires Strip(s) == s && |s| > 0 && s[0] == '-' && s[1..] == body && IsIntBody(body)
    ensures ParseIntLiteral(s) == Some(-(DigitsValue(DropUnderscores(body)) as int))
  {
  }

  /** A decimal numeral is an `int()` body with no underscores, and reads
      back as its number. */
  lemma NatToStringIsBody(n: nat)
    ensures IsIntBody(NatToString(n)) && !IsSpace(NatToString(n)[|NatToString(n)| - 1])
    ensures DropUnderscores(NatToString(n)) == NatToString(n)
    ensures DigitsValue(DropUnderscores(NatToString(n))) == n
  {
    var body := NatToString(n);
    assert NoSpace(body);
    assert IsIntBody(body);
    assert DropUnderscores(body) == body;
    NatToStringRoundTrip(n);
  }

  /** `int(str(n)) == n`. */
  lemma ParseIntOfIntToString(n: int)
    ensures ParseIntLiteral(IntToString(n)) == Some(n)
  {
    if n < 0 {
      ParseIntOfNegative(-n);
    } else {
      ParseIntOfNatToString(n);
    }
  }

  /** Python's `int(v)`; `None` where it raises `ValueError` or `TypeError`. */
  function PyInt(v: Value): Option<int> {
    match v
    case Null => None
    case Str(s) => ParseIntLiteral(s)
    case Int(i) => Some(i)
    case Real(r) => Some(Trunc(r))
  }

  predicate WithinBounds(n: int, minimo: Option<int>, maximo: Option<int>) {
    n >= 0 && (minimo.Some? ==> n >= minimo.value) && (maximo.Some? ==> n <= maximo.value)
  }

  /** `validar_entero_positivo`. */
  function ValidateInt(v: Value, minimo: Option<int>, maximo: Option<int>, required: bool): (r: Verdict)
    ensures r.Accept? <==>
      || (!required && (v == Null || v == Str("")))
      || (PyInt(v).Some? && WithinBounds(PyInt(v).value, minimo, maximo))
    ensures r.Reject? && PyInt(v).None? ==> r.message == "Debe ser un número entero válido"
    ensures r.Reject? && PyInt(v).Some? && PyInt(v).value < 0 ==> r.message == "Debe ser un número positivo"
    ensures (r.Reject? && PyInt(v).Some? && PyInt(v).value >= 0 && minimo.Some? && PyInt(v).value < minimo.value)
              ==> r.message == "Debe ser mayor o igual a " + IntToString(minimo.value)
    ensures (r.Reject? && PyInt(v).Some? && PyInt(v).value >= 0
             && (minimo.None? || PyInt(v).value >= minimo.value) && maximo.Some? && PyInt(v).value > maximo.value)
              ==> r.message == "Debe ser menor o igual a " + IntToString(maximo.value)
  {
    if !required && (v == Null || v == Str("")) then Accept
    else match PyInt(v)
      case None => Reject("Debe ser un número entero válido")
      case Some(n) =>
        if n < 0 then Reject("Debe ser un número positivo")
        else if minimo.Some? && n < minimo.value then Reject("Debe ser mayor o igual a " + IntToString(minimo.value))
        else if maximo.Some? && n > maximo.value then Reject("Debe ser menor o igual a " + IntToString(maximo.value))
        else Accept
  }

  /** The decimal text of any in-range number is accepted. */
  lemma ValidateIntAcceptsItsText(n: int, minimo: Option<int>, maximo: Option<int>, required: bool)
    requires WithinBounds(n, minimo, maximo)
    ensures ValidateInt(Str(IntToString(n)), minimo, maximo, required) == Accept
  {
    ParseIntOfIntToString(n);
  }

  // ---------------------------------------------------------------------
  // validar_texto

  /** `validar_texto` without a pattern: an optional empty value passes, `None`
      fails, otherwise the length must lie within the bounds. */
  function ValidateText(texto: Option<string>, minLen: int, maxLen: Option<int>, required: bool): (r: Verdict)
    ensures r.Accept? <==>
      || (!required && (texto == None || texto == Some("")))
      || (texto.Some? && minLen <= |texto.value| && (maxLen.Some? ==> |texto.value| <= maxLen.value))
    ensures required && texto.None? ==> r == Reject("El texto no puede ser nulo")
    ensures texto.Some? && (required || texto.value != "") && |texto.value| < minLen ==>
              r == Reject("Debe tener al menos " + IntToString(minLen) + " caracteres")
    ensures texto.Some? && (required || texto.value != "") && minLen <= |texto.value|
              && maxLen.Some? && |texto.value| > maxLen.value ==>
              r == Reject("Debe tener máximo " + IntToString(maxLen.value) + " caracteres")
  {
    if !required && (texto == None || texto == Some("")) then Accept
    else if texto.None? then Reject("El texto no puede ser nulo")
    else if |texto.value| < minLen then Reject("Debe tener al menos " + IntToString(minLen) + " caracteres")
    else if maxLen.Some? && |texto.value| > maxLen.value then
      Reject("Debe tener máximo " + IntToString(maxLen.value) + " caracteres")
    else Accept
  }

  /** Making a text optional never turns an accepted text away, and
      widening the length bounds never does either. */
  lemma ValidateTextMonotone(texto: Option<string>, minLen: int, maxLen: Option<int>, required: bool,
                             minLen': int, maxLen': Option<int>, required': bool)
    requires minLen' <= minLen
    requires maxLen'.Some? ==> maxLen.Some? && maxLen.value <= maxLen'.value
    requires required' ==> required
    ensures ValidateText(texto, minLen, maxLen, required).Accept? ==>
              ValidateText(texto, minLen', maxLen', required').Accept?
  {
  }

  // ---------------------------------------------------------------------
  // sanitizar_input

  /** `sanitizar_input`: quotes doubled, then `;`, `--`, `/*`, `*/` and
      `xp_` removed, each by one left-to-right pass, in that order. */
  function Sanitize(texto: Option<string>): (r: Option<string>)
    ensures texto.None? <==> r.None?
    ensures r.Some? ==> ';' !in r.value
    ensures r.Some? ==> Count(r.value, '\'') == 2 * Count(texto.value, '\'')
  {
    match texto
    case None => None
    case Some(s) =>
      var s1 := ReplaceAll(s, "'", "''");
      var s2 := ReplaceAll(s1, ";", "");
      var s3 := ReplaceAll(s2, "--", "");
      var s4 := ReplaceAll(s3, "/*", "");
      var s5 := ReplaceAll(s4, "*/", "");
      var s6 := ReplaceAll(s5, "xp_", "");
      SanitizeFacts(s, s1, s2, s3, s4, s5, s6);
      Some(s6)
  }

  lemma SanitizeFacts(s: string, s1: string, s2: string, s3: string, s4: string, s5: string, s6: string)
    requires s1 == ReplaceAll(s, "'", "''") && s2 == ReplaceAll(s1, ";", "")
    requires s3 == ReplaceAll(s2, "--", "") && s4 == ReplaceAll(s3, "/*", "")
    requires s5 == ReplaceAll(s4, "*/", "") && s6 == ReplaceAll(s5, "xp_", "")
    ensures ';' !in s6
    ensures Count(s6, '\'') == 2 * Count(s, '\'')
  {
    DoublingDoublesCount(s, '\'');
    RemovalKeepsCount(s1, ";", '\'');
    RemovalKeepsCount(s2, "--", '\'');
    RemovalKeepsCount(s3, "/*", '\'');
    RemovalKeepsCount(s4, "*/", '\'');
    RemovalKeepsCount(s5, "xp_", '\'');
    RemovalOfCharIsComplete(s1, ';');
    RemovalOnlyDeletes(s2, "--");
    RemovalOnlyDeletes(s3, "/*");
    RemovalOnlyDeletes(s4, "*/");
    RemovalOnlyDeletes(s5, "xp_");
    assert multiset(s6)[';'] <= multiset(s2)[';'] == 0;
  }

  // ---------------------------------------------------------------------
  // validar_email

  predicate IsLocalChar(c: char) {
    IsAsciiLetter(c) || IsDigit(c) || c == '.' || c == '_' || c == '%' || c == '+' || c == '-'
  }

  predicate IsDomainChar(c: char) {
    IsAsciiLetter(c) || IsDigit(c) || c == '.' || c == '-'
  }

  /** `s` read as `local@domain.tld` with the '@' at `at` and the final '.' at `dot`. */
  predicate EmailSplit(s: string, at: int, dot: int) {
    && 0 < at && at + 1 < dot && dot + 3 <= |s|
    && (forall i | 0 <= i < at :: IsLocalChar(s[i]))
    && s[at] == '@'
    && (forall i | at < i < dot :: IsDomainChar(s[i]))
    && s[dot] == '.'
    && (forall i | dot < i < |s| :: IsAsciiLetter(s[i]))
  }

  /** The whole of `s` matches `[a-zA-Z0-9._%+-]+@[a-zA-Z0-9.-]+\.[a-zA-Z]{2,}`. */
  ghost predicate MatchesEmailPattern(s: string) {
    exists at, dot :: EmailSplit(s, at, dot)
  }

  function IndexOf(s: string, c: char): (r: Option<nat>)
    ensures r.Some? ==> r.value < |s| && s[r.value] == c && forall j | 0 <= j < r.value :: s[j] != c
    ensures r.None? ==> forall j | 0 <= j < |s| :: s[j] != c
  {
    if |s| == 0 then None
    else if s[0] == c then Some(0)
    else match IndexOf(s[1..], c)
      case None => None
      case Some(k) => Some(k + 1)
  }

  function LastIndexOf(s: string, c: char): (r: Option<nat>)
    ensures r.Some? ==> r.value < |s| && s[r.value] == c && forall j | r.value < j < |s| :: s[j] != c
    ensures r.None? ==> forall j | 0 <= j < |s| :: s[j] != c
  {
    if |s| == 0 then None
    else if s[|s| - 1] == c then Some(|s| - 1)
    else LastIndexOf(s[..|s| - 1], c)
  }

  /** The matcher: split at the first '@' and the last '.'. */
  predicate EmailShape(s: string) {
    var at := IndexOf(s, '@');
    var dot := LastIndexOf(s, '.');
    at.Some? && dot.Some? && EmailSplit(s, at.value, dot.value)
  }

  /** Splitting at the first '@' and the last '.' finds a match exactly when
      some split does. */
  lemma EmailShapeMatchesPattern(s: string)
    ensures EmailShape(s) <==> MatchesEmailPattern(s)
  {
    if MatchesEmailPattern(s) {
      var at, dot :| EmailSplit(s, at, dot);
      var a := IndexOf(s, '@');
      var d := LastIndexOf(s, '.');
      assert a.Some? && a.value <= at;
      assert d.Some? && d.value >= dot;
    }
  }

  /** `validar_email`: non-empty and matching the pattern; Python's `$` also
      accepts a single newline at the very end. */
  function ValidateEmail(email: string): (r: Verdict)
    ensures r.Accept? <==>
      && |email| > 0
      && (|| MatchesEmailPattern(email)
          || (EndsWith(email, "\n") && MatchesEmailPattern(email[..|email| - 1])))
    ensures |email| == 0 ==> r == Reject("El email no puede estar vacío")
  {
    if |email| == 0 then Reject("El email no puede estar vacío")
    else
      EmailShapeMatchesPattern(email);
      EmailShapeMatchesPattern(email[..|email| - 1]);
      if EmailShape(email) || (email[|email| - 1] == '\n' && EmailShape(email[..|email| - 1])) then Accept
      else Reject("Formato de email inválido")
  }
}
